=== FILE: README.md ===
# Scrabble rules engine, rack, bag, move search and undo, in Dafny

This project models the rules core of a Java Scrabble game on a 15 x 15 board and proves what that core does:

- **Scoring** (`scoring.dfy`): the letter-value table and `calculateWordScore`, whose multiplier index runs across word boundaries.
- **Tiles** (`tiles.dfy`): a `Tile` class (letter, value, blank flag, assigned letter) and the shared A-Z tile table.
- **TileBags** (`tilebags.dfy`): the tile bag as a count map (a sequence of entries in a fixed iteration order). It covers the weighted pick (the random number is a parameter), the return, the size and the printed form.
- **Players** (`players.dfy`): the seven-slot rack as an `array`, with fill-the-first-empty-slot, use-by-identity, write-by-index and the letter lookup, plus the score and pass counters.
- **BoardRules** (`boardrules.dfy`): the placement rules of `placeTilesAndValidate` as functions over a grid of characters. They cover the early checks, the tentative write, adjacency, run extraction, recording, rollback and the turn score.
- **Boards** (`boards.dfy`): the `Board` class with its `array2` grid and multiplier arrays. Every method is proved against those functions.
- **BoardExamples** (`boardexamples.dfy`): the board's worked examples, each proved for every dictionary containing its word (TEST), or for every dictionary when the play is rejected.
- **MoveSearch** (`movesearch.dfy`): the computer player (`AI`). It keeps the anchor set and the board mirror maintained by `boardChanged`, the multiset filter of `findPossibleWord`, and the search of `findBestWord`/`tryWordPlace`. That search is proved to return the first best-scoring trial in loop order.
- **Game** (`game.dfy`): the game model (`ScrabbleModel`). It covers seating a player, the per-player undo and redo stacks, turn order, passing, rack refill, the sort of a placement before validation, and the rebuild of the computer player's view after loading.
- **Wrappers** (`wrappers.dfy`): `Option`.

The dictionary is a set of upper-case strings. A word is valid when its upper-cased form is in the set. The model upper-cases one character at a time (`Scoring.UpperString`).

## Model

| member | source | states |
|---|---|---|
| Scoring.ToUpper | src/Scoring.java:31 | Character.toUpperCase as the letter table sees it: a-z become A-Z, every other character that does not map into A-Z is unchanged |
| Scoring.UpperString | src/WordDictionary.java:51-53 | the word upper-cased character by character: same length, and each character mapped by `ToUpper` (the length-changing and locale-dependent mappings of `String.toUpperCase` are left out) |
| Scoring.LetterValueRange | src/Scoring.java:10-32 | every letter value lies in 0..10 and is positive exactly for A-Z in either case |
| Scoring.NonLetterIsWorthless | src/Scoring.java:30-32 | a blank or any other character outside the table is worth 0 (the getOrDefault default) |
| Scoring.CalculateWordScore | src/Scoring.java:40-54 | the nested loop returns the sum, over every letter of every word, of its value times the multiplier at its running index (1 past the end of the multiplier list) |
| Scoring.ScoreLetters | src/Scoring.java:45-51 | the inner loop advances the running index by the word's length and adds the word's letters scored from that index |
| Scoring.ScoreFromAppend | src/Scoring.java:44-52 | scoring a concatenation splits: the second part continues the running index after the first |
| Scoring.AppendedWordContinuesIndex | src/Scoring.java:42-52 | the running index is not reset between words: an appended word uses the multipliers after all earlier letters |
| Scoring.NoMultipliersIsPlainSum | src/Scoring.java:48-49 | with an empty multiplier list every letter counts once |
| Scoring.EmptyListScoresZero | src/Scoring.java:41-53 | an empty word list scores 0 |
| Scoring.ScoreFromNonNegative | src/Scoring.java:40-54 | non-negative multipliers never give a negative score |
| Tiles.Tile.Make | src/Tile.java:55-61 | a blank gets value 0 and assigned letter ' '; any other tile keeps its value and is assigned its own letter |
| Tiles.Tile.constructor | src/Tile.java:70-75 | the letter is upper-cased, the tile is not blank and its assigned letter stays ' ' |
| Tiles.Tile.CreateLetter | src/Tile.java:77-80 | a fresh non-blank tile with the given letter and value, playing as that letter |
| Tiles.Tile.CreateBlank | src/Tile.java:82-85 | a fresh blank worth 0 that plays as ' ' and prints as a space |
| Tiles.Tile.EffectiveLetter | src/Tile.java:101-104 | a blank plays its assigned letter, any other tile its own letter |
| Tiles.Tile.SetAssignedLetter | src/Tile.java:119-125 | only a blank takes the letter, upper-cased; a non-blank tile plays as before |
| Tiles.Tile.GetValue | src/Tile.java:142-144 | the tile's value, 0 for a blank |
| Tiles.Tile.ToString | src/Tile.java:151-153 | a one-character string holding the base letter |
| Tiles.TileTable.constructor | src/Tile.java:17-46 | the shared table holds exactly the letters A-Z, each a distinct fresh non-blank tile of that letter with the scoring table's value |
| Tiles.TileTable.GetTile | src/Tile.java:93-95 | a tile exactly for A-Z, of that letter and value, never a blank; null for every other character |
| Tiles.TableLettersAreUpper | src/Tile.java:20-45 | the table's keys are exactly the upper-case letters |
| Tiles.TableAgreesWithScoring | src/Tile.java:20-45 | every table tile carries the value the scoring table gives its letter |
| TileBags.Find | src/TileBag.java:105 | the lookup of a key: its position when present, otherwise past the end, with no earlier entry for it |
| TileBags.TileBag.constructor | src/TileBag.java:21-53 | a fresh bag: the 26 table tiles with their counts in order, then the shared blank twice; 102 tiles in all, keys distinct, and the only blank key is the shared blank |
| TileBags.TileBag.Size | src/TileBag.java:112-118 | the loop returns the sum of all counts |
| TileBags.TileBag.PickFromBag | src/TileBag.java:60-98 | an empty bag yields null and stays empty; otherwise the entry whose running count range holds the random number is picked, loses one tile (the entry goes at 1) and a blank comes back as the shared blank; the size drops by one exactly when a tile is returned; with no null key a tile is always returned; when every blank key is the shared blank, the bag's tiles lose exactly the returned tile and that stays so |
| TileBags.TileBag.FindPick | src/TileBag.java:66-79 | the scan stops at the entry whose running count range holds the random number |
| TileBags.TileBag.TakeAt | src/TileBag.java:81-89 | the picked entry's count drops by one, or the entry is removed at 1; the size drops by one and the bag stays well formed |
| TileBags.TileBag.ReturnTileToBag | src/TileBag.java:104-106 | the count of the tile goes up by one, a new entry with count 1 when absent; the size grows by one, keys stay distinct, and the bag's tiles gain exactly that tile |
| TileBags.TileBag.ToString | src/TileBag.java:129-152 | the header, the empty note when the bag is empty, then every tile's letter repeated by its count, sorted and joined with ", " |
| TileBags.TotalTaken | src/TileBag.java:81-89 | taking a tile lowers the bag's size by exactly one |
| TileBags.TotalRemoved | src/TileBag.java:86-88 | removing an entry lowers the size by its count |
| TileBags.TotalReturned | src/TileBag.java:104-106 | returning a tile raises the size by exactly one |
| TileBags.PickThenReturnRestoresTotal | src/TileBag.java:60-106 | a pick followed by returning the picked key restores the size |
| TileBags.TakenKeepsWellFormed | src/TileBag.java:81-89 | a pick keeps keys distinct and counts positive |
| TileBags.ReturnedKeepsWellFormed | src/TileBag.java:104-106 | a return keeps keys distinct and counts positive |
| TileBags.TakenKeepsNoNullKey | src/TileBag.java:81-89 | a pick never brings a null key into the bag |
| TileBags.ContentsTaken | src/TileBag.java:81-89 | taking one of a non-null key removes exactly one copy of that tile from the bag's multiset |
| TileBags.ContentsReturned | src/TileBag.java:104-106 | returning a tile adds exactly one copy of it to the bag's multiset |
| TileBags.TakenKeepsSharedBlanks | src/TileBag.java:81-89 | after a pick every blank key is still the shared blank |
| TileBags.ReturnedKeepsSharedBlanks | src/TileBag.java:104-106 | returning a non-blank tile or the shared blank keeps every blank key the shared blank |
| TileBags.TotalAtLeastEntries | src/TileBag.java:61-66 | a non-empty bag has a positive size, so the random bound is valid |
| TileBags.PickIsUnique | src/TileBag.java:70-79 | exactly one entry's running count range holds a given random number |
| TileBags.SumOfBagCounts | src/TileBag.java:26-51 | the letter counts add up to 100 |
| TileBags.FreshBagWellFormed | src/TileBag.java:21-53 | a fresh bag has distinct keys and positive counts |
| TileBags.FreshBagTotal | src/TileBag.java:21-53 | a fresh bag holds 102 tiles |
| TileBags.ExpandLength | src/TileBag.java:138-145 | toString lists as many letters as the bag holds tiles |
| TileBags.InsertSortedPerm | src/TileBag.java:147 | inserting into a sorted list keeps it sorted and adds exactly the new letter |
| TileBags.SortLettersSortedPerm | src/TileBag.java:147 | the sorted list is sorted and a permutation of the listed letters |
| TileBags.JoinAt | src/TileBag.java:149 | the joined text has length 3n - 2 and the k-th letter at position 3k |
| Players.FirstNull | src/Player.java:148-156 | the position of the first empty slot, past the end when there is none |
| Players.SlotOf | src/Player.java:85-91 | the first slot holding the value (the very tile object for useTile, the letter for getTile), past the end when there is none |
| Players.Player.constructor | src/Player.java:28-35 | a fresh rack of seven empty slots, score 0, no passes |
| Players.Player.SetAvailableTile | src/Player.java:148-156 | the tile goes into the lowest empty slot and true is returned; a full rack is unchanged and false is returned |
| Players.Player.AddTile | src/Player.java:199-207 | the same behaviour as setAvailableTile |
| Players.Player.UseTile | src/Player.java:79-92 | for each non-null used tile in turn, the first slot holding that object is emptied |
| Players.UseAllRemovesUsed | src/Player.java:79-92 | useTile removes exactly the used tiles the rack holds (multiset difference), keeps the rack length and never fills a slot |
| Players.HeldAfterUseOne | src/Player.java:81-91 | one used tile removes that one object from what the rack holds, if present |
| Players.AddToFirstNullHolds | src/Player.java:148-156 | adding to a rack with an empty slot adds exactly the new tile |
| Players.Player.SetAvailableTileAt | src/Player.java:172-178 | an in-range slot is overwritten; an out-of-range index changes nothing |
| Players.Player.ReplaceTileAt | src/Player.java:422-428 | the same behaviour as setAvailableTileAt |
| Players.Player.SetAvailableTiles | src/Player.java:162-165 | the rack becomes the given array itself; score and passes are kept |
| Players.Player.GetTile | src/Player.java:185-192 | the first slot whose effective letter matches, or null when no slot matches |
| Players.Player.AddScore | src/Player.java:135 | the score grows by the points; nothing else changes |
| Players.Player.SetScore | src/Player.java:141 | the score becomes the points; nothing else changes |
| Players.Player.AddToPassCounter | src/Player.java:107-109 | the pass counter grows by one; nothing else changes |
| Players.Player.ResetPassCounter | src/Player.java:114-116 | the pass counter becomes 0; nothing else changes |
| Players.Player.DisplayAvailableTile | src/Player.java:214-225 | the text of the non-empty slots in slot order, each followed by a space |
| Players.DisplayLayout | src/Player.java:214-225 | the display has two characters per tile: the k-th letter at 2k, then a space |
| BoardRules.DefaultLayoutRange | src/Board.java:51-127 | every premium of the standard layout is 1, 2 or 3, and the centre doubles the word without multiplying its letter |
| BoardRules.DefaultMultsPositive | src/Board.java:51-127 | no square of the standard layout multiplies a letter or a word by less than 1 |
| BoardRules.RunBeginBounds | src/Board.java:335-344 | the backward walk passes only letters and stops just after a blank or the edge |
| BoardRules.RunFromBounds | src/Board.java:347-372 | the forward walk copies the letters it passes and stops at a blank or the edge |
| BoardRules.ExtractIsMaximalRun | src/Board.java:334-372 | started on a letter, the extraction yields the maximal run of letters through the starting square |
| BoardRules.MultiplierOnlyOnNewSquares | src/Board.java:359-362 | a letter multiplier matters only on a newly placed square |
| BoardRules.RunScoreNonNegative | src/Board.java:358-364 | with non-negative multipliers a run's score is non-negative |
| BoardRules.WrittenAt | src/Board.java:206-212 | after the tentative write each square shows the letter of the last non-null tile listed there, and is unchanged otherwise |
| BoardRules.ClearedAt | src/Board.java:387-391 | after removeTiles a listed square is blank and every other square is unchanged |
| BoardRules.PlaceFrame | src/Board.java:170-231 | placeTilesAndValidate never changes a square it does not list |
| BoardRules.RejectedRollsBack | src/Board.java:170-231 | a rejected placement scores 0; rejected before the write it changes nothing, rejected after it every listed square is blank (connectors included) and every other square is as before |
| BoardRules.AcceptedKeepsLetters | src/Board.java:170-231 | an accepted placement keeps every written letter, empties the word list and scores the recorded runs' sum times the listed squares' word multipliers |
| BoardRules.NothingRecordedKeepsTiles | src/Board.java:221-230 | when no run longer than one letter is recorded the call returns 0 yet the tiles stay on the board |
| BoardRules.SumScoresNonNegative | src/Board.java:402-404 | the sum of non-negative recorded scores is non-negative |
| BoardRules.WordProductNonNegative | src/Board.java:407-410 | the product of non-negative word multipliers is non-negative |
| BoardRules.ExtractNonNegative | src/Board.java:328-379 | with non-negative letter multipliers the run extracted through a square scores at least 0 |
| BoardRules.RecordingsNonNegative | src/Board.java:292-316 | with non-negative letter multipliers every run recorded by validateWords scores at least 0 |
| BoardRules.PlaceScoreNonNegative | src/Board.java:398-415 | with non-negative multipliers placeTilesAndValidate never returns a negative score |
| BoardRules.Place | src/Board.java:170-231 | placeTilesAndValidate keeps a 15 by 15 board, and a non-zero score means every early check passed and the recorded list was emptied |
| Boards.Board.constructor | src/Board.java:41-128 | a new board has every square empty, the standard premium squares (the centre doubles the word) and no recorded words |
| Boards.Board.IsFirstPlay | src/Board.java:237-239 | the first play is exactly when the centre square is empty |
| Boards.Board.GetLetterAt | src/Board.java:424-430 | the letter of an on-board square, a blank for any other coordinate |
| Boards.Board.SetLetterAt | src/Board.java:439-445 | exactly the one on-board square changes; an off-board coordinate changes nothing |
| Boards.Board.SetTileMultipliers | src/Board.java:452-455 | the board adopts the two given grids; its letters are unchanged |
| Boards.Board.CheckAdjacency | src/Board.java:266-283 | true exactly when some listed square has a letter above, below, left or right of it |
| Boards.Board.ExtractWordAndCalculateScore | src/Board.java:328-379 | the word is the run through the start square in the given direction; its score adds each letter's value times its letter multiplier when the square is listed; a run longer than one letter is appended to the word list; the board is unchanged |
| Boards.Board.WalkBack | src/Board.java:335-344 | the backward walk ends on the first square of the run |
| Boards.Board.LetterScore | src/Board.java:350-362 | one square's value, times its letter multiplier exactly when the square is listed |
| Boards.Board.WalkForward | src/Board.java:347-372 | the forward walk collects the letters up to the next blank or the edge, with their score |
| Boards.WalkOn | src/Board.java:347-372 | each step of the forward walk appends one letter to the word and its value to the score |
| Boards.Board.IsNewlyPlaced | src/Board.java:350-356 | true exactly when the square is among the listed coordinates |
| Boards.Board.ValidateWords | src/Board.java:292-316 | the list is cleared, then holds the vertical run of every listed square in the first square's column and the horizontal run of every listed square in its row; true exactly when every recorded run is a dictionary word |
| Boards.Board.RemoveTiles | src/Board.java:387-391 | every listed square becomes blank; nothing else changes |
| Boards.Board.GetTurnScore | src/Board.java:398-415 | the recorded scores' sum times the product of the listed squares' word multipliers; the list is emptied |
| Boards.Board.PlaceTilesAndValidate | src/Board.java:170-231 | the score, the new board and the word list are those of the placement rules (checks, tentative write, rollback, scoring) applied to the old board |
| Boards.Board.EarlyChecks | src/Board.java:176-203 | true exactly when a first play covers the centre and consecutive tiles share a row or a column |
| Boards.Board.PlaceInLine | src/Board.java:205-230 | once the early checks pass: write, then roll back unless the tiles touch a letter and make only dictionary words, else score |
| Boards.Board.InOneLine | src/Board.java:196-203 | true exactly when each consecutive pair of listed squares shares its row or its column |
| Boards.Board.WriteTiles | src/Board.java:206-212 | each non-null tile's effective letter is written on its square, later tiles over earlier ones |
| BoardExamples.SingleTileFirstPlayRejected | src/Board.java:176-219 | a one-tile first play on the centre passes the first-play check but touches no letter, so it scores 0 and the board is empty again |
| BoardExamples.TestAtCentreScores32 | src/BoardTest.java:36-46 | TEST across the centre of an empty board stays on the board and scores 32: the row's run is recorded once per tile (4 x 4 points), doubled by the centre |
| Game.StampedAt | src/ScrabbleModel.java:516-522 | after the stamps each square shows the letter of the last mark on it, and is unchanged when none marks it |
| Game.Blanks | src/ScrabbleModel.java:546-552 | the squares restoreMoveState clears: a blank for each non-null tile, nothing for a null one |
| Game.CopyRack | src/ScrabbleModel.java:113-116 | a fresh array with the same slots as the rack |
| Game.WriteLetters | src/ScrabbleModel.java:512-522 | redo writes each non-null tile's effective letter back on its square, in order; the premiums, the recorded list and the dictionary are unchanged |
| Game.ScrabbleModel.constructor | src/ScrabbleModel.java:44-52 | a new game has an empty board with the dictionary, a full bag of 102 tiles, no players, index 0, no current player and no board observers; every blank key of the bag is the shared blank |
| Game.ScrabbleModel.Draw | src/TileBag.java:60-98 | a draw from the bag with the random number left open: the bag's size drops by one exactly when a tile comes back, an empty bag yields nothing, and a bag without a null key always yields a tile; when every blank key in the bag is the shared blank, as a fresh bag leaves it, the bag's tiles lose exactly the tile drawn |
| Game.ScrabbleModel.AddPlayer | src/ScrabbleModel.java:122-146 | the new player joins the list with score 0 and seven slots, each offered a draw; its undo stack holds only the snapshot of the new rack and score, its redo stack is empty; the rack gains as many tiles as the bag loses, and, when every blank key in the bag is the shared blank, as a fresh bag leaves it, exactly the tiles the bag loses |
| Game.ScrabbleModel.AddAIPlayer | src/ScrabbleModel.java:158-182 | as addPlayer, for a new computer player named with the " [AI]" suffix, with an empty view of the board, appended to the board observers |
| Game.ScrabbleModel.DealHand | src/ScrabbleModel.java:128-130 | seven draws offered to an empty rack: the rack gains as many tiles as the bag loses, and, when every blank key in the bag is the shared blank, as a fresh bag leaves it, exactly those tiles |
| Game.ScrabbleModel.OfferDraw | src/ScrabbleModel.java:129 | the draw goes into the first empty slot; the rack gains as many tiles as the bag loses, and, when every blank key in the bag is the shared blank, as a fresh bag leaves it, exactly the tile the bag loses |
| Game.HeldGrows | src/Player.java:148-156 | filling an empty slot with a tile adds exactly that tile to the rack's multiset, and a null adds none |
| Game.ScrabbleModel.StartGame | src/ScrabbleModel.java:194-202 | the computer player's view is set up from the board's dictionary, and the first player is the current one |
| Game.NextIndex | src/ScrabbleModel.java:666-681 | the index after i among n players, 0 after the last |
| Game.ScrabbleModel.AdvanceTurn | src/ScrabbleModel.java:674-681 | the next index, wrapping to 0, becomes current and the current player is the one getNextPlayer named |
| Game.AfterTurns | src/ScrabbleModel.java:674-677 | k turns from a valid index stay on a valid index |
| Game.AfterTurnsAdd | src/ScrabbleModel.java:674-677 | a + b turns are a turns followed by b turns |
| Game.AfterTurnsClimb | src/ScrabbleModel.java:674-677 | before the wrap each turn moves to the next index |
| Game.EveryPlayersTurnComes | src/ScrabbleModel.java:674-677 | n turns bring the turn back to the same player, and every player's turn comes within n turns |
| Game.ScrabbleModel.PassTurn | src/ScrabbleModel.java:564-596 | the current player's pass counter goes up by one; the result is true exactly when every player has passed at least twice, and then the turn stays, otherwise it moves to the next player |
| Game.PassedCountsAll | src/ScrabbleModel.java:572-580 | the pass count equals the number of players exactly when every player has passed at least twice |
| Game.ScrabbleModel.RefillRack | src/ScrabbleModel.java:602-617 | each empty slot in order is offered one draw; filled slots are untouched; the rack gains as many tiles as the bag loses, and, when every blank key in the bag is the shared blank, as a fresh bag leaves it, exactly those tiles; it ends full unless the bag ran out |
| Game.ScrabbleModel.RefillSlot | src/ScrabbleModel.java:607-615 | one empty slot takes a draw when the bag yields a tile; no other slot changes; when every blank key in the bag is the shared blank, as a fresh bag leaves it, the rack gains exactly the tile the bag loses |
| Game.ScrabbleModel.RestoreMoveState | src/ScrabbleModel.java:539-557 | the squares of the move's non-null tiles are blanked, and the rack and score saved in the snapshot come back; the premiums, the recorded list and the dictionary are unchanged |
| Game.ScrabbleModel.Undo | src/ScrabbleModel.java:468-488 | false and no change when only the initial snapshot is left; otherwise the last move is popped, a snapshot of its squares with the current rack and score goes onto redo, its squares are blanked and its saved rack and score come back; no other player's stacks change, and the board's premiums, recorded list and dictionary never change |
| Game.ScrabbleModel.Redo | src/ScrabbleModel.java:495-530 | false and no change when the redo stack is empty; otherwise its top is popped, a snapshot with the current rack and score goes onto undo, its letters are written back and its saved rack and score come back; no other player's stacks change, and the board's premiums, recorded list and dictionary never change |
| Game.ScrabbleModel.ReplayMoveState | src/ScrabbleModel.java:512-526 | the move's letters are written back and the saved rack and score come back; the premiums, the recorded list and the dictionary are unchanged |
| Game.UndoThenRedo | src/ScrabbleModel.java:468-530 | an undo followed by a redo restores the board, both stacks, the rack and the score exactly, when the board still shows the move's letters |
| Game.RedoThenUndo | src/ScrabbleModel.java:468-530 | a redo followed by an undo restores the board, both stacks, the rack and the score exactly, when the move's squares were blank |
| Game.Undone | src/ScrabbleModel.java:468-488 | undo succeeds exactly when more than one snapshot is on the undo stack; it then moves one entry to the redo stack and restores the rack and score of the snapshot it pops |
| Game.Redone | src/ScrabbleModel.java:495-530 | redo succeeds exactly when the redo stack is not empty; it then moves one entry back to the undo stack and restores the rack and score of the snapshot it pops |
| Game.PopUndoThenRedo | src/ScrabbleModel.java:475-509 | moving the last move onto redo and back restores both stacks, the rack and the score |
| Game.PopRedoThenUndo | src/ScrabbleModel.java:475-509 | moving the top of redo onto undo and back restores both stacks, the rack and the score |
| Game.FreshSeatCannotUndo | src/ScrabbleModel.java:139-145 | a player who has not moved cannot undo: the initial snapshot is never popped |
| Game.Restamp | src/ScrabbleModel.java:516-552 | stamping over a stamp that marks the same squares gives what the second stamp alone gives |
| Game.Orientation | src/ScrabbleModel.java:358-364 | horizontal exactly when every square shares the first one's row, vertical exactly when every square shares its column |
| Game.SortPlacement | src/ScrabbleModel.java:377-398 | the sorted arrays hold the same (row, column, letter) triples, ordered by column for a horizontal play and by row for a vertical one |
| Game.SmallestFirst | src/ScrabbleModel.java:382-397 | one pass of the outer loop puts the smallest remaining key at position i, keeps the triples and keeps every square on the play's line |
| Game.Exchange | src/ScrabbleModel.java:384-395 | entries i and j are exchanged in all three arrays |
| Game.SwapKeeps | src/ScrabbleModel.java:383-396 | swapping with a later smaller key keeps the settled prefix and makes entry i the smallest seen so far |
| Game.Swapped | src/ScrabbleModel.java:384-395 | the swap exchanges exactly two entries and keeps the multiset |
| Game.ScrabbleModel.RebuildAI | src/ScrabbleModel.java:785-806 | after the scan the mirror holds every letter of the board and the anchors are exactly the empty squares next to a letter |
| Game.ScrabbleModel.RebuildRow | src/ScrabbleModel.java:790-805 | one row of the scan extends the rebuilt mirror and anchors by that row |
| Game.ScrabbleModel.RebuildSquare | src/ScrabbleModel.java:791-804 | one square of the scan: a letter enters the mirror and its empty on-board neighbours become anchors |
| Game.ScrabbleModel.AddAnchors | src/ScrabbleModel.java:796-803 | each empty on-board neighbour in the four directions becomes an anchor; nothing else changes |
| Game.EmptyNeighboursHolds | src/ScrabbleModel.java:796-803 | the collected squares are exactly the empty on-board squares one step away in the four directions |
| Game.Opposite | src/ScrabbleModel.java:796 | each of the four directions has an opposite that leads back |
| Game.MirrorUpToHolds | src/ScrabbleModel.java:789-794 | the rebuilt mirror holds exactly the board's letters scanned so far, each at its square |
| Game.AnchorsUpToHolds | src/ScrabbleModel.java:789-806 | the anchors rebuilt so far are exactly the empty squares beside a letter already scanned |
| Game.AnchorsStep | src/ScrabbleModel.java:791-804 | one more scanned square adds exactly its empty neighbours to the anchors |
| Game.RebuiltAnchors | src/ScrabbleModel.java:785-806 | the rebuilt anchors are exactly the empty squares with a letter above, below, left or right |
| Game.RebuiltAnchorsFree | src/ScrabbleModel.java:785-806 | no rebuilt anchor is a square of the rebuilt mirror |
| MoveSearch.AI.constructor | src/AI.java:38-41 | a new computer player is named with the " [AI]" suffix, owns a fresh player and rack, starts at score 0 with no passes, and knows no letters, anchors or words until setUp |
| MoveSearch.AI.SetUp | src/AI.java:54-59 | after setUp the mirror is empty, the dictionary is the one given, and the centre square (7, 7) is the only anchor |
| MoveSearch.AI.BoardChanged | src/AI.java:68-91 | the new mirror and anchors are those of handling the placed letters one by one: the letter enters the mirror, its open on-board neighbours join the anchors, its own square leaves them; the dictionary is unchanged |
| MoveSearch.AI.AddOpenNeighbours | src/AI.java:76-86 | the direction loop adds exactly the four neighbours that lie on the 15 x 15 board and hold no mirror letter |
| MoveSearch.OpenNeighbours | src/AI.java:83 | every square the direction loop adds is on the board and free in the mirror |
| MoveSearch.BoardChangedKeepsAnchorsFree | src/AI.java:68-91 | boardChanged keeps the invariant that every anchor is an on-board square with no letter |
| MoveSearch.PlacedSquaresAreTaken | src/AI.java:73-88 | after boardChanged every placed square holds a letter in the mirror and is no longer an anchor |
| MoveSearch.NewAnchorsAreOpenNeighbours | src/AI.java:76-86 | every anchor boardChanged adds is an empty on-board neighbour (up, down, left or right) of some placed square |
| MoveSearch.MirroredHoldsLastLetter | src/AI.java:69-73 | after boardChanged a square holds the last letter placed on it, or keeps its earlier letter when none was placed there |
| MoveSearch.AI.FindPossibleWord | src/AI.java:97-116 | the result is exactly the dictionary words whose letters, counted with repetition, fit in the rack's non-blank letters plus the board's letters; None when no word does |
| MoveSearch.AI.AvailableLetters | src/AI.java:98-108 | the letter list holds, as a multiset, the rack's non-blank letters and every mirror letter |
| MoveSearch.AI.RackLetters | src/AI.java:102-106 | the rack loop collects each non-blank tile's effective letter, in rack order |
| MoveSearch.AI.BoardLetters | src/AI.java:108 | board.values() holds each mirror entry's letter once, as a multiset |
| MoveSearch.AI.FilterWords | src/AI.java:110-114 | the dictionary loop keeps exactly the words haveEnoughLetters accepts |
| MoveSearch.AI.HaveEnoughLetters | src/AI.java:125-139 | true exactly when the word's letters, counted with repetition, are contained in the available letters (the length test and the remove loop together) |
| MoveSearch.RemoveFirst | src/AI.java:134 | ArrayList.remove(Object) takes out one occurrence of a present element and leaves the list unchanged otherwise |
| MoveSearch.TakeStep | src/AI.java:133-137 | each step of the remove loop keeps the remaining list equal to the available letters minus the letters consumed, and a failed removal means the word cannot be assembled |
| MoveSearch.AI.FindBestWord | src/AI.java:147-177 | None when there are no possible words; otherwise, for some listing of the anchors and the words, the best of all trials in loop order, where a trial replaces the best only with a strictly greater score |
| MoveSearch.AI.SearchAll | src/AI.java:149-176 | with possible words, the anchors and words are each listed once and the search returns the best of their trials |
| MoveSearch.AI.Search | src/AI.java:152-175 | the anchor loop returns the best of the trials of all anchors in order |
| MoveSearch.AI.TryAnchor | src/AI.java:153-174 | one pass of the anchor loop folds that anchor's trials into the best so far |
| MoveSearch.AI.TryWords | src/AI.java:153-174 | the word loop folds the trials of every word into the best so far, skipping one-letter words on an empty board |
| MoveSearch.AI.TryWord | src/AI.java:154-173 | one pass of the word loop folds that word's trials in, or none when it is skipped |
| MoveSearch.AI.TryOffsets | src/AI.java:155-173 | the offset loop folds in, for each offset from -(length - 1) to 0, the vertical trial and then the horizontal one |
| MoveSearch.AI.TryOffset | src/AI.java:156-172 | one offset folds in its vertical trial, then its horizontal one |
| MoveSearch.AI.TryDirection | src/AI.java:156-163 | a direction's trial is made only when the word fits on the board from there |
| MoveSearch.AI.TryOne | src/AI.java:158-162 | a trial's placement replaces the best so far only when it exists and scores strictly more |
| MoveSearch.BestOfIsFirstMaximum | src/AI.java:149-176 | the search result outscores no trial less: no trial scores more, and it is the first trial reaching its score (or the starting best) |
| MoveSearch.NoneIffNothingScores | src/AI.java:149-176 | findBestWord finds nothing exactly when no trial scores above zero |
| MoveSearch.BestOfAppend | src/AI.java:152-175 | the nested loops compose: the best after two runs of trials is the best of the second run starting from the best of the first |
| MoveSearch.AgreeingOutcomes | src/AI.java:158-167 | any trial function that agrees with tryWordPlace on on-board trials gives the same outcomes |
| MoveSearch.AI.TryWordPlace | src/AI.java:188-232 | the placement equals the model of tryWordPlace: None when the word leaves the board, clashes with the mirror, misses a rack letter, fails to touch a non-empty mirror, needs tiles the rack lacks or scores 0; otherwise the collected squares, tiles, score and letters |
| MoveSearch.Try | src/AI.java:188-232 | tryWordPlace on a view of the game: a placement only for a word that fits on the board, with a non-zero score, one tile per collected square, at most seven tiles, all held by the rack |
| MoveSearch.TryResult | src/AI.java:198-231 | a non-null placement holds exactly the word's squares that have no mirror letter and are empty on the live board, in order, the word's own letter at each, the tile of the first rack slot holding that letter, and a score above 0 |
| MoveSearch.TryUnfolds | src/AI.java:220-231 | a non-null placement is the successful pass's squares, tiles and letters with the score of the trial on the board copy |
| MoveSearch.ScanResult | src/AI.java:198-218 | a successful pass collects the gap squares in order, the word's letter at each, and the tile of the first rack slot holding it |
| MoveSearch.TryFailsOnMissingLetter | src/AI.java:210-212 | a square that needs a rack tile whose letter no rack slot holds makes the whole trial fail |
| MoveSearch.AI.PlaceCollected | src/AI.java:220-231 | the tail of tryWordPlace, after the pass, completes the same outcome |
| MoveSearch.AI.ScoreOnCopy | src/AI.java:224-229 | the trial score is placeTilesAndValidate on a fresh board holding the mirror's letters |
| MoveSearch.AI.CollectTiles | src/AI.java:192-218 | the pass succeeds exactly as the scan model does and then returns its squares, tiles and whether it crossed a mirror letter |
| MoveSearch.AI.ScanSquare | src/AI.java:199-217 | one square of the pass extends the scan of the earlier squares |
| MoveSearch.ScanFailsIff | src/AI.java:198-218 | the pass fails exactly when some square clashes with a mirror letter or needs a letter no rack slot holds |
| MoveSearch.ScanTouches | src/AI.java:203-208 | a successful pass sets canConnect exactly when some square of the word holds a mirror letter |
| MoveSearch.ScanCollectsGaps | src/AI.java:209-216 | a successful pass collects exactly the squares with no mirror letter and an empty live square, in order, each with the first rack slot holding the word's letter there |
| MoveSearch.GapsAre | src/AI.java:203-210 | a position of the word needs a rack tile exactly when its square has no mirror letter and is empty on the live board |
| MoveSearch.ScanStaysFailed | src/AI.java:205-212 | once the pass has returned null it stays failed for the longer word |
| MoveSearch.AI.FindTile | src/Player.java:185-192 | the tile found is the one in the first rack slot with that letter, and null exactly when no slot holds it |
| MoveSearch.AI.TileToChar | src/AI.java:237-245 | the character array holds each tile's effective letter at the same index |
| MoveSearch.AI.HasNeeded | src/AI.java:252-267 | true exactly when at most seven tiles are needed and each needed tile object occurs in the rack at least as often as it is needed |
| MoveSearch.AI.CopyBoard | src/AI.java:274-283 | the copy is a fresh board over the same dictionary with default multipliers, no recorded words, and exactly the mirror's letters on its squares |
| MoveSearch.MirrorGrid | src/AI.java:277-281 | the copy's grid holds the mirror's letter on each of its squares and a blank elsewhere |
| MoveSearch.FullPartialGrid | src/AI.java:277-281 | placing the mirror's entries one by one, in any order, ends in the mirror's grid |
| MoveSearch.Enumerate | src/AI.java:152-153 | iterating a hash set yields each member exactly once |

## Left out

- Swing views, panels, the controller and the event classes are not modelled. They hold no rules logic. The board observers are kept as a list of computer players (`ScrabbleModel.observers`), which `AddAIPlayer` extends.
- The button-driven parts of `ScrabbleModel` are not modelled: `swapTiles`, the button-to-square search of `placeWordOnBoard`, and `AIplays`. They read GUI state. Of `placeWordOnBoard`, only the orientation test and the placement sort are modelled.
- `AI.togglePlace` and the `shouldPlace` flag are not modelled; only `AIplays` reads them.
- The computer player's move trigger inside `advanceTurn` is not modelled. `AdvanceTurn` covers the index update and the new current player.
- `notifyBoardChanged` is not modelled. After an accepted move (ScrabbleModel.java:445) and after a redo (line 706) it calls `boardChanged` on every registered observer. The model states `AI.BoardChanged` as an operation of its own, and `Redo` does not update the observers' view.
- The bag's tile conservation (`Draw`, `DealHand`, `OfferDraw`, `RefillSlot`, `RefillRack`, `AddPlayer`, `AddAIPlayer`) is proved as an exact multiset only while every blank key in the bag is the shared blank. That holds for a fresh bag and is kept by every pick. `returnTileToBag` of another blank tile object would break it, because a pick hands out the shared blank in place of that key; the count is conserved either way.
- Serialization is not modelled: `serializeToFile`, `deserializeFromFile`, `Tile.readResolve` and the dictionary reload in `loadGame`. Only the anchor rebuild of `loadGame` is modelled.
- No file or console I/O is modelled: dictionary file loading, the XML board layout loader (`setBoardLayout`), `Board.display`, the console `Player.playTurn`/`swapTiles`/`placeWordOnBoard`, and the console game loop.
- Diagnostic prints are not modelled; they change no state.
- `toString` of `Player` and `AI`, and the plain getters, are not modelled; they return fields.
- Randomness is a parameter. `TileBag.PickFromBag` takes the random number with its range as a precondition, and `ScrabbleModel.Draw` leaves it open by choosing any value in range.
- Hash iteration order of the computer player's sets and maps (anchors, possible words, mirror entries) is left open: each becomes a sequence that lists every member once, in an order the model does not fix (`Enumerate`), and `FindBestWord` returns the best result for that order.
- Hash iteration order of the tile bag is replaced by one fixed order. The `TileBag` constructor lists the entries A to Z and then the blank, and `ReturnTileToBag` appends a new key at the end. The weighted pick follows that order in place of the HashMap's.
- `Character.toUpperCase` is modelled only as far as the letter table can see it (`Scoring.ToUpper`). It maps a to z onto A to Z, U+0131 (dotless i) onto I and U+017F (long s) onto S. Every other character is left unchanged, although Java maps many of them to other non-ASCII upper-case characters, none of which is in the table.
- `Scoring.UpperString` does not model the locale or the length-changing mappings of `String.toUpperCase`. Java turns 'ß' into "SS" and the ligature 'ﬁ' into "FI", so a word holding a blank set to 'ß' is looked up as a longer word. The model maps each character through `ToUpper` and keeps the length, so such a word is looked up unchanged.
- Integers are unbounded. Java's 32-bit `int` could overflow in scores, sizes and indices, and that overflow is not modelled; the values involved are tiny.
- Inputs that would crash the Java code with a null or index exception are excluded by preconditions. These are:
  - coordinate arrays whose lengths do not match, or coordinates off the board where the code indexes the grid directly;
  - a null rack slot before the match in `Player.GetTile` (`ScanSafe`);
  - a null rack slot anywhere for the computer player's search (`RackFull`);
  - a null key in the bag for `TileBag.ToString`;
  - an unknown player in `Undo` and `Redo`;
  - no players in `ScrabbleModel.StartGame` (`players.get(0)` throws) and in `ScrabbleModel.GetNextPlayer` and `ScrabbleModel.AdvanceTurn` (`% players.size()` divides by zero). The last two also require the current index to be in range, which the Java code keeps by only setting it to 0 or to a remainder.
- Object identity of the `Point` and `Character` boxes is not modelled. Squares are pairs of integers and letters are characters.
- `MoveState` snapshots are values, and their rack snapshots are sequences. `copyRack` is modelled by `CopyRack`, which returns a fresh array.
- The Java static fields of `AI` (the anchor set, the board mirror and the dictionary) are modelled as fields of one `AI` object. This object is the one the game sets up and notifies.
- `AI.Search` and its loops are proved for any trial function that agrees with `tryWordPlace` on every trial that starts on the board. `FindBestWord` instantiates that function with the model of `tryWordPlace` itself.

## Behaviour worth noting

- **TEST across the centre scores 32.** `validateWords` extracts the row's run once for every tile in the first tile's row, so TEST is recorded four times at 4 points each, and the centre doubles the total (`BoardExamples.TestAtCentreScores32`).
- **Rollback clears every listed square.** A rejected placement blanks every listed square, including squares listed for letters already on the board (`BoardRules.RejectedRollsBack`).
- **A score of 0 can leave the tiles on the board.** When no run longer than one letter is recorded, `placeTilesAndValidate` returns 0 but does not roll back (`BoardRules.NothingRecordedKeepsTiles`).
- **Word multipliers come from every listed square**, including squares listed for letters already on the board (`Boards.Board.GetTurnScore`).
- **A one-tile first play is rejected by the adjacency check.** The tile-count test before it only prints a message (`BoardExamples.SingleTileFirstPlayRejected`).

=== FILE: boardexamples.dfy ===
/**
 * Two placements worked through on the rules: a one-tile opening and the word TEST
 * across the centre of an empty board.
 */
module BoardExamples {
  import opened BoardRules
  import opened Wrappers
  import Scoring

  /**
   * A one-tile first play on the centre of an empty board passes the first-play check
   * (the length test only reports), but it touches no letter, so it is rolled back: the
   * result is 0 and the board is empty again.
   */
  lemma SingleTileFirstPlayRejected(lm: Mults, wm: Mults, dict: set<string>, x: char, recorded: seq<WordScore>)
    requires IsGrid(lm) && IsGrid(wm)
    ensures var o := Place(EmptyGrid(), lm, wm, dict, [Centre], [Centre], [Some(x)], recorded);
            o.score == 0 && o.grid == EmptyGrid() && o.recorded == recorded
  {
    var g := EmptyGrid();
    var rows, cols := [Centre], [Centre];
    assert CoversCentre(rows, cols) by { assert rows[0] == Centre && cols[0] == Centre; }
    var letters := [Some(x)];
    var w := Written(g, rows, cols, letters, 1);
    assert Written(g, rows, cols, letters, 0) == g;
    assert w == SetCell(g, Centre, Centre, x);
    assert !HasNeighbour(w, Centre, Centre);
    assert !Adjacent(w, rows, cols);
    assert Cleared(w, rows, cols, 1) == SetCell(w, Centre, Centre, ' ');
    assert g[Centre][Centre := x][Centre := ' '] == g[Centre];
    assert SetCell(w, Centre, Centre, ' ') == g;
  }

  const TestRows: seq<int> := [7, 7, 7, 7]
  const TestCols: seq<int> := [7, 8, 9, 10]
  const TestLetters: seq<Option<char>> := [Some('T'), Some('E'), Some('S'), Some('T')]

  /** The centre row after TEST is written across (7,7)-(7,10). */
  function TestRow(): seq<char> {
    seq(Size, k => if k == 7 then 'T' else if k == 8 then 'E' else if k == 9 then 'S' else if k == 10 then 'T' else ' ')
  }

  lemma TestWritten()
    ensures Written(EmptyGrid(), TestRows, TestCols, TestLetters, 4) == EmptyGrid()[7 := TestRow()]
  {
    var g := EmptyGrid();
    var w1 := Written(g, TestRows, TestCols, TestLetters, 1);
    var w2 := Written(g, TestRows, TestCols, TestLetters, 2);
    var w3 := Written(g, TestRows, TestCols, TestLetters, 3);
    var w4 := Written(g, TestRows, TestCols, TestLetters, 4);
    assert Written(g, TestRows, TestCols, TestLetters, 0) == g;
    assert w1 == SetCell(g, 7, 7, 'T');
    assert w2 == SetCell(w1, 7, 8, 'E');
    assert w3 == SetCell(w2, 7, 9, 'S');
    assert w4 == SetCell(w3, 7, 10, 'T');
    assert w4[7] == TestRow();
  }

  lemma TestRunFromCentre(line: seq<char>, newly: seq<bool>, mult: seq<int>, p: int)
    requires line == TestRow() && |newly| == Size && |mult| == Size
    requires forall k :: 7 <= k <= 10 ==> mult[k] == 1
    requires 7 <= p <= 10
    ensures RunBegin(line, p) == 7
    ensures RunFrom(line, 7) == "TEST"
    ensures RunScore(line, mult, newly, 7) == 4
  {
    assert RunBegin(line, 6) == 7;
    assert RunBegin(line, 7) == 7;
    assert RunBegin(line, 8) == 7;
    assert RunBegin(line, 9) == 7;
    assert RunFrom(line, 11) == [];
    assert RunFrom(line, 10) == "T";
    assert RunFrom(line, 9) == "ST";
    assert RunFrom(line, 8) == "EST";
    assert RunScore(line, mult, newly, 11) == 0;
    assert RunScore(line, mult, newly, 10) == 1;
    assert RunScore(line, mult, newly, 9) == 2;
    assert RunScore(line, mult, newly, 8) == 3;
  }

  function TestGrid(): Grid { EmptyGrid()[7 := TestRow()] }

  lemma TestHorizontal(p: int)
    requires 7 <= p <= 10
    ensures IsGrid(TestGrid())
    ensures Extract(TestGrid(), DefaultLetterMults(), TestRows, TestCols, 7, p, true) == WordScore("TEST", 4)
  {
    var w, lm := TestGrid(), DefaultLetterMults();
    var line := Line(w, true, 7, p);
    assert line == TestRow();
    var mult := Line(lm, true, 7, p);
    forall k | 7 <= k <= 10 ensures mult[k] == 1 {
      assert (7, k) !in DoubleLetter && (7, k) !in TripleLetter;
    }
    TestRunFromCentre(line, Newly(TestRows, TestCols, true, 7, p), mult, p);
  }

  lemma TestVertical()
    ensures IsGrid(TestGrid())
    ensures Extract(TestGrid(), DefaultLetterMults(), TestRows, TestCols, 7, 7, false).word == "T"
  {
    var column := Line(TestGrid(), false, 7, 7);
    assert column[7] == 'T' && column[6] == ' ' && column[8] == ' ';
    assert RunBegin(column, 6) == 7;
    assert RunFrom(column, 8) == [];
  }

  /** The recordings of a four-tile play along row 7 whose column extraction is one letter. */
  lemma {:induction false} RowPlayRecordings(g: Grid, lm: Mults, ws: WordScore)
    requires IsGrid(g) && IsGrid(lm) && |ws.word| > 1
    requires forall p :: 7 <= p <= 10 ==> Extract(g, lm, TestRows, TestCols, 7, p, true) == ws
    requires |Extract(g, lm, TestRows, TestCols, 7, 7, false).word| == 1
    ensures Recordings(g, lm, TestRows, TestCols, 4) == seq(4, _ => ws)
  {
    RowPlayPrefix(g, lm, ws, 4);
  }

  /** The first n tiles of that play record the row's word n times. */
  lemma {:induction false} RowPlayPrefix(g: Grid, lm: Mults, ws: WordScore, n: nat)
    requires IsGrid(g) && IsGrid(lm) && |ws.word| > 1 && n <= 4
    requires forall p :: 7 <= p <= 10 ==> Extract(g, lm, TestRows, TestCols, 7, p, true) == ws
    requires |Extract(g, lm, TestRows, TestCols, 7, 7, false).word| == 1
    ensures Recordings(g, lm, TestRows, TestCols, n) == seq(n, _ => ws)
    decreases n
  {
    if n > 0 {
      RowPlayPrefix(g, lm, ws, n - 1);
      assert 7 <= TestCols[n - 1] <= 10;
      RowPlayStep(g, lm, ws, n - 1);
      assert seq(n, _ => ws) == seq(n - 1, _ => ws) + [ws];
    }
  }

  /** Each tile of that play adds the row's word to the recordings and nothing else. */
  lemma RowPlayStep(g: Grid, lm: Mults, ws: WordScore, n: nat)
    requires IsGrid(g) && IsGrid(lm) && |ws.word| > 1 && n < 4
    requires Extract(g, lm, TestRows, TestCols, 7, TestCols[n], true) == ws
    requires n == 0 ==> |Extract(g, lm, TestRows, TestCols, 7, 7, false).word| == 1
    ensures Recordings(g, lm, TestRows, TestCols, n + 1) == Recordings(g, lm, TestRows, TestCols, n) + [ws]
  {
    assert TestRows[n] == TestRows[0] == 7;
  }

  lemma TestWordProduct()
    ensures WordProduct(DefaultWordMults(), TestRows, TestCols, 4) == 2
  {
    var wm := DefaultWordMults();
    assert (7, 7) in DoubleWord;
    assert forall k :: 8 <= k <= 10 ==> (7, k) !in DoubleWord && (7, k) !in TripleWord;
    assert WordProduct(wm, TestRows, TestCols, 0) == 1;
    assert WordProduct(wm, TestRows, TestCols, 1) == 2;
    assert WordProduct(wm, TestRows, TestCols, 2) == 2;
    assert WordProduct(wm, TestRows, TestCols, 3) == 2;
  }

  lemma TestRecordings()
    ensures IsGrid(TestGrid())
    ensures Recordings(TestGrid(), DefaultLetterMults(), TestRows, TestCols, 4) == seq(4, _ => WordScore("TEST", 4))
  {
    var ws := WordScore("TEST", 4);
    TestVertical();
    forall p | 7 <= p <= 10 ensures Extract(TestGrid(), DefaultLetterMults(), TestRows, TestCols, 7, p, true) == ws {
      TestHorizontal(p);
    }
    RowPlayRecordings(TestGrid(), DefaultLetterMults(), ws);
  }

  lemma TestChecks()
    ensures PassesEarlyChecks(EmptyGrid(), TestRows, TestCols)
    ensures IsGrid(TestGrid()) && Adjacent(TestGrid(), TestRows, TestCols)
  {
    assert CoversCentre(TestRows, TestCols) by { assert TestRows[0] == 7 && TestCols[0] == 7; }
    assert HasNeighbour(TestGrid(), 7, 7) by { assert TestGrid()[7][8] == 'E'; }
  }

  lemma FourTests(dict: set<string>)
    requires "TEST" in dict
    ensures var recs := seq(4, _ => WordScore("TEST", 4));
            AllValid(recs, dict) && SumScores(recs) == 16
  {
    var ws := WordScore("TEST", 4);
    var recs := seq(4, _ => ws);
    assert Scoring.UpperString("TEST") == "TEST";
    assert recs[..3] == [ws, ws, ws] && recs[..3][..2] == [ws, ws] && [ws, ws][..1] == [ws];
    assert SumScores([ws]) == 4 by { assert [ws][..0] == []; }
    assert SumScores([ws, ws]) == 8;
    assert SumScores([ws, ws, ws]) == 12;
  }

  /**
   * TEST across the centre of an empty board: each of the four tiles shares the first
   * tile's row, so the horizontal run is recorded four times at 4 points each, and the
   * centre doubles the word: 4 * 4 * 2 = 32.
   */
  lemma TestAtCentreScores32(dict: set<string>, recorded: seq<WordScore>)
    requires "TEST" in dict
    ensures var o := Place(EmptyGrid(), DefaultLetterMults(), DefaultWordMults(), dict,
                           TestRows, TestCols, TestLetters, recorded);
            o.score == 32 && o.grid == TestGrid() && o.recorded == []
  {
    TestWritten();
    TestChecks();
    TestRecordings();
    FourTests(dict);
    TestWordProduct();
  }
}

=== FILE: boardrules.dfy ===
/**
 * The rules `Board.placeTilesAndValidate` applies, stated as functions of a board
 * snapshot: the 15x15 letter grid, the letter and word multiplier grids, the set of
 * valid words and the word list the board has recorded so far. The `Board` class
 * proves that its in-place methods compute exactly these functions.
 */
module BoardRules {
  import Scoring
  import opened Wrappers

  const Size := 15
  const Centre := 7

  type Grid = seq<seq<char>>
  type Mults = seq<seq<int>>

  predicate IsGrid<T>(g: seq<seq<T>>) {
    |g| == Size && forall r :: 0 <= r < Size ==> |g[r]| == Size
  }

  predicate InBounds(r: int, c: int) {
    0 <= r < Size && 0 <= c < Size
  }

  /** Every listed coordinate is a square of the board, and there are as many rows as columns. */
  predicate AllInBounds(rows: seq<int>, cols: seq<int>) {
    |rows| == |cols| && forall i :: 0 <= i < |rows| ==> InBounds(rows[i], cols[i])
  }

  // ---------------------------------------------------------------------
  // The standard layout

  const DoubleLetter: set<(int, int)> :=
    {(0, 3), (0, 11), (2, 6), (2, 8), (3, 0), (3, 7), (3, 14), (6, 2), (6, 6), (6, 8), (6, 12),
     (7, 3), (7, 11), (8, 2), (8, 6), (8, 8), (8, 12), (11, 0), (11, 7), (11, 14), (12, 6),
     (12, 8), (14, 3), (14, 11)}
  const TripleLetter: set<(int, int)> :=
    {(1, 5), (1, 9), (5, 1), (5, 5), (5, 9), (5, 13), (9, 1), (9, 5), (9, 9), (9, 13), (13, 5), (13, 9)}
  const DoubleWord: set<(int, int)> :=
    {(1, 1), (1, 13), (2, 2), (2, 12), (3, 3), (3, 11), (4, 4), (4, 10), (7, 7), (10, 4),
     (10, 10), (11, 3), (11, 11), (12, 2), (12, 12), (13, 1), (13, 13)}
  const TripleWord: set<(int, int)> :=
    {(0, 0), (0, 7), (0, 14), (7, 0), (7, 14), (14, 0), (14, 7), (14, 14)}

  function DefaultLetterMult(r: int, c: int): int {
    if (r, c) in DoubleLetter then 2 else if (r, c) in TripleLetter then 3 else 1
  }

  function DefaultWordMult(r: int, c: int): int {
    if (r, c) in DoubleWord then 2 else if (r, c) in TripleWord then 3 else 1
  }

  function EmptyGrid(): (g: Grid)
    ensures IsGrid(g)
  {
    seq(Size, _ => seq(Size, _ => ' '))
  }

  function DefaultLetterMults(): (m: Mults)
    ensures IsGrid(m)
  {
    seq(Size, r => seq(Size, c => DefaultLetterMult(r, c)))
  }

  function DefaultWordMults(): (m: Mults)
    ensures IsGrid(m)
  {
    seq(Size, r => seq(Size, c => DefaultWordMult(r, c)))
  }

  /** Every multiplier of the standard layout is 1, 2 or 3, and the centre doubles the word. */
  lemma DefaultLayoutRange(r: int, c: int)
    ensures 1 <= DefaultLetterMult(r, c) <= 3 && 1 <= DefaultWordMult(r, c) <= 3
    ensures DefaultWordMult(Centre, Centre) == 2 && DefaultLetterMult(Centre, Centre) == 1
  {
  }
  /** No square of the standard layout multiplies by less than 1. */
  lemma DefaultMultsPositive()
    ensures forall r, c :: InBounds(r, c) ==> DefaultLetterMults()[r][c] >= 1 && DefaultWordMults()[r][c] >= 1
  {
    forall r, c | InBounds(r, c)
      ensures DefaultLetterMults()[r][c] >= 1 && DefaultWordMults()[r][c] >= 1
    {
      DefaultLayoutRange(r, c);
    }
  }


  // ---------------------------------------------------------------------
  // Words and the dictionary

  datatype WordScore = WordScore(word: string, score: int)

  /** isValidWord: the upper-cased word is in the set of (upper-case) valid words. */
  predicate IsValidWord(dict: set<string>, w: string) {
    Scoring.UpperString(w) in dict
  }

  predicate ListedAt(rows: seq<int>, cols: seq<int>, r: int, c: int)
    requires |rows| == |cols|
  {
    exists i :: 0 <= i < |rows| && rows[i] == r && cols[i] == c
  }

  // ---------------------------------------------------------------------
  // One extraction: a walk along the row (horizontal) or column (vertical) through (r, c)

  /** The row through (r, c) when horizontal, its column otherwise. */
  function Line<T>(g: seq<seq<T>>, horizontal: bool, r: int, c: int): (line: seq<T>)
    requires IsGrid(g) && InBounds(r, c)
    ensures |line| == Size
    ensures forall k :: 0 <= k < Size ==> line[k] == if horizontal then g[r][k] else g[k][c]
  {
    if horizontal then g[r] else seq(Size, k requires 0 <= k < Size => g[k][c])
  }

  /** Which squares of that line are among the listed coordinates. */
  function Newly(rows: seq<int>, cols: seq<int>, horizontal: bool, r: int, c: int): (s: seq<bool>)
    requires |rows| == |cols|
    ensures |s| == Size
    ensures forall k :: 0 <= k < Size ==>
              s[k] == if horizontal then ListedAt(rows, cols, r, k) else ListedAt(rows, cols, k, c)
  {
    seq(Size, k => if horizontal then ListedAt(rows, cols, r, k) else ListedAt(rows, cols, k, c))
  }

  /** Where the backward walk from `p` stops, plus one: the first square of the run. */
  function RunBegin(line: seq<char>, p: int): (b: int)
    requires -1 <= p < |line|
    ensures 0 <= b <= p + 1
    decreases p + 1
  {
    if p >= 0 && line[p] != ' ' then RunBegin(line, p - 1) else p + 1
  }

  /** The letters met by the forward walk from `q` until a blank or the edge. */
  function RunFrom(line: seq<char>, q: int): seq<char>
    requires 0 <= q <= |line|
    decreases |line| - q
  {
    if q < |line| && line[q] != ' ' then [line[q]] + RunFrom(line, q + 1) else []
  }

  /** The forward walk's score: a newly placed letter is multiplied by its square's letter multiplier. */
  function RunScore(line: seq<char>, mult: seq<int>, newly: seq<bool>, q: int): int
    requires |mult| == |line| && |newly| == |line| && 0 <= q <= |line|
    decreases |line| - q
  {
    if q < |line| && line[q] != ' ' then
      Scoring.LetterValue(line[q]) * (if newly[q] then mult[q] else 1) + RunScore(line, mult, newly, q + 1)
    else 0
  }

  /** extractWordAndCalculateScore: the run through (r, c) in one direction, with its score. */
  function Extract(g: Grid, lm: Mults, rows: seq<int>, cols: seq<int>, r: int, c: int, horizontal: bool): WordScore
    requires IsGrid(g) && IsGrid(lm) && InBounds(r, c) && |rows| == |cols|
  {
    var line := Line(g, horizontal, r, c);
    var b := RunBegin(line, if horizontal then c else r);
    WordScore(RunFrom(line, b), RunScore(line, Line(lm, horizontal, r, c), Newly(rows, cols, horizontal, r, c), b))
  }

  /** Only a run longer than one letter is recorded. */
  function Record(ws: WordScore): seq<WordScore> {
    if |ws.word| > 1 then [ws] else []
  }

  /**
   * validateWords' recordings for the first n listed squares: a vertical extraction for
   * each square in the column of the first one, then a horizontal one for each square in
   * its row.
   */
  function Recordings(g: Grid, lm: Mults, rows: seq<int>, cols: seq<int>, n: nat): seq<WordScore>
    requires IsGrid(g) && IsGrid(lm) && AllInBounds(rows, cols) && n <= |rows|
  {
    if n == 0 then []
    else
      var i := n - 1;
      Recordings(g, lm, rows, cols, i)
      + (if cols[i] == cols[0] then Record(Extract(g, lm, rows, cols, rows[i], cols[i], false)) else [])
      + (if rows[i] == rows[0] then Record(Extract(g, lm, rows, cols, rows[i], cols[i], true)) else [])
  }

  predicate AllValid(recs: seq<WordScore>, dict: set<string>) {
    forall k :: 0 <= k < |recs| ==> IsValidWord(dict, recs[k].word)
  }

  function SumScores(recs: seq<WordScore>): int {
    if recs == [] then 0 else SumScores(recs[..|recs| - 1]) + recs[|recs| - 1].score
  }

  /** The product of the word multipliers of the first n listed squares. */
  function WordProduct(wm: Mults, rows: seq<int>, cols: seq<int>, n: nat): int
    requires IsGrid(wm) && AllInBounds(rows, cols) && n <= |rows|
  {
    if n == 0 then 1 else WordProduct(wm, rows, cols, n - 1) * wm[rows[n - 1]][cols[n - 1]]
  }

  // ---------------------------------------------------------------------
  // Adjacency, writing and clearing

  /** Some orthogonal neighbour of (r, c) on the board is not blank. */
  predicate HasNeighbour(g: Grid, r: int, c: int)
    requires IsGrid(g) && InBounds(r, c)
  {
    || (r > 0 && g[r - 1][c] != ' ')
    || (r < Size - 1 && g[r + 1][c] != ' ')
    || (c > 0 && g[r][c - 1] != ' ')
    || (c < Size - 1 && g[r][c + 1] != ' ')
  }

  predicate Adjacent(g: Grid, rows: seq<int>, cols: seq<int>)
    requires IsGrid(g) && AllInBounds(rows, cols)
  {
    exists i :: 0 <= i < |rows| && HasNeighbour(g, rows[i], cols[i])
  }

  function SetCell(g: Grid, r: int, c: int, ch: char): (g': Grid)
    requires IsGrid(g) && InBounds(r, c)
    ensures IsGrid(g')
  {
    g[r := g[r][c := ch]]
  }

  /** The grid after the first n tiles are written; a null tile (None) writes nothing. */
  function Written(g: Grid, rows: seq<int>, cols: seq<int>, letters: seq<Option<char>>, n: nat): (g': Grid)
    requires IsGrid(g) && AllInBounds(rows, cols) && |letters| <= |rows| && n <= |letters|
    ensures IsGrid(g')
  {
    if n == 0 then g
    else
      var w := Written(g, rows, cols, letters, n - 1);
      if letters[n - 1].Some? then SetCell(w, rows[n - 1], cols[n - 1], letters[n - 1].value) else w
  }

  /** removeTiles: the grid after the first n listed squares are set blank. */
  function Cleared(g: Grid, rows: seq<int>, cols: seq<int>, n: nat): (g': Grid)
    requires IsGrid(g) && AllInBounds(rows, cols) && n <= |rows|
    ensures IsGrid(g')
  {
    if n == 0 then g else SetCell(Cleared(g, rows, cols, n - 1), rows[n - 1], cols[n - 1], ' ')
  }

  predicate CoversCentre(rows: seq<int>, cols: seq<int>)
    requires |rows| == |cols|
  {
    ListedAt(rows, cols, Centre, Centre)
  }

  /** Each consecutive pair of listed squares shares its row or its column. */
  predicate Collinear(rows: seq<int>, cols: seq<int>)
    requires |rows| == |cols|
  {
    forall i :: 0 <= i < |rows| - 1 ==> rows[i] == rows[i + 1] || cols[i] == cols[i + 1]
  }

  // ---------------------------------------------------------------------
  // The whole placement

  datatype Outcome = Outcome(score: int, grid: Grid, recorded: seq<WordScore>)

  /**
   * placeTilesAndValidate on a snapshot. `recorded` is the board's word list before the
   * call; it is only replaced once the words are validated, and emptied by scoring.
   */
  function Place(g: Grid, lm: Mults, wm: Mults, dict: set<string>,
                 rows: seq<int>, cols: seq<int>, letters: seq<Option<char>>,
                 recorded: seq<WordScore>): (o: Outcome)
    requires IsGrid(g) && IsGrid(lm) && IsGrid(wm) && AllInBounds(rows, cols) && |letters| <= |rows|
    ensures IsGrid(o.grid)
    ensures o.score != 0 ==> PassesEarlyChecks(g, rows, cols) && o.recorded == []
  {
    if g[Centre][Centre] == ' ' && !CoversCentre(rows, cols) then Outcome(0, g, recorded)
    else if !Collinear(rows, cols) then Outcome(0, g, recorded)
    else
      var w := Written(g, rows, cols, letters, |letters|);
      if !Adjacent(w, rows, cols) then Outcome(0, Cleared(w, rows, cols, |rows|), recorded)
      else
        var recs := Recordings(w, lm, rows, cols, |rows|);
        if !AllValid(recs, dict) then Outcome(0, Cleared(w, rows, cols, |rows|), recs)
        else Outcome(SumScores(recs) * WordProduct(wm, rows, cols, |rows|), w, [])
  }

  /** The checks that run before anything is written. */
  predicate PassesEarlyChecks(g: Grid, rows: seq<int>, cols: seq<int>)
    requires IsGrid(g) && |rows| == |cols|
  {
    (g[Centre][Centre] != ' ' || CoversCentre(rows, cols)) && Collinear(rows, cols)
  }

  /** The placement is kept: early checks pass, it touches a letter, and every recorded run is a word. */
  predicate Accepted(g: Grid, lm: Mults, dict: set<string>,
                     rows: seq<int>, cols: seq<int>, letters: seq<Option<char>>)
    requires IsGrid(g) && IsGrid(lm) && AllInBounds(rows, cols) && |letters| <= |rows|
  {
    && PassesEarlyChecks(g, rows, cols)
    && var w := Written(g, rows, cols, letters, |letters|);
       Adjacent(w, rows, cols) && AllValid(Recordings(w, lm, rows, cols, |rows|), dict)
  }

  /** The letter the last non-null tile listed at (r, c) among the first n wrote there, if any. */
  function LastWrite(rows: seq<int>, cols: seq<int>, letters: seq<Option<char>>, n: nat, r: int, c: int): Option<char>
    requires |letters| <= |rows| == |cols| && n <= |letters|
  {
    if n == 0 then None
    else if letters[n - 1].Some? && rows[n - 1] == r && cols[n - 1] == c then letters[n - 1]
    else LastWrite(rows, cols, letters, n - 1, r, c)
  }

  // ---------------------------------------------------------------------
  // Properties of the walk

  /** The backward walk stops right after a blank or the edge, and passes only letters. */
  lemma {:induction false} RunBeginBounds(line: seq<char>, p: int)
    requires -1 <= p < |line|
    ensures var b := RunBegin(line, p);
            (b == 0 || line[b - 1] == ' ') && forall k :: b <= k <= p ==> line[k] != ' '
    decreases p + 1
  {
    if p >= 0 && line[p] != ' ' {
      RunBeginBounds(line, p - 1);
    }
  }

  /** The forward walk copies the letters it passes and stops at a blank or the edge. */
  lemma {:induction false} RunFromBounds(line: seq<char>, q: int)
    requires 0 <= q <= |line|
    ensures var w := RunFrom(line, q);
            && q + |w| <= |line|
            && (forall k :: 0 <= k < |w| ==> w[k] == line[q + k] && w[k] != ' ')
            && (q + |w| == |line| || line[q + |w|] == ' ')
    decreases |line| - q
  {
    if q < |line| && line[q] != ' ' {
      RunFromBounds(line, q + 1);
    }
  }

  /** A forward walk over letters only goes at least as far as they reach. */
  lemma {:induction false} RunFromCovers(line: seq<char>, q: int, p: int)
    requires 0 <= q <= p < |line|
    requires forall k :: q <= k <= p ==> line[k] != ' '
    ensures |RunFrom(line, q)| > p - q
    decreases p - q
  {
    if q < p {
      RunFromCovers(line, q + 1, p);
    }
  }

  /**
   * Started on a letter, the extraction returns the maximal run of letters through the
   * starting square: every square of [b, e) holds the corresponding letter, the start
   * lies inside, and the squares just outside are blank or off the board.
   */
  lemma ExtractIsMaximalRun(line: seq<char>, p: int)
    requires 0 <= p < |line| && line[p] != ' '
    ensures var b := RunBegin(line, p);
            var w := RunFrom(line, b);
            var e := b + |w|;
            && b <= p < e <= |line|
            && w == line[b..e]
            && (forall k :: b <= k < e ==> line[k] != ' ')
            && (b == 0 || line[b - 1] == ' ')
            && (e == |line| || line[e] == ' ')
  {
    var b := RunBegin(line, p);
    RunBeginBounds(line, p);
    RunFromBounds(line, b);
    RunFromCovers(line, b, p);
  }

  /** A letter multiplier matters only on a newly placed square. */
  lemma {:induction false} MultiplierOnlyOnNewSquares(line: seq<char>, m1: seq<int>, m2: seq<int>, newly: seq<bool>, q: int)
    requires |m1| == |line| && |m2| == |line| && |newly| == |line| && 0 <= q <= |line|
    requires forall k :: 0 <= k < |line| && newly[k] ==> m1[k] == m2[k]
    ensures RunScore(line, m1, newly, q) == RunScore(line, m2, newly, q)
    decreases |line| - q
  {
    if q < |line| && line[q] != ' ' {
      MultiplierOnlyOnNewSquares(line, m1, m2, newly, q + 1);
    }
  }

  /** With non-negative multipliers a run's score is non-negative. */
  lemma {:induction false} RunScoreNonNegative(line: seq<char>, mult: seq<int>, newly: seq<bool>, q: int)
    requires |mult| == |line| && |newly| == |line| && 0 <= q <= |line|
    requires forall k :: 0 <= k < |mult| ==> mult[k] >= 0
    ensures RunScore(line, mult, newly, q) >= 0
    decreases |line| - q
  {
    if q < |line| && line[q] != ' ' {
      RunScoreNonNegative(line, mult, newly, q + 1);
    }
  }

  // ---------------------------------------------------------------------
  // Properties of writing and clearing

  lemma {:induction false} WrittenAt(g: Grid, rows: seq<int>, cols: seq<int>, letters: seq<Option<char>>, n: nat, r: int, c: int)
    requires IsGrid(g) && AllInBounds(rows, cols) && |letters| <= |rows| && n <= |letters| && InBounds(r, c)
    ensures Written(g, rows, cols, letters, n)[r][c]
         == match LastWrite(rows, cols, letters, n, r, c) case Some(ch) => ch case None => g[r][c]
  {
    if n > 0 {
      WrittenAt(g, rows, cols, letters, n - 1, r, c);
    }
  }

  lemma {:induction false} ClearedAt(g: Grid, rows: seq<int>, cols: seq<int>, n: nat, r: int, c: int)
    requires IsGrid(g) && AllInBounds(rows, cols) && n <= |rows| && InBounds(r, c)
    ensures Cleared(g, rows, cols, n)[r][c] == if ListedAt(rows[..n], cols[..n], r, c) then ' ' else g[r][c]
  {
    if n > 0 {
      ClearedAt(g, rows, cols, n - 1, r, c);
      assert rows[..n][..n - 1] == rows[..n - 1] && cols[..n][..n - 1] == cols[..n - 1];
      if ListedAt(rows[..n - 1], cols[..n - 1], r, c) {
        var i :| 0 <= i < n - 1 && rows[..n - 1][i] == r && cols[..n - 1][i] == c;
        assert rows[..n][i] == r && cols[..n][i] == c;
      }
      if rows[n - 1] == r && cols[n - 1] == c {
        assert rows[..n][n - 1] == r && cols[..n][n - 1] == c;
      }
    }
  }

  lemma {:induction false} LastWriteListed(rows: seq<int>, cols: seq<int>, letters: seq<Option<char>>, n: nat, r: int, c: int)
    requires |letters| <= |rows| == |cols| && n <= |letters|
    requires LastWrite(rows, cols, letters, n, r, c).Some?
    ensures ListedAt(rows, cols, r, c)
  {
    if !(letters[n - 1].Some? && rows[n - 1] == r && cols[n - 1] == c) {
      LastWriteListed(rows, cols, letters, n - 1, r, c);
    }
  }

  // ---------------------------------------------------------------------
  // Properties of the whole placement

  /** A placement never changes a square it does not list. */
  lemma PlaceFrame(g: Grid, lm: Mults, wm: Mults, dict: set<string>,
                   rows: seq<int>, cols: seq<int>, letters: seq<Option<char>>,
                   recorded: seq<WordScore>, r: int, c: int)
    requires IsGrid(g) && IsGrid(lm) && IsGrid(wm) && AllInBounds(rows, cols) && |letters| <= |rows|
    requires InBounds(r, c) && !ListedAt(rows, cols, r, c)
    ensures Place(g, lm, wm, dict, rows, cols, letters, recorded).grid[r][c] == g[r][c]
  {
    var w := Written(g, rows, cols, letters, |letters|);
    WrittenAt(g, rows, cols, letters, |letters|, r, c);
    if LastWrite(rows, cols, letters, |letters|, r, c).Some? {
      LastWriteListed(rows, cols, letters, |letters|, r, c);
    }
    ClearedAt(w, rows, cols, |rows|, r, c);
    assert rows[..|rows|] == rows && cols[..|cols|] == cols;
  }

  /**
   * A rejected placement scores 0. Rejected before the write, it leaves the grid and the
   * word list as they were; rejected after it, every listed square is blank, connectors
   * included, and every other square is as before.
   */
  lemma RejectedRollsBack(g: Grid, lm: Mults, wm: Mults, dict: set<string>,
                          rows: seq<int>, cols: seq<int>, letters: seq<Option<char>>,
                          recorded: seq<WordScore>)
    requires IsGrid(g) && IsGrid(lm) && IsGrid(wm) && AllInBounds(rows, cols) && |letters| <= |rows|
    requires !Accepted(g, lm, dict, rows, cols, letters)
    ensures var o := Place(g, lm, wm, dict, rows, cols, letters, recorded);
            && o.score == 0
            && (!PassesEarlyChecks(g, rows, cols) ==> o.grid == g && o.recorded == recorded)
            && (PassesEarlyChecks(g, rows, cols) ==>
                  forall r, c :: InBounds(r, c) ==>
                    o.grid[r][c] == if ListedAt(rows, cols, r, c) then ' ' else g[r][c])
  {
    if PassesEarlyChecks(g, rows, cols) {
      var w := Written(g, rows, cols, letters, |letters|);
      assert rows[..|rows|] == rows && cols[..|cols|] == cols;
      forall r, c | InBounds(r, c)
        ensures Cleared(w, rows, cols, |rows|)[r][c] == if ListedAt(rows, cols, r, c) then ' ' else g[r][c]
      {
        ClearedAt(w, rows, cols, |rows|, r, c);
        WrittenAt(g, rows, cols, letters, |letters|, r, c);
        if LastWrite(rows, cols, letters, |letters|, r, c).Some? {
          LastWriteListed(rows, cols, letters, |letters|, r, c);
        }
      }
    }
  }

  /**
   * An accepted placement keeps every written letter (each square shows the letter of the
   * last tile written there), empties the word list, and scores the sum of the recorded
   * runs times the product of the listed squares' word multipliers.
   */
  lemma AcceptedKeepsLetters(g: Grid, lm: Mults, wm: Mults, dict: set<string>,
                             rows: seq<int>, cols: seq<int>, letters: seq<Option<char>>,
                             recorded: seq<WordScore>)
    requires IsGrid(g) && IsGrid(lm) && IsGrid(wm) && AllInBounds(rows, cols) && |letters| <= |rows|
    requires Accepted(g, lm, dict, rows, cols, letters)
    ensures var o := Place(g, lm, wm, dict, rows, cols, letters, recorded);
            var w := Written(g, rows, cols, letters, |letters|);
            && o.recorded == []
            && o.score == SumScores(Recordings(w, lm, rows, cols, |rows|)) * WordProduct(wm, rows, cols, |rows|)
            && forall r, c :: InBounds(r, c) ==>
                 o.grid[r][c] == match LastWrite(rows, cols, letters, |letters|, r, c)
                                   case Some(ch) => ch case None => g[r][c]
  {
    forall r, c | InBounds(r, c)
      ensures Written(g, rows, cols, letters, |letters|)[r][c]
           == match LastWrite(rows, cols, letters, |letters|, r, c) case Some(ch) => ch case None => g[r][c]
    {
      WrittenAt(g, rows, cols, letters, |letters|, r, c);
    }
  }

  /** When no run longer than one letter is recorded, the call returns 0 yet the tiles stay. */
  lemma NothingRecordedKeepsTiles(g: Grid, lm: Mults, wm: Mults, dict: set<string>,
                                  rows: seq<int>, cols: seq<int>, letters: seq<Option<char>>,
                                  recorded: seq<WordScore>)
    requires IsGrid(g) && IsGrid(lm) && IsGrid(wm) && AllInBounds(rows, cols) && |letters| <= |rows|
    requires PassesEarlyChecks(g, rows, cols)
    requires var w := Written(g, rows, cols, letters, |letters|);
             Adjacent(w, rows, cols) && Recordings(w, lm, rows, cols, |rows|) == []
    ensures var o := Place(g, lm, wm, dict, rows, cols, letters, recorded);
            o.score == 0 && o.grid == Written(g, rows, cols, letters, |letters|)
  {
  }

  lemma {:induction false} SumScoresNonNegative(recs: seq<WordScore>)
    requires forall k :: 0 <= k < |recs| ==> recs[k].score >= 0
    ensures SumScores(recs) >= 0
  {
    if recs != [] {
      SumScoresNonNegative(recs[..|recs| - 1]);
    }
  }

  lemma {:induction false} WordProductNonNegative(wm: Mults, rows: seq<int>, cols: seq<int>, n: nat)
    requires IsGrid(wm) && AllInBounds(rows, cols) && n <= |rows|
    requires forall r, c :: InBounds(r, c) ==> wm[r][c] >= 0
    ensures WordProduct(wm, rows, cols, n) >= 0
  {
    if n > 0 {
      WordProductNonNegative(wm, rows, cols, n - 1);
    }
  }
  /** With no negative letter multiplier, an extraction never scores below 0. */
  lemma ExtractNonNegative(g: Grid, lm: Mults, rows: seq<int>, cols: seq<int>, r: int, c: int, horizontal: bool)
    requires IsGrid(g) && IsGrid(lm) && InBounds(r, c) && |rows| == |cols|
    requires forall r', c' :: InBounds(r', c') ==> lm[r'][c'] >= 0
    ensures Extract(g, lm, rows, cols, r, c, horizontal).score >= 0
  {
    var line, mult := Line(g, horizontal, r, c), Line(lm, horizontal, r, c);
    assert forall k :: 0 <= k < |mult| ==> mult[k] >= 0 by {
      assert forall k :: 0 <= k < Size ==> InBounds(r, k) && InBounds(k, c);
    }
    RunScoreNonNegative(line, mult, Newly(rows, cols, horizontal, r, c), RunBegin(line, if horizontal then c else r));
  }

  /** With no negative letter multiplier, every recorded word scores at least 0. */
  lemma {:induction false} RecordingsNonNegative(g: Grid, lm: Mults, rows: seq<int>, cols: seq<int>, n: nat)
    requires IsGrid(g) && IsGrid(lm) && AllInBounds(rows, cols) && n <= |rows|
    requires forall r, c :: InBounds(r, c) ==> lm[r][c] >= 0
    ensures forall k :: 0 <= k < |Recordings(g, lm, rows, cols, n)| ==> Recordings(g, lm, rows, cols, n)[k].score >= 0
  {
    if n > 0 {
      RecordingsNonNegative(g, lm, rows, cols, n - 1);
      ExtractNonNegative(g, lm, rows, cols, rows[n - 1], cols[n - 1], false);
      ExtractNonNegative(g, lm, rows, cols, rows[n - 1], cols[n - 1], true);
    }
  }

  /** placeTilesAndValidate never scores below 0 on a board with no negative multiplier. */
  lemma PlaceScoreNonNegative(g: Grid, lm: Mults, wm: Mults, dict: set<string>,
                              rows: seq<int>, cols: seq<int>, letters: seq<Option<char>>, recorded: seq<WordScore>)
    requires IsGrid(g) && IsGrid(lm) && IsGrid(wm) && AllInBounds(rows, cols) && |letters| <= |rows|
    requires forall r, c :: InBounds(r, c) ==> lm[r][c] >= 0 && wm[r][c] >= 0
    ensures Place(g, lm, wm, dict, rows, cols, letters, recorded).score >= 0
  {
    if PassesEarlyChecks(g, rows, cols) {
      var w := Written(g, rows, cols, letters, |letters|);
      RecordingsNonNegative(w, lm, rows, cols, |rows|);
      SumScoresNonNegative(Recordings(w, lm, rows, cols, |rows|));
      WordProductNonNegative(wm, rows, cols, |rows|);
    }
  }

}

=== FILE: boards.dfy ===
/**
 * The game board: a 15x15 grid of letters (' ' for an empty square), letter and word
 * multiplier grids, the dictionary, and the list of runs recorded by the last word
 * validation. Every method is proved to compute the matching function of `BoardRules`
 * on the ghost snapshot `cells` of the grid.
 */
module Boards {
  import opened BoardRules
  import opened Wrappers
  import Scoring
  import Tiles

  class Board {
    var grid: array2<char>
    var letterMult: array2<int>
    var wordMult: array2<int>
    /** validWordsWithScores: the runs recorded since the list was last cleared. */
    var recorded: seq<WordScore>
    var dictionary: set<string>

    ghost var cells: Grid
    ghost var lmults: Mults
    ghost var wmults: Mults

    ghost predicate Valid()
      reads this, grid, letterMult, wordMult
    {
      && grid.Length0 == Size && grid.Length1 == Size
      && letterMult.Length0 == Size && letterMult.Length1 == Size
      && wordMult.Length0 == Size && wordMult.Length1 == Size
      && IsGrid(cells) && IsGrid(lmults) && IsGrid(wmults)
      && (forall r, c :: InBounds(r, c) ==> grid[r, c] == cells[r][c])
      && (forall r, c :: InBounds(r, c) ==> letterMult[r, c] == lmults[r][c])
      && (forall r, c :: InBounds(r, c) ==> wordMult[r, c] == wmults[r][c])
    }

    /** A new board: every square empty, the standard premium squares, nothing recorded. */
    constructor (dictionary: set<string>)
      ensures Valid() && fresh(grid) && fresh(letterMult) && fresh(wordMult)
      ensures cells == EmptyGrid()
      ensures lmults == DefaultLetterMults() && wmults == DefaultWordMults()
      ensures wmults[Centre][Centre] == 2
      ensures recorded == [] && this.dictionary == dictionary
    {
      grid := new char[Size, Size]((r, c) => ' ');
      letterMult := new int[Size, Size]((r, c) => DefaultLetterMult(r, c));
      wordMult := new int[Size, Size]((r, c) => DefaultWordMult(r, c));
      recorded := [];
      this.dictionary := dictionary;
      cells := EmptyGrid();
      lmults := DefaultLetterMults();
      wmults := DefaultWordMults();
      DefaultLayoutRange(Centre, Centre);
    }

    /** isFirstPlay: the centre square is still empty. */
    function IsFirstPlay(): (first: bool)
      reads this, grid, letterMult, wordMult
      requires Valid()
      ensures first <==> cells[Centre][Centre] == ' '
    {
      grid[Centre, Centre] == ' '
    }

    /** getLetterAt: the letter of an on-board square, ' ' for any other coordinate. */
    function GetLetterAt(row: int, col: int): (ch: char)
      reads this, grid, letterMult, wordMult
      requires Valid()
      ensures ch == if InBounds(row, col) then cells[row][col] else ' '
    {
      if 0 <= row < Size && 0 <= col < Size then grid[row, col] else ' '
    }

    /** setLetterAt: changes exactly the one on-board square, and nothing for any other coordinate. */
    method SetLetterAt(row: int, col: int, ch: char)
      requires Valid()
      modifies this, grid
      ensures Valid() && grid == old(grid) && letterMult == old(letterMult) && wordMult == old(wordMult)
      ensures cells == if InBounds(row, col) then SetCell(old(cells), row, col, ch) else old(cells)
      ensures lmults == old(lmults) && wmults == old(wmults)
      ensures recorded == old(recorded) && dictionary == old(dictionary)
    {
      if 0 <= row < Size && 0 <= col < Size {
        grid[row, col] := ch;
        cells := SetCell(cells, row, col, ch);
      }
    }

    /** setTileMultipliers: the board adopts the two given 15x15 grids. */
    method SetTileMultipliers(letterMultipliers: array2<int>, wordMultipliers: array2<int>)
      requires Valid()
      requires letterMultipliers.Length0 == Size && letterMultipliers.Length1 == Size
      requires wordMultipliers.Length0 == Size && wordMultipliers.Length1 == Size
      modifies this
      ensures Valid() && grid == old(grid) && cells == old(cells)
      ensures letterMult == letterMultipliers && wordMult == wordMultipliers
      ensures forall r, c :: InBounds(r, c) ==>
                lmults[r][c] == letterMultipliers[r, c] && wmults[r][c] == wordMultipliers[r, c]
      ensures recorded == old(recorded) && dictionary == old(dictionary)
    {
      wordMult := wordMultipliers;
      letterMult := letterMultipliers;
      lmults := seq(Size, r requires 0 <= r < Size reads letterMultipliers =>
                  seq(Size, c requires 0 <= c < Size reads letterMultipliers => letterMultipliers[r, c]));
      wmults := seq(Size, r requires 0 <= r < Size reads wordMultipliers =>
                  seq(Size, c requires 0 <= c < Size reads wordMultipliers => wordMultipliers[r, c]));
    }

    /** checkAdjacency: some listed square has a letter above, below, left or right of it. */
    method CheckAdjacency(rows: seq<int>, cols: seq<int>) returns (adjacent: bool)
      requires Valid() && AllInBounds(rows, cols)
      ensures adjacent == Adjacent(cells, rows, cols)
    {
      adjacent := false;
      for i := 0 to |rows|
        invariant adjacent == exists j :: 0 <= j < i && HasNeighbour(cells, rows[j], cols[j])
      {
        var row, col := rows[i], cols[i];
        if row > 0 && grid[row - 1, col] != ' ' { adjacent := true; }
        if row < Size - 1 && grid[row + 1, col] != ' ' { adjacent := true; }
        if col > 0 && grid[row, col - 1] != ' ' { adjacent := true; }
        if col < Size - 1 && grid[row, col + 1] != ' ' { adjacent := true; }
      }
    }

    /**
     * extractWordAndCalculateScore: walks back from (startRow, startCol) to the blank or
     * edge before the run, then forward over the run, adding each letter's value times its
     * letter multiplier when the square is listed. A run longer than one letter is recorded.
     */
    method ExtractWordAndCalculateScore(startRow: int, startCol: int, horizontal: bool,
                                        placedRows: seq<int>, placedCols: seq<int>) returns (word: string)
      requires Valid() && InBounds(startRow, startCol) && |placedRows| == |placedCols|
      modifies this
      ensures Valid() && grid == old(grid) && letterMult == old(letterMult) && wordMult == old(wordMult)
      ensures cells == old(cells) && lmults == old(lmults) && wmults == old(wmults)
      ensures dictionary == old(dictionary)
      ensures var ws := Extract(cells, lmults, placedRows, placedCols, startRow, startCol, horizontal);
              word == ws.word && recorded == old(recorded) + Record(ws)
    {
      var row, col := WalkBack(startRow, startCol, horizontal);
      var wordScore;
      word, wordScore := WalkForward(row, col, horizontal, placedRows, placedCols);
      ghost var r0, c0 := if horizontal then startRow else 0, if horizontal then 0 else startCol;
      assert Line(cells, horizontal, r0, c0) == Line(cells, horizontal, startRow, startCol);
      assert Line(lmults, horizontal, r0, c0) == Line(lmults, horizontal, startRow, startCol);
      assert Newly(placedRows, placedCols, horizontal, r0, c0) == Newly(placedRows, placedCols, horizontal, startRow, startCol);
      if |word| > 1 {
        recorded := recorded + [WordScore(word, wordScore)];
      }
    }

    /** The backward walk of extractWordAndCalculateScore, with the step onto the run's first square. */
    method WalkBack(startRow: int, startCol: int, horizontal: bool) returns (row: int, col: int)
      requires Valid() && InBounds(startRow, startCol)
      ensures var b := RunBegin(Line(cells, horizontal, startRow, startCol), if horizontal then startCol else startRow);
              if horizontal then row == startRow && col == b else col == startCol && row == b
    {
      ghost var line := Line(cells, horizontal, startRow, startCol);
      ghost var p := if horizontal then startCol else startRow;
      row, col := startRow, startCol;
      ghost var k := p;
      while row >= 0 && col >= 0 && grid[row, col] != ' '
        invariant -1 <= k <= p
        invariant if horizontal then row == startRow && col == k else col == startCol && row == k
        invariant RunBegin(line, k) == RunBegin(line, p)
        decreases k
      {
        assert grid[row, col] == line[k];
        if horizontal {
          col := col - 1;
        } else {
          row := row - 1;
        }
        k := k - 1;
      }
      assert k >= 0 ==> grid[row, col] == line[k];
      if horizontal { col := col + 1; } else { row := row + 1; }
    }

    /** One square of the forward walk: its letter's value, times the letter multiplier when it was just placed. */
    method LetterScore(row: int, col: int, placedRows: seq<int>, placedCols: seq<int>) returns (letterValue: int)
      requires Valid() && InBounds(row, col) && |placedRows| == |placedCols|
      ensures letterValue == Scoring.LetterValue(cells[row][col])
                             * (if ListedAt(placedRows, placedCols, row, col) then lmults[row][col] else 1)
    {
      var isNewlyPlaced := IsNewlyPlaced(placedRows, placedCols, row, col);
      letterValue := Scoring.LetterValue(grid[row, col]);
      if isNewlyPlaced {
        letterValue := letterValue * letterMult[row, col];
      }
    }

    /**
     * The forward walk of extractWordAndCalculateScore from (row, col): the letters up to
     * the next blank or the edge, and their score with listed squares' letter multipliers.
     */
    method WalkForward(row0: int, col0: int, horizontal: bool, placedRows: seq<int>, placedCols: seq<int>)
      returns (word: string, wordScore: int)
      requires Valid() && |placedRows| == |placedCols|
      requires if horizontal then 0 <= row0 < Size && 0 <= col0 <= Size else 0 <= col0 < Size && 0 <= row0 <= Size
      ensures var r, c := if horizontal then row0 else 0, if horizontal then 0 else col0;
              var line := Line(cells, horizontal, r, c);
              var b := if horizontal then col0 else row0;
              && word == RunFrom(line, b)
              && wordScore == RunScore(line, Line(lmults, horizontal, r, c), Newly(placedRows, placedCols, horizontal, r, c), b)
    {
      var r0, c0 := if horizontal then row0 else 0, if horizontal then 0 else col0;
      ghost var line := Line(cells, horizontal, r0, c0);
      ghost var mult := Line(lmults, horizontal, r0, c0);
      ghost var newly := Newly(placedRows, placedCols, horizontal, r0, c0);
      ghost var b := if horizontal then col0 else row0;
      var row, col := row0, col0;
      ghost var k := b;
      word, wordScore := [], 0;
      while row < Size && col < Size && grid[row, col] != ' '
        invariant b <= k <= Size
        invariant if horizontal then row == row0 && col == k else col == col0 && row == k
        invariant word + RunFrom(line, k) == RunFrom(line, b)
        invariant wordScore + RunScore(line, mult, newly, k) == RunScore(line, mult, newly, b)
        decreases Size - k
      {
        assert grid[row, col] == line[k];
        WalkOn(line, mult, newly, b, k, word, wordScore);
        word := word + [grid[row, col]];
        var letterValue := LetterScore(row, col, placedRows, placedCols);
        assert letterValue == Scoring.LetterValue(line[k]) * (if newly[k] then mult[k] else 1);
        wordScore := wordScore + letterValue;
        if horizontal {
          col := col + 1;
        } else {
          row := row + 1;
        }
        k := k + 1;
      }
      assert k < Size ==> grid[row, col] == line[k];
      assert RunFrom(line, k) == [];
    }

    /** The scan of the listed coordinates for (row, col) inside extractWordAndCalculateScore's walk. */
    static method IsNewlyPlaced(placedRows: seq<int>, placedCols: seq<int>, row: int, col: int) returns (isNewlyPlaced: bool)
      requires |placedRows| == |placedCols|
      ensures isNewlyPlaced <==> exists j :: 0 <= j < |placedRows| && placedRows[j] == row && placedCols[j] == col
    {
      isNewlyPlaced := false;
      for i := 0 to |placedRows|
        invariant isNewlyPlaced <==> exists j :: 0 <= j < i && placedRows[j] == row && placedCols[j] == col
      {
        if placedRows[i] == row && placedCols[i] == col {
          isNewlyPlaced := true;
          break;
        }
      }
    }

    /**
     * validateWords: clears the list, records the vertical run of every listed square in
     * the first square's column and the horizontal run of every listed square in its row,
     * and accepts when every recorded run is a valid word.
     */
    method ValidateWords(rows: seq<int>, cols: seq<int>) returns (allWordsValid: bool)
      requires Valid() && AllInBounds(rows, cols)
      modifies this
      ensures Valid() && grid == old(grid) && letterMult == old(letterMult) && wordMult == old(wordMult)
      ensures cells == old(cells) && lmults == old(lmults) && wmults == old(wmults)
      ensures dictionary == old(dictionary)
      ensures recorded == Recordings(cells, lmults, rows, cols, |rows|)
      ensures allWordsValid == AllValid(recorded, dictionary)
    {
      allWordsValid := true;
      recorded := [];
      for i := 0 to |rows|
        invariant Valid() && grid == old(grid) && letterMult == old(letterMult) && wordMult == old(wordMult)
        invariant cells == old(cells) && lmults == old(lmults) && wmults == old(wmults)
        invariant dictionary == old(dictionary)
        invariant recorded == Recordings(cells, lmults, rows, cols, i)
      {
        ghost var before := recorded;
        if cols[i] == cols[0] {
          var _ := ExtractWordAndCalculateScore(rows[i], cols[i], false, rows, cols);
        }
        ghost var middle := recorded;
        assert middle == before + (if cols[i] == cols[0] then Record(Extract(cells, lmults, rows, cols, rows[i], cols[i], false)) else []);
        if rows[i] == rows[0] {
          var _ := ExtractWordAndCalculateScore(rows[i], cols[i], true, rows, cols);
        }
        assert recorded == middle + (if rows[i] == rows[0] then Record(Extract(cells, lmults, rows, cols, rows[i], cols[i], true)) else []);
      }
      for k := 0 to |recorded|
        invariant allWordsValid == forall j :: 0 <= j < k ==> IsValidWord(dictionary, recorded[j].word)
      {
        if Scoring.UpperString(recorded[k].word) !in dictionary {
          allWordsValid := false;
        }
      }
    }

    /** removeTiles: every listed square becomes empty. */
    method RemoveTiles(rows: seq<int>, cols: seq<int>)
      requires Valid() && AllInBounds(rows, cols)
      modifies this, grid
      ensures Valid() && grid == old(grid) && letterMult == old(letterMult) && wordMult == old(wordMult)
      ensures cells == Cleared(old(cells), rows, cols, |rows|)
      ensures lmults == old(lmults) && wmults == old(wmults)
      ensures recorded == old(recorded) && dictionary == old(dictionary)
    {
      for i := 0 to |rows|
        invariant Valid() && grid == old(grid) && letterMult == old(letterMult) && wordMult == old(wordMult)
        invariant cells == Cleared(old(cells), rows, cols, i)
        invariant lmults == old(lmults) && wmults == old(wmults)
        invariant recorded == old(recorded) && dictionary == old(dictionary)
      {
        grid[rows[i], cols[i]] := ' ';
        cells := SetCell(cells, rows[i], cols[i], ' ');
      }
    }

    /** getTurnScore: the recorded scores' sum times the listed squares' word multipliers; the list is emptied. */
    method GetTurnScore(rows: seq<int>, cols: seq<int>) returns (score: int)
      requires Valid() && AllInBounds(rows, cols)
      modifies this
      ensures Valid() && grid == old(grid) && letterMult == old(letterMult) && wordMult == old(wordMult)
      ensures cells == old(cells) && lmults == old(lmults) && wmults == old(wmults)
      ensures dictionary == old(dictionary)
      ensures score == SumScores(old(recorded)) * WordProduct(wmults, rows, cols, |rows|)
      ensures recorded == []
    {
      score := 0;
      for k := 0 to |recorded|
        invariant score == SumScores(recorded[..k])
      {
        assert recorded[..k + 1][..k] == recorded[..k];
        score := score + recorded[k].score;
      }
      assert recorded[..|recorded|] == recorded;
      var totalWordMultiplier := 1;
      for i := 0 to |rows|
        invariant totalWordMultiplier == WordProduct(wmults, rows, cols, i)
      {
        totalWordMultiplier := totalWordMultiplier * wordMult[rows[i], cols[i]];
      }
      score := score * totalWordMultiplier;
      recorded := [];
    }

    /**
     * placeTilesAndValidate. Mismatched array lengths are only reported by Board.java,
     * and so is a first play shorter than two tiles; the model asks for equally many rows
     * and columns, no more tiles than coordinates, and on-board coordinates.
     */
    method PlaceTilesAndValidate(rows: seq<int>, cols: seq<int>, tilesUsedFromRack: seq<Tiles.Tile?>)
      returns (score: int)
      requires Valid() && AllInBounds(rows, cols) && |tilesUsedFromRack| <= |rows|
      modifies this, grid
      ensures Valid() && grid == old(grid) && letterMult == old(letterMult) && wordMult == old(wordMult)
      ensures lmults == old(lmults) && wmults == old(wmults) && dictionary == old(dictionary)
      ensures var o := Place(old(cells), lmults, wmults, dictionary, rows, cols,
                             old(Tiles.EffectiveLetters(tilesUsedFromRack)), old(recorded));
              score == o.score && cells == o.grid && recorded == o.recorded
    {
      ghost var g0, r0, lm, wm, dict := cells, recorded, lmults, wmults, dictionary;
      ghost var letters := Tiles.EffectiveLetters(tilesUsedFromRack);
      ghost var o := Place(g0, lm, wm, dict, rows, cols, letters, r0);
      var passes := EarlyChecks(rows, cols);
      if !passes {
        assert o == Outcome(0, g0, r0);
        return 0;
      }
      score := PlaceInLine(rows, cols, tilesUsedFromRack);
    }

    /** The first checks of placeTilesAndValidate: a first play covers the centre, and the tiles share a line. */
    method EarlyChecks(rows: seq<int>, cols: seq<int>) returns (passes: bool)
      requires Valid() && AllInBounds(rows, cols)
      ensures passes == PassesEarlyChecks(cells, rows, cols)
    {
      if IsFirstPlay() {
        var centerSquareUsed := IsNewlyPlaced(rows, cols, Centre, Centre);
        if !centerSquareUsed {
          assert !CoversCentre(rows, cols);
          return false;
        }
      }
      passes := InOneLine(rows, cols);
    }

    /**
     * The rest of placeTilesAndValidate once the first-play and one-line checks pass: the
     * tiles are written, and taken off again unless they touch the board and make only
     * dictionary words.
     */
    method PlaceInLine(rows: seq<int>, cols: seq<int>, tilesUsedFromRack: seq<Tiles.Tile?>)
      returns (score: int)
      requires Valid() && AllInBounds(rows, cols) && |tilesUsedFromRack| <= |rows|
      requires PassesEarlyChecks(cells, rows, cols)
      modifies this, grid
      ensures Valid() && grid == old(grid) && letterMult == old(letterMult) && wordMult == old(wordMult)
      ensures lmults == old(lmults) && wmults == old(wmults) && dictionary == old(dictionary)
      ensures var o := Place(old(cells), lmults, wmults, dictionary, rows, cols,
                             old(Tiles.EffectiveLetters(tilesUsedFromRack)), old(recorded));
              score == o.score && cells == o.grid && recorded == o.recorded
    {
      ghost var g0, r0, lm, wm, dict := cells, recorded, lmults, wmults, dictionary;
      ghost var letters := Tiles.EffectiveLetters(tilesUsedFromRack);
      ghost var o := Place(g0, lm, wm, dict, rows, cols, letters, r0);
      // Tentatively place the tiles.
      WriteTiles(rows, cols, tilesUsedFromRack);
      ghost var w := cells;
      assert w == Written(g0, rows, cols, letters, |letters|);
      var adjacent := CheckAdjacency(rows, cols);
      if !adjacent {
        RemoveTiles(rows, cols);
        assert o == Outcome(0, Cleared(w, rows, cols, |rows|), r0);
        return 0;
      }
      var valid := ValidateWords(rows, cols);
      ghost var recs := recorded;
      if !valid {
        RemoveTiles(rows, cols);
        assert o == Outcome(0, Cleared(w, rows, cols, |rows|), recs);
        return 0;
      }
      score := GetTurnScore(rows, cols);
      assert o == Outcome(score, w, []);
    }

    /** The collinearity scan of placeTilesAndValidate: each consecutive pair shares a row or a column. */
    static method InOneLine(rows: seq<int>, cols: seq<int>) returns (inLine: bool)
      requires |rows| == |cols|
      ensures inLine <==> forall i :: 0 <= i < |rows| - 1 ==> rows[i] == rows[i + 1] || cols[i] == cols[i + 1]
    {
      if |rows| >= 2 {
        for i := 0 to |rows| - 1
          invariant forall j :: 0 <= j < i ==> rows[j] == rows[j + 1] || cols[j] == cols[j + 1]
        {
          if rows[i] != rows[i + 1] && cols[i] != cols[i + 1] {
            return false;
          }
        }
      }
      return true;
    }

    /** The tentative write of placeTilesAndValidate: each non-null tile's effective letter goes on its square. */
    method WriteTiles(rows: seq<int>, cols: seq<int>, tilesUsedFromRack: seq<Tiles.Tile?>)
      requires Valid() && AllInBounds(rows, cols) && |tilesUsedFromRack| <= |rows|
      modifies this, grid
      ensures Valid() && grid == old(grid) && letterMult == old(letterMult) && wordMult == old(wordMult)
      ensures cells == Written(old(cells), rows, cols, Tiles.EffectiveLetters(tilesUsedFromRack), |tilesUsedFromRack|)
      ensures lmults == old(lmults) && wmults == old(wmults)
      ensures recorded == old(recorded) && dictionary == old(dictionary)
    {
      ghost var letters := Tiles.EffectiveLetters(tilesUsedFromRack);
      for i := 0 to |tilesUsedFromRack|
        invariant Valid() && grid == old(grid) && letterMult == old(letterMult) && wordMult == old(wordMult)
        invariant cells == Written(old(cells), rows, cols, letters, i)
        invariant lmults == old(lmults) && wmults == old(wmults)
        invariant recorded == old(recorded) && dictionary == old(dictionary)
      {
        if tilesUsedFromRack[i] != null {
          var ch := tilesUsedFromRack[i].EffectiveLetter();
          grid[rows[i], cols[i]] := ch;
          cells := SetCell(cells, rows[i], cols[i], ch);
        }
      }
    }
  }

  /** One more letter of the forward walk: it joins the word and its score joins the word's score. */
  lemma WalkOn(line: seq<char>, mult: seq<int>, newly: seq<bool>, b: int, k: int, word: string, score: int)
    requires |mult| == |line| && |newly| == |line| && 0 <= b <= k < |line| && line[k] != ' '
    requires word + RunFrom(line, k) == RunFrom(line, b)
    requires score + RunScore(line, mult, newly, k) == RunScore(line, mult, newly, b)
    ensures (word + [line[k]]) + RunFrom(line, k + 1) == RunFrom(line, b)
    ensures score + Scoring.LetterValue(line[k]) * (if newly[k] then mult[k] else 1) + RunScore(line, mult, newly, k + 1)
            == RunScore(line, mult, newly, b)
  {
    assert RunFrom(line, k) == [line[k]] + RunFrom(line, k + 1);
    assert (word + [line[k]]) + RunFrom(line, k + 1) == word + ([line[k]] + RunFrom(line, k + 1));
  }
}

=== FILE: game.dfy ===
/**
 * The game itself: the players and whose turn it is, the board and the bag, and for
 * every player a stack of move snapshots to undo and a stack to redo. Also the ordering
 * of a placement's squares before validation, and the rebuilding of the computer
 * player's anchors and board mirror from a loaded board.
 */
module Game {
  import opened BoardRules
  import opened Wrappers
  import Tiles
  import Players
  import TileBags
  import Boards
  import MoveSearch

  // ---------------------------------------------------------------------
  // Move snapshots and the undo/redo rules

  /**
   * MoveState: the squares and the rack tiles of one move (a null tile for a square that
   * already held a letter), and the player's rack and score it restores. The snapshots
   * are private copies that nothing changes later, so they are values here.
   */
  datatype MoveState = MoveState(rows: seq<int>, cols: seq<int>, tiles: seq<Tiles.Tile?>,
                                 rackSnapshot: seq<Tiles.Tile?>, scoreSnapshot: int)

  /** The loops over a move's tiles index its rows and columns in step, so these must be long enough. */
  predicate Fits(m: MoveState) {
    |m.tiles| <= |m.rows| && |m.tiles| <= |m.cols|
  }

  /** The snapshot a new player starts with: no squares, no tiles. */
  function Initial(rack: seq<Tiles.Tile?>, score: int): MoveState {
    MoveState([], [], [], rack, score)
  }

  /** The objects among a list of tiles. */
  function TileSet(ts: seq<Tiles.Tile?>): set<Tiles.Tile> {
    set i | 0 <= i < |ts| && ts[i] != null :: ts[i]
  }

  /**
   * setLetterAt for each of the first n marked squares, in order: a Some mark writes its
   * letter, and a square off the board is left alone.
   */
  function Stamped(g: Grid, rows: seq<int>, cols: seq<int>, marks: seq<Option<char>>, n: nat): (g': Grid)
    requires IsGrid(g) && n <= |marks| && |marks| <= |rows| && |marks| <= |cols|
    ensures IsGrid(g')
  {
    if n == 0 then g
    else
      var w := Stamped(g, rows, cols, marks, n - 1);
      if marks[n - 1].Some? && InBounds(rows[n - 1], cols[n - 1]) then SetCell(w, rows[n - 1], cols[n - 1], marks[n - 1].value)
      else w
  }

  /** The letter the last marked stamp on (r, c) among the first n writes, if any. */
  function LastMark(rows: seq<int>, cols: seq<int>, marks: seq<Option<char>>, n: nat, r: int, c: int): Option<char>
    requires n <= |marks| && |marks| <= |rows| && |marks| <= |cols|
  {
    if n == 0 then None
    else if marks[n - 1].Some? && rows[n - 1] == r && cols[n - 1] == c then marks[n - 1]
    else LastMark(rows, cols, marks, n - 1, r, c)
  }

  /** What restoreMoveState writes: a blank on the square of every non-null tile. */
  function Blanks(tiles: seq<Tiles.Tile?>): (ms: seq<Option<char>>)
    ensures |ms| == |tiles|
    ensures forall i :: 0 <= i < |tiles| ==> ms[i] == if tiles[i] == null then None else Some(' ')
  {
    seq(|tiles|, i requires 0 <= i < |tiles| => if tiles[i] == null then None else Some(' '))
  }

  /** One player's part of the game: the undo stack, the redo stack (tops last), the rack and the score. */
  datatype Seat = Seat(undo: seq<MoveState>, redo: seq<MoveState>, rack: seq<Tiles.Tile?>, score: int)

  /**
   * The stacks, rack and score after an undo: the last move is popped, a snapshot with
   * its squares and the current rack and score goes onto redo, and the rack and score it
   * saved come back.
   */
  function PopUndo(s: Seat): Seat
    requires s.undo != []
  {
    var m := s.undo[|s.undo| - 1];
    Seat(s.undo[..|s.undo| - 1], s.redo + [MoveState(m.rows, m.cols, m.tiles, s.rack, s.score)],
         m.rackSnapshot, m.scoreSnapshot)
  }

  /** The stacks, rack and score after a redo: PopUndo with the two stacks' roles exchanged. */
  function PopRedo(s: Seat): Seat
    requires s.redo != []
  {
    var m := s.redo[|s.redo| - 1];
    Seat(s.undo + [MoveState(m.rows, m.cols, m.tiles, s.rack, s.score)], s.redo[..|s.redo| - 1],
         m.rackSnapshot, m.scoreSnapshot)
  }

  /** undo: nothing when only the initial snapshot is left; otherwise the last move's squares are blanked. */
  function Undone(g: Grid, s: Seat): (r: Option<(Grid, Seat)>)
    requires IsGrid(g) && (s.undo != [] ==> Fits(s.undo[|s.undo| - 1]))
    ensures r.Some? <==> |s.undo| > 1
    ensures r.Some? ==> var (g', s') := r.value;
              && IsGrid(g') && |s'.undo| == |s.undo| - 1 && |s'.redo| == |s.redo| + 1
              && s'.rack == s.undo[|s.undo| - 1].rackSnapshot && s'.score == s.undo[|s.undo| - 1].scoreSnapshot
  {
    if |s.undo| <= 1 then None
    else
      var m := s.undo[|s.undo| - 1];
      Some((Stamped(g, m.rows, m.cols, Blanks(m.tiles), |m.tiles|), PopUndo(s)))
  }

  /** redo: nothing when the redo stack is empty; otherwise its top's letters are written back. */
  function Redone(g: Grid, s: Seat): (r: Option<(Grid, Seat)>)
    reads if s.redo == [] then {} else TileSet(s.redo[|s.redo| - 1].tiles)
    requires IsGrid(g) && (s.redo != [] ==> Fits(s.redo[|s.redo| - 1]))
    ensures r.Some? <==> s.redo != []
    ensures r.Some? ==> var (g', s') := r.value;
              && IsGrid(g') && |s'.undo| == |s.undo| + 1 && |s'.redo| == |s.redo| - 1
              && s'.rack == s.redo[|s.redo| - 1].rackSnapshot && s'.score == s.redo[|s.redo| - 1].scoreSnapshot
  {
    if s.redo == [] then None
    else
      var m := s.redo[|s.redo| - 1];
      Some((Stamped(g, m.rows, m.cols, Tiles.EffectiveLetters(m.tiles), |m.tiles|), PopRedo(s)))
  }

  // ---------------------------------------------------------------------
  // Turn order

  /** getNextPlayer / advanceTurn: the index after i among n players, back to the first after the last. */
  function NextIndex(i: int, n: int): (j: int)
    requires 0 <= i < n
    ensures 0 <= j < n
    ensures j == if i == n - 1 then 0 else i + 1
  {
    (i + 1) % n
  }

  /** The current player's index after k turns have passed from index i. */
  function AfterTurns(i: int, n: int, k: nat): (j: int)
    requires 0 <= i < n
    ensures 0 <= j < n
  {
    if k == 0 then i else NextIndex(AfterTurns(i, n, k - 1), n)
  }

  /** How many of the players have passed at least twice. */
  ghost function Passed(ps: seq<Players.Player>): nat
    reads set i | 0 <= i < |ps| :: ps[i]
  {
    if ps == [] then 0
    else Passed(ps[..|ps| - 1]) + (if ps[|ps| - 1].passCounter >= 2 then 1 else 0)
  }

  // ---------------------------------------------------------------------
  // Ordering a placement

  /** A selected square and its letter, as the three parallel arrays hold them. */
  type Triple = (int, int, char)

  function Triples(rows: seq<int>, cols: seq<int>, tiles: seq<char>): (ts: seq<Triple>)
    requires |rows| == |cols| == |tiles|
    ensures |ts| == |rows| && forall i :: 0 <= i < |rows| ==> ts[i] == (rows[i], cols[i], tiles[i])
  {
    seq(|rows|, i requires 0 <= i < |rows| => (rows[i], cols[i], tiles[i]))
  }

  /** The coordinate a placement is ordered by: the column for a horizontal play, the row for a vertical one. */
  function Key(t: Triple, horizontal: bool): int {
    if horizontal then t.1 else t.0
  }

  predicate SortedBy(ts: seq<Triple>, horizontal: bool) {
    forall i, j :: 0 <= i < j < |ts| ==> Key(ts[i], horizontal) <= Key(ts[j], horizontal)
  }

  /** Every selected square lies in the first one's row (horizontal) or column (vertical). */
  predicate InRow(rows: seq<int>) {
    forall i :: 0 <= i < |rows| ==> rows[i] == rows[0]
  }

  /**
   * The orientation check of placeWordOnBoard: horizontal when every square shares the
   * first one's row, vertical when every square shares its column.
   */
  method Orientation(rows: seq<int>, cols: seq<int>) returns (horizontal: bool, vertical: bool)
    requires |rows| == |cols|
    ensures horizontal <==> InRow(rows)
    ensures vertical <==> InRow(cols)
  {
    horizontal, vertical := true, true;
    var i := 1;
    while i < |rows|
      invariant 1 <= i && (i <= |rows| || |rows| == 0)
      invariant horizontal <==> forall j :: 0 <= j < i && j < |rows| ==> rows[j] == rows[0]
      invariant vertical <==> forall j :: 0 <= j < i && j < |cols| ==> cols[j] == cols[0]
    {
      if rows[i] != rows[0] { horizontal := false; }
      if cols[i] != cols[0] { vertical := false; }
      i := i + 1;
    }
  }

  /**
   * The exchange sort of placeWordOnBoard on copies of the three parallel arrays: for
   * each i, every later j whose key is smaller swaps all three entries with i. The
   * result holds the same triples, ordered by column for a horizontal play and by row
   * for a vertical one.
   */
  method SortPlacement(rows: seq<int>, cols: seq<int>, tiles: seq<char>, horizontal: bool, vertical: bool)
    returns (sortedRows: seq<int>, sortedCols: seq<int>, sortedTiles: seq<char>)
    requires |rows| == |cols| == |tiles|
    requires horizontal == InRow(rows) && vertical == InRow(cols) && (horizontal || vertical)
    ensures |sortedRows| == |sortedCols| == |sortedTiles| == |rows|
    ensures multiset(Triples(sortedRows, sortedCols, sortedTiles)) == multiset(Triples(rows, cols, tiles))
    ensures SortedBy(Triples(sortedRows, sortedCols, sortedTiles), horizontal)
  {
    var n := |rows|;
    var sr := new int[n](i requires 0 <= i < n => rows[i]);
    var sc := new int[n](i requires 0 <= i < n => cols[i]);
    var st := new char[n](i requires 0 <= i < n => tiles[i]);
    assert sr[..] == rows && sc[..] == cols && st[..] == tiles;
    var i := 0;
    while i < n - 1
      invariant 0 <= i <= n || n == 0
      invariant multiset(Placement(sr, sc, st)) == multiset(Triples(rows, cols, tiles))
      invariant OnLine(Placement(sr, sc, st), horizontal, vertical, rows, cols)
      invariant Settled(Placement(sr, sc, st), i, horizontal)
    {
      SmallestFirst(sr, sc, st, i, horizontal, vertical, rows, cols);
      i := i + 1;
    }
    sortedRows, sortedCols, sortedTiles := sr[..], sc[..], st[..];
  }

  /** The three arrays read together. */
  ghost function Placement(sr: array<int>, sc: array<int>, st: array<char>): seq<Triple>
    reads sr, sc, st
    requires sr.Length == sc.Length == st.Length
  {
    Triples(sr[..], sc[..], st[..])
  }

  /** Every square stays in the row (horizontal) or column (vertical) of the original first square. */
  ghost predicate OnLine(ts: seq<Triple>, horizontal: bool, vertical: bool, rows: seq<int>, cols: seq<int>)
    requires |rows| == |cols| == |ts|
  {
    forall k :: 0 <= k < |ts| ==> (horizontal ==> ts[k].0 == rows[0]) && (vertical ==> ts[k].1 == cols[0])
  }

  /** The first i entries are in place: none has a larger key than any entry after it. */
  ghost predicate Settled(ts: seq<Triple>, i: int, horizontal: bool) {
    forall a, b :: 0 <= a < i && a < b < |ts| ==> Key(ts[a], horizontal) <= Key(ts[b], horizontal)
  }

  /** One pass of the outer loop: entry i ends with the smallest key among entries i and later. */
  method SmallestFirst(sr: array<int>, sc: array<int>, st: array<char>, i: nat, horizontal: bool, vertical: bool,
                       ghost rows: seq<int>, ghost cols: seq<int>)
    requires sr != sc && sr.Length == sc.Length == st.Length == |rows| == |cols| && i < sr.Length
    requires horizontal || vertical
    requires OnLine(Placement(sr, sc, st), horizontal, vertical, rows, cols)
    requires Settled(Placement(sr, sc, st), i, horizontal)
    modifies sr, sc, st
    ensures multiset(Placement(sr, sc, st)) == old(multiset(Placement(sr, sc, st)))
    ensures OnLine(Placement(sr, sc, st), horizontal, vertical, rows, cols)
    ensures Settled(Placement(sr, sc, st), i + 1, horizontal)
  {
    for j := i + 1 to sr.Length
      invariant multiset(Placement(sr, sc, st)) == old(multiset(Placement(sr, sc, st)))
      invariant OnLine(Placement(sr, sc, st), horizontal, vertical, rows, cols)
      invariant Settled(Placement(sr, sc, st), i, horizontal)
      invariant forall b :: i < b < j ==> Key(Placement(sr, sc, st)[i], horizontal) <= Key(Placement(sr, sc, st)[b], horizontal)
    {
      ghost var ts := Placement(sr, sc, st);
      assert ts[i] == (sr[i], sc[i], st[i]) && ts[j] == (sr[j], sc[j], st[j]);
      if (horizontal && sc[i] > sc[j]) || (vertical && sr[i] > sr[j]) {
        assert Key(ts[j], horizontal) < Key(ts[i], horizontal);
        Exchange(sr, sc, st, i, j);
        SwapKeeps(ts, i, j, horizontal, vertical, rows, cols);
      } else {
        assert Key(ts[i], horizontal) <= Key(ts[j], horizontal);
      }
    }
  }

  /** Swapping entry i with a later j of smaller key keeps every invariant of the pass. */
  lemma SwapKeeps(ts: seq<Triple>, i: nat, j: nat, horizontal: bool, vertical: bool, rows: seq<int>, cols: seq<int>)
    requires i < j < |ts| == |rows| == |cols|
    requires OnLine(ts, horizontal, vertical, rows, cols) && Settled(ts, i, horizontal)
    requires forall b :: i < b < j ==> Key(ts[i], horizontal) <= Key(ts[b], horizontal)
    requires Key(ts[j], horizontal) < Key(ts[i], horizontal)
    ensures var r := Swapped(ts, i, j);
            && OnLine(r, horizontal, vertical, rows, cols) && Settled(r, i, horizontal)
            && forall b :: i < b <= j ==> Key(r[i], horizontal) <= Key(r[b], horizontal)
  {
  }

  /** The swap of entries i and j in all three arrays. */
  method Exchange(sr: array<int>, sc: array<int>, st: array<char>, i: nat, j: nat)
    requires sr != sc && sr.Length == sc.Length == st.Length && i < sr.Length && j < sr.Length
    modifies sr, sc, st
    ensures Placement(sr, sc, st) == Swapped(old(Placement(sr, sc, st)), i, j)
  {
    sr[i], sr[j] := sr[j], sr[i];
    sc[i], sc[j] := sc[j], sc[i];
    st[i], st[j] := st[j], st[i];
  }

  function Swapped<T>(s: seq<T>, i: nat, j: nat): (r: seq<T>)
    requires i < |s| && j < |s|
    ensures |r| == |s| && multiset(r) == multiset(s)
    ensures r[i] == s[j] && r[j] == s[i] && forall k :: 0 <= k < |s| && k != i && k != j ==> r[k] == s[k]
  {
    s[i := s[j]][j := s[i]]
  }

  // ---------------------------------------------------------------------
  // Rebuilding the computer player's view of a loaded board

  /** A square of the board. */
  predicate OnGrid(p: MoveSearch.Pos) {
    InBounds(p.0, p.1)
  }

  /** Square p comes before (r, c) in row-major order. */
  predicate Before(p: MoveSearch.Pos, r: int, c: int) {
    p.0 < r || (p.0 == r && p.1 < c)
  }

  /** (r, c) is a point the row-major scan reaches: a column of a row, or the end of the board. */
  predicate Stop(r: nat, c: nat) {
    (r < Size && c <= Size) || (r == Size && c == 0)
  }

  /** The empty on-board squares among the first d neighbours of p, in the four directions of loadGame. */
  function EmptyNeighbours(g: Grid, p: MoveSearch.Pos, d: nat): set<MoveSearch.Pos>
    requires IsGrid(g) && d <= |MoveSearch.Directions|
  {
    if d == 0 then {}
    else
      var q := MoveSearch.Neighbour(p, d - 1);
      EmptyNeighbours(g, p, d - 1) + (if OnGrid(q) && g[q.0][q.1] == ' ' then {q} else {})
  }

  /** The mirror loadGame has rebuilt when its scan reaches (r, c). */
  function MirrorUpTo(g: Grid, r: nat, c: nat): map<MoveSearch.Pos, char>
    requires IsGrid(g) && Stop(r, c)
    decreases r, c
  {
    if c == 0 then (if r == 0 then map[] else MirrorUpTo(g, r - 1, Size))
    else
      var m := MirrorUpTo(g, r, c - 1);
      if g[r][c - 1] != ' ' then m[(r, c - 1) := g[r][c - 1]] else m
  }

  /** The anchors loadGame has rebuilt when its scan reaches (r, c). */
  function AnchorsUpTo(g: Grid, r: nat, c: nat): set<MoveSearch.Pos>
    requires IsGrid(g) && Stop(r, c)
    decreases r, c
  {
    if c == 0 then (if r == 0 then {} else AnchorsUpTo(g, r - 1, Size))
    else
      AnchorsUpTo(g, r, c - 1)
        + (if g[r][c - 1] != ' ' then EmptyNeighbours(g, (r, c - 1), |MoveSearch.Directions|) else {})
  }

  /** An empty square of the board with a letter above, below, left or right of it. */
  predicate NextToLetter(g: Grid, p: MoveSearch.Pos)
    requires IsGrid(g)
  {
    && OnGrid(p) && g[p.0][p.1] == ' '
    && exists d :: 0 <= d < |MoveSearch.Directions| && OnGrid(MoveSearch.Neighbour(p, d))
         && g[MoveSearch.Neighbour(p, d).0][MoveSearch.Neighbour(p, d).1] != ' '
  }

  // ---------------------------------------------------------------------
  // The game state

  /** The board half of redo: each tile of the move puts its letter back on its square. */
  method WriteLetters(board: Boards.Board, rows: seq<int>, cols: seq<int>, tiles: seq<Tiles.Tile?>)
    requires board.Valid() && |tiles| <= |rows| && |tiles| <= |cols|
    modifies board, board.grid
    ensures board.Valid() && board.grid == old(board.grid)
    ensures board.lmults == old(board.lmults) && board.wmults == old(board.wmults)
    ensures board.letterMult == old(board.letterMult) && board.wordMult == old(board.wordMult)
    ensures board.recorded == old(board.recorded) && board.dictionary == old(board.dictionary)
    ensures board.cells == Stamped(old(board.cells), rows, cols, Tiles.EffectiveLetters(tiles), |tiles|)
  {
    ghost var letters := Tiles.EffectiveLetters(tiles);
    for i := 0 to |tiles|
      invariant board.Valid() && board.grid == old(board.grid)
      invariant board.lmults == old(board.lmults) && board.wmults == old(board.wmults)
      invariant board.letterMult == old(board.letterMult) && board.wordMult == old(board.wordMult)
      invariant board.recorded == old(board.recorded) && board.dictionary == old(board.dictionary)
      invariant board.cells == Stamped(old(board.cells), rows, cols, letters, i)
    {
      if tiles[i] != null {
        board.SetLetterAt(rows[i], cols[i], tiles[i].EffectiveLetter());
      }
    }
  }

  /** copyRack: a fresh array with the rack's slots. */
  method CopyRack(hand: seq<Tiles.Tile?>) returns (copy: array<Tiles.Tile?>)
    ensures fresh(copy) && copy[..] == hand
  {
    copy := new Tiles.Tile?[|hand|](i requires 0 <= i < |hand| => hand[i]);
  }

  class ScrabbleModel {
    var board: Boards.Board
    var players: seq<Players.Player>
    var currentPlayerIndex: int
    var currentPlayer: Players.Player?
    var tileBag: TileBags.TileBag
    var undoStacks: map<Players.Player, seq<MoveState>>
    var redoStacks: map<Players.Player, seq<MoveState>>
    /** boardObservers: the computer players told about every accepted move. */
    var observers: seq<MoveSearch.AI>

    ghost predicate Valid()
      reads this, board, board.grid, board.letterMult, board.wordMult, tileBag
    {
      board.Valid() && tileBag.Valid()
    }

    /** Every blank key in the bag is the shared blank, so each draw hands out the very tile the bag loses. */
    ghost predicate BagShared()
      reads this, tileBag
    {
      TileBags.SharedBlanks(tileBag.entries, tileBag.blankTile)
    }

    /** It is some player's turn, and currentPlayer is that player. */
    ghost predicate Playing()
      reads this
    {
      0 <= currentPlayerIndex < |players| && currentPlayer == players[currentPlayerIndex]
    }

    /** A player's stacks, rack and score. */
    ghost function SeatOf(p: Players.Player): Seat
      reads this, p, p.rack
      requires p in undoStacks && p in redoStacks
    {
      Seat(undoStacks[p], redoStacks[p], p.rack[..], p.score)
    }

    /** A new game: an empty board and the given dictionary, a full bag, no players yet. */
    constructor (dictionary: set<string>, table: Tiles.TileTable, blank: Tiles.Tile)
      requires table.Valid() && blank.isBlank
      ensures Valid() && BagShared() && fresh(board) && fresh(tileBag)
      ensures board.cells == EmptyGrid() && board.dictionary == dictionary
      ensures TileBags.Total(tileBag.entries) == 102
      ensures players == [] && currentPlayerIndex == 0 && currentPlayer == null
      ensures undoStacks == map[] && redoStacks == map[] && observers == []
    {
      board := new Boards.Board(dictionary);
      players := [];
      currentPlayerIndex := 0;
      tileBag := new TileBags.TileBag(table, blank);
      currentPlayer := null;
      undoStacks := map[];
      redoStacks := map[];
      observers := [];
    }

    /** pickFromBag, with Random.nextInt's draw left open: any number below the bag's size. */
    method Draw() returns (picked: Tiles.Tile?)
      requires tileBag.Valid()
      modifies tileBag
      ensures tileBag.Valid()
      ensures TileBags.Total(tileBag.entries) == old(TileBags.Total(tileBag.entries)) - (if picked != null then 1 else 0)
      ensures old(tileBag.entries) == [] ==> picked == null && tileBag.entries == []
      ensures TileBags.NoNullKey(old(tileBag.entries)) ==>
                TileBags.NoNullKey(tileBag.entries) && (old(tileBag.entries) != [] ==> picked != null)
      ensures old(BagShared()) ==>
                BagShared() && TileBags.Contents(tileBag.entries) + TileBags.One(picked) == old(TileBags.Contents(tileBag.entries))
    {
      var r := 0;
      if tileBag.entries != [] {
        TileBags.TotalAtLeastEntries(tileBag.entries);
        r :| 0 <= r < TileBags.Total(tileBag.entries);
      }
      picked := tileBag.PickFromBag(r);
    }

    /**
     * addPlayer: a new player with seven draws offered to the rack, an undo stack holding
     * only the snapshot of the fresh rack and score, and an empty redo stack. Every drawn
     * tile lands in the rack.
     */
    method AddPlayer(name: string) returns (newPlayer: Players.Player)
      requires Valid()
      modifies this, tileBag
      ensures Valid() && board == old(board) && tileBag == old(tileBag)
      ensures currentPlayerIndex == old(currentPlayerIndex) && currentPlayer == old(currentPlayer)
      ensures fresh(newPlayer) && fresh(newPlayer.rack) && newPlayer.name == name
      ensures players == old(players) + [newPlayer] && observers == old(observers)
      ensures newPlayer.score == 0 && newPlayer.passCounter == 0 && newPlayer.rack.Length == Players.HandSize
      ensures undoStacks == old(undoStacks)[newPlayer := [Initial(newPlayer.rack[..], 0)]]
      ensures redoStacks == old(redoStacks)[newPlayer := []]
      ensures |Players.Held(newPlayer.rack[..])| + TileBags.Total(tileBag.entries) == old(TileBags.Total(tileBag.entries))
      ensures old(BagShared()) ==>
                BagShared() && Players.Held(newPlayer.rack[..]) + TileBags.Contents(tileBag.entries)
                               == old(TileBags.Contents(tileBag.entries))
    {
      newPlayer := new Players.Player(name);
      players := players + [newPlayer];
      DealHand(newPlayer);
      undoStacks := undoStacks[newPlayer := [Initial(newPlayer.rack[..], newPlayer.score)]];
      redoStacks := redoStacks[newPlayer := []];
    }

    /**
     * addAIPlayer: as addPlayer, but the new player is a computer player, named with the
     * " [AI]" suffix, and it is registered as a board observer.
     */
    method AddAIPlayer(name: string) returns (newAI: MoveSearch.AI)
      requires Valid()
      modifies this, tileBag
      ensures Valid() && board == old(board) && tileBag == old(tileBag)
      ensures currentPlayerIndex == old(currentPlayerIndex) && currentPlayer == old(currentPlayer)
      ensures fresh(newAI) && fresh(newAI.player) && fresh(newAI.player.rack) && newAI.player.name == name + " [AI]"
      ensures players == old(players) + [newAI.player] && observers == old(observers) + [newAI]
      ensures newAI.Valid() && newAI.anchors == {} && newAI.mirror == map[]
      ensures newAI.player.score == 0 && newAI.player.passCounter == 0 && newAI.player.rack.Length == Players.HandSize
      ensures undoStacks == old(undoStacks)[newAI.player := [Initial(newAI.player.rack[..], 0)]]
      ensures redoStacks == old(redoStacks)[newAI.player := []]
      ensures |Players.Held(newAI.player.rack[..])| + TileBags.Total(tileBag.entries) == old(TileBags.Total(tileBag.entries))
      ensures old(BagShared()) ==>
                BagShared() && Players.Held(newAI.player.rack[..]) + TileBags.Contents(tileBag.entries)
                               == old(TileBags.Contents(tileBag.entries))
    {
      newAI := new MoveSearch.AI(name);
      var p := newAI.player;
      players := players + [p];
      observers := observers + [newAI];
      DealHand(p);
      undoStacks := undoStacks[p := [Initial(p.rack[..], p.score)]];
      redoStacks := redoStacks[p := []];
    }

    /** The loop of addPlayer: each of the seven slots of an empty rack is offered a draw. */
    method DealHand(p: Players.Player)
      requires tileBag.Valid() && p.rack.Length == Players.HandSize
      requires forall j :: 0 <= j < p.rack.Length ==> p.rack[j] == null
      modifies tileBag, p.rack
      ensures tileBag.Valid()
      ensures |Players.Held(p.rack[..])| + TileBags.Total(tileBag.entries) == old(TileBags.Total(tileBag.entries))
      ensures old(BagShared()) ==>
                BagShared() && Players.Held(p.rack[..]) + TileBags.Contents(tileBag.entries)
                               == old(TileBags.Contents(tileBag.entries))
    {
      HeldOfEmptySlots(p.rack[..]);
      ghost var total := TileBags.Total(tileBag.entries);
      ghost var contents := TileBags.Contents(tileBag.entries);
      ghost var shared := BagShared();
      for i := 0 to Players.HandSize
        invariant tileBag.Valid()
        invariant forall j :: i <= j < Players.HandSize ==> p.rack[j] == null
        invariant |Players.Held(p.rack[..])| + TileBags.Total(tileBag.entries) == total
        invariant shared ==> BagShared() && Players.Held(p.rack[..]) + TileBags.Contents(tileBag.entries) == contents
      {
        ghost var r := p.rack[..];
        assert r[i] == null;
        var tile := OfferDraw(p);
        assert Players.FirstNull(r) <= i;
      }
    }

    /** One round of addPlayer's loop: a draw offered to the first empty slot of the rack. */
    method OfferDraw(p: Players.Player) returns (tile: Tiles.Tile?)
      requires tileBag.Valid() && Players.FirstNull(p.rack[..]) < p.rack.Length
      modifies tileBag, p.rack
      ensures tileBag.Valid()
      ensures p.rack[..] == old(p.rack[..])[Players.FirstNull(old(p.rack[..])) := tile]
      ensures |Players.Held(p.rack[..])| + TileBags.Total(tileBag.entries)
           == old(|Players.Held(p.rack[..])| + TileBags.Total(tileBag.entries))
      ensures old(BagShared()) ==>
                BagShared() && Players.Held(p.rack[..]) + TileBags.Contents(tileBag.entries)
                               == old(Players.Held(p.rack[..]) + TileBags.Contents(tileBag.entries))
    {
      ghost var r := p.rack[..];
      tile := Draw();
      var added := p.SetAvailableTile(tile);
      HeldGrows(r, Players.FirstNull(r), tile);
    }

    /** game: the computer player's view is reset to the shared dictionary, and the first player moves. */
    method StartGame(ai: MoveSearch.AI)
      requires |players| > 0
      modifies this, ai
      ensures Playing() && currentPlayerIndex == 0
      ensures ai.Valid() && ai.anchors == {(Centre, Centre)} && ai.mirror == map[] && ai.dictionary == board.dictionary
      ensures players == old(players) && board == old(board) && tileBag == old(tileBag)
      ensures undoStacks == old(undoStacks) && redoStacks == old(redoStacks)
    {
      ai.SetUp(board.dictionary);
      currentPlayerIndex := 0;
      currentPlayer := players[currentPlayerIndex];
    }

    /** getNextPlayer: the player after the current one, the first after the last. */
    function GetNextPlayer(): Players.Player
      reads this
      requires 0 <= currentPlayerIndex < |players|
    {
      players[NextIndex(currentPlayerIndex, |players|)]
    }

    /** advanceTurn: the next index, wrapping to 0, becomes the current player. */
    method AdvanceTurn()
      requires 0 <= currentPlayerIndex < |players|
      modifies this
      ensures players == old(players) && board == old(board) && tileBag == old(tileBag)
      ensures Playing() && currentPlayerIndex == NextIndex(old(currentPlayerIndex), |players|)
      ensures currentPlayer == old(GetNextPlayer())
      ensures undoStacks == old(undoStacks) && redoStacks == old(redoStacks)
    {
      currentPlayerIndex := (currentPlayerIndex + 1) % |players|;
      currentPlayer := players[currentPlayerIndex];
    }

    /**
     * passTurn: the current player's pass counter goes up; the game stops when every
     * player has passed at least twice, and otherwise the turn moves on.
     */
    method PassTurn() returns (everyonePassed: bool)
      requires Playing()
      modifies this, currentPlayer
      ensures old(currentPlayer).passCounter == old(currentPlayer.passCounter) + 1
      ensures old(currentPlayer).score == old(currentPlayer.score) && old(currentPlayer).rack == old(currentPlayer.rack)
      ensures players == old(players) && board == old(board) && tileBag == old(tileBag)
      ensures everyonePassed <==> forall i :: 0 <= i < |players| ==> players[i].passCounter >= 2
      ensures Playing()
      ensures currentPlayerIndex == if everyonePassed then old(currentPlayerIndex)
                                    else NextIndex(old(currentPlayerIndex), |players|)
      ensures undoStacks == old(undoStacks) && redoStacks == old(redoStacks)
    {
      currentPlayer.AddToPassCounter();
      var allPassed := 0;
      for i := 0 to |players|
        invariant allPassed == Passed(players[..i])
      {
        assert players[..i + 1][..i] == players[..i];
        if players[i].GetPassCounter() >= 2 {
          allPassed := allPassed + 1;
        }
      }
      assert players[..|players|] == players;
      PassedCountsAll(players);
      if allPassed == |players| {
        return true;
      }
      AdvanceTurn();
      return false;
    }

    /**
     * refillRack: each empty slot, in order, is offered one draw, and takes it when the
     * bag yields a tile. Tiles move from the bag to the rack and none is lost; the rack
     * ends full unless the bag ran out.
     */
    method RefillRack(player: Players.Player)
      requires tileBag.Valid()
      modifies player.rack, tileBag
      ensures tileBag.Valid()
      ensures forall i :: 0 <= i < player.rack.Length ==>
                player.rack[i] == old(player.rack[i]) || (old(player.rack[i]) == null && player.rack[i] != null)
      ensures |Players.Held(player.rack[..])| + TileBags.Total(tileBag.entries)
           == old(|Players.Held(player.rack[..])| + TileBags.Total(tileBag.entries))
      ensures TileBags.NoNullKey(old(tileBag.entries)) ==>
                tileBag.entries == [] || forall i :: 0 <= i < player.rack.Length ==> player.rack[i] != null
      ensures old(BagShared()) ==>
                BagShared() && Players.Held(player.rack[..]) + TileBags.Contents(tileBag.entries)
                               == old(Players.Held(player.rack[..]) + TileBags.Contents(tileBag.entries))
    {
      var hand := player.rack;
      ghost var total := |Players.Held(hand[..])| + TileBags.Total(tileBag.entries);
      ghost var contents := Players.Held(hand[..]) + TileBags.Contents(tileBag.entries);
      ghost var shared := BagShared();
      ghost var noNull := TileBags.NoNullKey(tileBag.entries);
      for i := 0 to hand.Length
        invariant tileBag.Valid()
        invariant forall j :: 0 <= j < hand.Length ==>
                    hand[j] == old(hand[j]) || (old(hand[j]) == null && hand[j] != null)
        invariant |Players.Held(hand[..])| + TileBags.Total(tileBag.entries) == total
        invariant shared ==> BagShared() && Players.Held(hand[..]) + TileBags.Contents(tileBag.entries) == contents
        invariant noNull ==> TileBags.NoNullKey(tileBag.entries)
                             && (tileBag.entries == [] || forall j :: 0 <= j < i ==> hand[j] != null)
      {
        RefillSlot(player, i);
      }
    }

    /** One slot of refillRack: an empty slot takes a draw when the bag yields a tile. */
    method RefillSlot(player: Players.Player, i: nat)
      requires tileBag.Valid() && i < player.rack.Length
      modifies player.rack, tileBag
      ensures tileBag.Valid()
      ensures forall j :: 0 <= j < player.rack.Length && j != i ==> player.rack[j] == old(player.rack[j])
      ensures player.rack[i] == old(player.rack[i]) || (old(player.rack[i]) == null && player.rack[i] != null)
      ensures |Players.Held(player.rack[..])| + TileBags.Total(tileBag.entries)
           == old(|Players.Held(player.rack[..])| + TileBags.Total(tileBag.entries))
      ensures old(tileBag.entries) == [] ==> tileBag.entries == []
      ensures old(BagShared()) ==>
                BagShared() && Players.Held(player.rack[..]) + TileBags.Contents(tileBag.entries)
                               == old(Players.Held(player.rack[..]) + TileBags.Contents(tileBag.entries))
      ensures TileBags.NoNullKey(old(tileBag.entries)) ==>
                TileBags.NoNullKey(tileBag.entries) && (tileBag.entries == [] || player.rack[i] != null)
    {
      ghost var r := player.rack[..];
      ghost var c := TileBags.Contents(tileBag.entries);
      if player.rack[i] == null {
        var newTile := Draw();
        if newTile != null {
          player.SetAvailableTileAt(i, newTile);
          HeldGrows(r, i, newTile);
          if old(BagShared()) {
            MovedIntoRack(Players.Held(r), Players.Held(player.rack[..]), c, TileBags.Contents(tileBag.entries), newTile);
          }
        }
      }
    }

    /** restoreMoveState: the move's tiles' squares are blanked, and its rack and score come back. */
    method RestoreMoveState(player: Players.Player, state: MoveState)
      requires board.Valid() && Fits(state)
      modifies board, board.grid, player
      ensures board.Valid() && board.grid == old(board.grid)
      ensures board.lmults == old(board.lmults) && board.wmults == old(board.wmults)
      ensures board.letterMult == old(board.letterMult) && board.wordMult == old(board.wordMult)
      ensures board.recorded == old(board.recorded) && board.dictionary == old(board.dictionary)
      ensures board.cells == Stamped(old(board.cells), state.rows, state.cols, Blanks(state.tiles), |state.tiles|)
      ensures fresh(player.rack) && player.rack[..] == state.rackSnapshot
      ensures player.score == state.scoreSnapshot && player.passCounter == old(player.passCounter)
    {
      var tiles, rows, cols := state.tiles, state.rows, state.cols;
      for i := 0 to |tiles|
        invariant board.Valid() && board.grid == old(board.grid)
        invariant board.lmults == old(board.lmults) && board.wmults == old(board.wmults)
        invariant board.letterMult == old(board.letterMult) && board.wordMult == old(board.wordMult)
        invariant board.recorded == old(board.recorded) && board.dictionary == old(board.dictionary)
        invariant board.cells == Stamped(old(board.cells), rows, cols, Blanks(tiles), i)
        invariant player.score == old(player.score) && player.rack == old(player.rack)
        invariant player.passCounter == old(player.passCounter)
      {
        if tiles[i] != null {
          board.SetLetterAt(rows[i], cols[i], ' ');
        }
      }
      var copy := CopyRack(state.rackSnapshot);
      player.SetAvailableTiles(copy);
      player.SetScore(state.scoreSnapshot);
    }

    /** undo, as `Undone` states it: false and no change when only the initial snapshot is left. */
    method Undo(player: Players.Player) returns (done: bool)
      requires Valid() && player in undoStacks && player in redoStacks
      requires undoStacks[player] != [] ==> Fits(undoStacks[player][|undoStacks[player]| - 1])
      modifies this, board, board.grid, player
      ensures player in undoStacks && player in redoStacks
      ensures undoStacks == old(undoStacks)[player := undoStacks[player]]
      ensures redoStacks == old(redoStacks)[player := redoStacks[player]]
      ensures Valid()
      ensures var u := Undone(old(board.cells), old(SeatOf(player)));
              && done == u.Some?
              && (done ==> board.cells == u.value.0 && SeatOf(player) == u.value.1)
              && (!done ==> board.cells == old(board.cells) && SeatOf(player) == old(SeatOf(player)))
      ensures player.passCounter == old(player.passCounter)
      ensures players == old(players) && board == old(board) && tileBag == old(tileBag)
      ensures currentPlayerIndex == old(currentPlayerIndex) && currentPlayer == old(currentPlayer)
      ensures board.grid == old(board.grid) && board.lmults == old(board.lmults) && board.wmults == old(board.wmults)
      ensures board.letterMult == old(board.letterMult) && board.wordMult == old(board.wordMult)
      ensures board.recorded == old(board.recorded) && board.dictionary == old(board.dictionary)
    {
      var undo := undoStacks[player];
      var redo := redoStacks[player];
      if |undo| <= 1 {
        return false;
      }
      var lastMove := undo[|undo| - 1];
      undoStacks := undoStacks[player := undo[..|undo| - 1]];
      redoStacks := redoStacks[player := redo + [MoveState(lastMove.rows, lastMove.cols, lastMove.tiles,
                                                           player.rack[..], player.score)]];
      RestoreMoveState(player, lastMove);
      return true;
    }

    /** redo, as `Redone` states it: false when there is nothing to redo. */
    method Redo(player: Players.Player) returns (done: bool)
      requires Valid() && player in undoStacks && player in redoStacks
      requires redoStacks[player] != [] ==> Fits(redoStacks[player][|redoStacks[player]| - 1])
      modifies this, board, board.grid, player
      ensures player in undoStacks && player in redoStacks
      ensures undoStacks == old(undoStacks)[player := undoStacks[player]]
      ensures redoStacks == old(redoStacks)[player := redoStacks[player]]
      ensures Valid()
      ensures var u := Redone(old(board.cells), old(SeatOf(player)));
              && done == u.Some?
              && (done ==> board.cells == u.value.0 && SeatOf(player) == u.value.1)
              && (!done ==> board.cells == old(board.cells) && SeatOf(player) == old(SeatOf(player)))
      ensures player.passCounter == old(player.passCounter)
      ensures players == old(players) && board == old(board) && tileBag == old(tileBag)
      ensures currentPlayerIndex == old(currentPlayerIndex) && currentPlayer == old(currentPlayer)
      ensures board.grid == old(board.grid) && board.lmults == old(board.lmults) && board.wmults == old(board.wmults)
      ensures board.letterMult == old(board.letterMult) && board.wordMult == old(board.wordMult)
      ensures board.recorded == old(board.recorded) && board.dictionary == old(board.dictionary)
    {
      var undo := undoStacks[player];
      var redo := redoStacks[player];
      if redo == [] {
        return false;
      }
      var move := redo[|redo| - 1];
      redoStacks := redoStacks[player := redo[..|redo| - 1]];
      undoStacks := undoStacks[player := undo + [MoveState(move.rows, move.cols, move.tiles,
                                                           player.rack[..], player.score)]];
      ReplayMoveState(player, move);
      return true;
    }

    /** The rest of redo: the move's tiles' letters are written back, and its rack and score come back. */
    method ReplayMoveState(player: Players.Player, state: MoveState)
      requires board.Valid() && Fits(state)
      modifies board, board.grid, player
      ensures board.Valid() && board.grid == old(board.grid)
      ensures board.lmults == old(board.lmults) && board.wmults == old(board.wmults)
      ensures board.letterMult == old(board.letterMult) && board.wordMult == old(board.wordMult)
      ensures board.recorded == old(board.recorded) && board.dictionary == old(board.dictionary)
      ensures board.cells == Stamped(old(board.cells), state.rows, state.cols, Tiles.EffectiveLetters(state.tiles), |state.tiles|)
      ensures fresh(player.rack) && player.rack[..] == state.rackSnapshot
      ensures player.score == state.scoreSnapshot && player.passCounter == old(player.passCounter)
    {
      WriteLetters(board, state.rows, state.cols, state.tiles);
      var copy := CopyRack(state.rackSnapshot);
      player.SetAvailableTiles(copy);
      player.SetScore(state.scoreSnapshot);
    }

    /**
     * The part of loadGame that rebuilds the computer player's shared view: the mirror
     * gets every letter on the board, and every empty square next to a letter becomes
     * an anchor.
     */
    method RebuildAI(ai: MoveSearch.AI)
      requires board.Valid()
      modifies ai
      ensures ai.mirror == MirrorUpTo(board.cells, Size, 0)
      ensures ai.anchors == AnchorsUpTo(board.cells, Size, 0)
      ensures ai.dictionary == old(ai.dictionary) && ai.Valid()
    {
      ai.anchors := {};
      ai.mirror := map[];
      for r := 0 to Size
        invariant ai.mirror == MirrorUpTo(board.cells, r, 0) && ai.anchors == AnchorsUpTo(board.cells, r, 0)
        invariant ai.dictionary == old(ai.dictionary)
      {
        RebuildRow(ai, r);
      }
      RebuiltAnchorsFree(board.cells);
    }

    /** One row of the rebuild, square by square. */
    method RebuildRow(ai: MoveSearch.AI, r: nat)
      requires board.Valid() && r < Size
      requires ai.mirror == MirrorUpTo(board.cells, r, 0) && ai.anchors == AnchorsUpTo(board.cells, r, 0)
      modifies ai
      ensures ai.mirror == MirrorUpTo(board.cells, r + 1, 0)
      ensures ai.anchors == AnchorsUpTo(board.cells, r + 1, 0)
      ensures ai.dictionary == old(ai.dictionary)
    {
      for c := 0 to Size
        invariant ai.mirror == MirrorUpTo(board.cells, r, c) && ai.anchors == AnchorsUpTo(board.cells, r, c)
        invariant ai.dictionary == old(ai.dictionary)
      {
        RebuildSquare(ai, r, c);
      }
    }

    /** One square of the rebuild: a letter enters the mirror and its empty on-board neighbours become anchors. */
    method RebuildSquare(ai: MoveSearch.AI, r: nat, c: nat)
      requires board.Valid() && InBounds(r, c)
      requires ai.mirror == MirrorUpTo(board.cells, r, c)
      requires ai.anchors == AnchorsUpTo(board.cells, r, c)
      modifies ai
      ensures ai.mirror == MirrorUpTo(board.cells, r, c + 1)
      ensures ai.anchors == AnchorsUpTo(board.cells, r, c + 1)
      ensures ai.dictionary == old(ai.dictionary)
    {
      var letter := board.GetLetterAt(r, c);
      if letter != ' ' {
        ai.mirror := ai.mirror[(r, c) := letter];
        AddAnchors(ai, r, c);
      }
    }

    /** The inner loop of loadGame's rebuild: each empty on-board neighbour of (r, c) becomes an anchor. */
    method AddAnchors(ai: MoveSearch.AI, r: int, c: int)
      requires board.Valid()
      modifies ai
      ensures ai.anchors == old(ai.anchors) + EmptyNeighbours(board.cells, (r, c), |MoveSearch.Directions|)
      ensures ai.mirror == old(ai.mirror) && ai.dictionary == old(ai.dictionary)
    {
      for d := 0 to |MoveSearch.Directions|
        invariant ai.anchors == old(ai.anchors) + EmptyNeighbours(board.cells, (r, c), d)
        invariant ai.mirror == old(ai.mirror) && ai.dictionary == old(ai.dictionary)
      {
        var x := r + MoveSearch.Directions[d].0;
        var y := c + MoveSearch.Directions[d].1;
        if x >= 0 && x < Size && y >= 0 && y < Size && board.GetLetterAt(x, y) == ' ' {
          ai.anchors := ai.anchors + {(x, y)};
        }
      }
    }
  }

  // ---------------------------------------------------------------------
  // Properties

  lemma {:induction false} StampedAt(g: Grid, rows: seq<int>, cols: seq<int>, marks: seq<Option<char>>, n: nat, r: int, c: int)
    requires IsGrid(g) && n <= |marks| && |marks| <= |rows| && |marks| <= |cols| && InBounds(r, c)
    ensures Stamped(g, rows, cols, marks, n)[r][c]
         == match LastMark(rows, cols, marks, n, r, c) case Some(ch) => ch case None => g[r][c]
  {
    if n > 0 {
      StampedAt(g, rows, cols, marks, n - 1, r, c);
    }
  }

  /** Marks with Some in the same places stamp the same squares. */
  lemma {:induction false} SamePattern(rows: seq<int>, cols: seq<int>, m1: seq<Option<char>>, m2: seq<Option<char>>,
                                       n: nat, r: int, c: int)
    requires n <= |m1| == |m2| && |m1| <= |rows| && |m1| <= |cols|
    requires forall i :: 0 <= i < n ==> m1[i].Some? == m2[i].Some?
    ensures LastMark(rows, cols, m1, n, r, c).None? == LastMark(rows, cols, m2, n, r, c).None?
  {
    if n > 0 {
      SamePattern(rows, cols, m1, m2, n - 1, r, c);
    }
  }

  lemma GridsEqual(g1: Grid, g2: Grid)
    requires IsGrid(g1) && IsGrid(g2)
    requires forall r, c :: InBounds(r, c) ==> g1[r][c] == g2[r][c]
    ensures g1 == g2
  {
    forall r | 0 <= r < Size
      ensures g1[r] == g2[r]
    {
      assert forall c :: 0 <= c < Size ==> g1[r][c] == g2[r][c] by {
        forall c | 0 <= c < Size ensures g1[r][c] == g2[r][c] {
          assert InBounds(r, c);
        }
      }
    }
  }

  /** Stamping over a stamp with Some in the same places gives what the second stamp alone gives. */
  lemma Restamp(g: Grid, g1: Grid, rows: seq<int>, cols: seq<int>, m1: seq<Option<char>>, m2: seq<Option<char>>)
    requires IsGrid(g) && |m1| == |m2| && |m1| <= |rows| && |m1| <= |cols|
    requires forall i :: 0 <= i < |m1| ==> m1[i].Some? == m2[i].Some?
    requires g1 == Stamped(g, rows, cols, m1, |m1|)
    ensures Stamped(g1, rows, cols, m2, |m2|) == Stamped(g, rows, cols, m2, |m2|)
  {
    forall r, c | InBounds(r, c)
      ensures Stamped(g1, rows, cols, m2, |m2|)[r][c] == Stamped(g, rows, cols, m2, |m2|)[r][c]
    {
      RestampAt(g, g1, rows, cols, m1, m2, r, c);
    }
    GridsEqual(Stamped(g1, rows, cols, m2, |m2|), Stamped(g, rows, cols, m2, |m2|));
  }

  lemma RestampAt(g: Grid, g1: Grid, rows: seq<int>, cols: seq<int>, m1: seq<Option<char>>, m2: seq<Option<char>>,
                  r: int, c: int)
    requires IsGrid(g) && |m1| == |m2| && |m1| <= |rows| && |m1| <= |cols| && InBounds(r, c)
    requires forall i :: 0 <= i < |m1| ==> m1[i].Some? == m2[i].Some?
    requires g1 == Stamped(g, rows, cols, m1, |m1|)
    ensures Stamped(g1, rows, cols, m2, |m2|)[r][c] == Stamped(g, rows, cols, m2, |m2|)[r][c]
  {
    StampedAt(g1, rows, cols, m2, |m2|, r, c);
    StampedAt(g, rows, cols, m2, |m2|, r, c);
    if LastMark(rows, cols, m2, |m2|, r, c).None? {
      SamePattern(rows, cols, m1, m2, |m1|, r, c);
      StampedAt(g, rows, cols, m1, |m1|, r, c);
    }
  }

  /**
   * An undo followed by a redo restores the board, both stacks, the rack and the score
   * exactly, when the board still shows the move's letters.
   */
  lemma UndoThenRedo(g: Grid, s: Seat, g': Grid, s': Seat)
    requires IsGrid(g) && |s.undo| > 1 && Fits(s.undo[|s.undo| - 1])
    requires var m := s.undo[|s.undo| - 1];
             g == Stamped(g, m.rows, m.cols, Tiles.EffectiveLetters(m.tiles), |m.tiles|)
    requires Undone(g, s) == Some((g', s'))
    ensures IsGrid(g') && Fits(s'.redo[|s'.redo| - 1])
    ensures Redone(g', s') == Some((g, s))
  {
    var m := s.undo[|s.undo| - 1];
    PopUndoThenRedo(s);
    assert g' == Stamped(g, m.rows, m.cols, Blanks(m.tiles), |m.tiles|);
    assert Stamped(g', m.rows, m.cols, Tiles.EffectiveLetters(m.tiles), |m.tiles|) == g by {
      Restamp(g, g', m.rows, m.cols, Blanks(m.tiles), Tiles.EffectiveLetters(m.tiles));
    }
  }

  /**
   * A redo followed by an undo restores the board, both stacks, the rack and the score
   * exactly, when the move's squares were blank.
   */
  lemma RedoThenUndo(g: Grid, s: Seat, g': Grid, s': Seat)
    requires IsGrid(g) && s.redo != [] && s.undo != [] && Fits(s.redo[|s.redo| - 1])
    requires var m := s.redo[|s.redo| - 1];
             g == Stamped(g, m.rows, m.cols, Blanks(m.tiles), |m.tiles|)
    requires Redone(g, s) == Some((g', s'))
    ensures IsGrid(g') && Fits(s'.undo[|s'.undo| - 1])
    ensures Undone(g', s') == Some((g, s))
  {
    var m := s.redo[|s.redo| - 1];
    PopRedoThenUndo(s);
    assert g' == Stamped(g, m.rows, m.cols, Tiles.EffectiveLetters(m.tiles), |m.tiles|);
    assert Stamped(g', m.rows, m.cols, Blanks(m.tiles), |m.tiles|) == g by {
      Restamp(g, g', m.rows, m.cols, Tiles.EffectiveLetters(m.tiles), Blanks(m.tiles));
    }
  }

  /** Popping a move onto redo and back restores the stacks, the rack and the score. */
  lemma PopUndoThenRedo(s: Seat)
    requires s.undo != []
    ensures PopUndo(s).redo != [] && PopUndo(s).redo[|PopUndo(s).redo| - 1].tiles == s.undo[|s.undo| - 1].tiles
    ensures PopRedo(PopUndo(s)) == s
  {
    var m := s.undo[|s.undo| - 1];
    assert s.undo == s.undo[..|s.undo| - 1] + [m];
    assert (s.redo + [MoveState(m.rows, m.cols, m.tiles, s.rack, s.score)])[..|s.redo|] == s.redo;
  }

  /** Popping a move onto undo and back restores the stacks, the rack and the score. */
  lemma PopRedoThenUndo(s: Seat)
    requires s.redo != []
    ensures |PopRedo(s).undo| == |s.undo| + 1 && PopRedo(s).undo[|s.undo|].tiles == s.redo[|s.redo| - 1].tiles
    ensures PopUndo(PopRedo(s)) == s
  {
    var m := s.redo[|s.redo| - 1];
    assert s.redo == s.redo[..|s.redo| - 1] + [m];
    assert (s.undo + [MoveState(m.rows, m.cols, m.tiles, s.rack, s.score)])[..|s.undo|] == s.undo;
  }

  /** A new player cannot undo: the initial snapshot is never popped. */
  lemma {:induction false} FreshSeatCannotUndo(g: Grid, rack: seq<Tiles.Tile?>, redo: seq<MoveState>)
    requires IsGrid(g)
    ensures Undone(g, Seat([Initial(rack, 0)], redo, rack, 0)) == None
  {
  }

  /** Turns compose: a + b turns are a turns followed by b turns. */
  lemma {:induction false} AfterTurnsAdd(i: int, n: int, a: nat, b: nat)
    requires 0 <= i < n
    ensures AfterTurns(i, n, a + b) == AfterTurns(AfterTurns(i, n, a), n, b)
  {
    if b > 0 {
      AfterTurnsAdd(i, n, a, b - 1);
    }
  }

  /** Before the wrap, each turn moves to the next index. */
  lemma {:induction false} AfterTurnsClimb(i: int, n: int, k: nat)
    requires 0 <= i && i + k < n
    ensures AfterTurns(i, n, k) == i + k
  {
    if k > 0 {
      AfterTurnsClimb(i, n, k - 1);
    }
  }

  /** n turns bring the turn back to the same player, and every player's turn comes within n turns. */
  lemma EveryPlayersTurnComes(i: int, n: int, j: int)
    requires 0 <= i < n && 0 <= j < n
    ensures AfterTurns(i, n, n) == i
    ensures exists k :: 0 <= k < n && AfterTurns(i, n, k) == j
  {
    var w := n - i;
    AfterTurnsClimb(i, n, w - 1);
    assert AfterTurns(i, n, w) == 0;
    AfterTurnsAdd(i, n, w, i);
    AfterTurnsClimb(0, n, i);
    if j >= i {
      AfterTurnsClimb(i, n, j - i);
    } else {
      AfterTurnsAdd(i, n, w, j);
      AfterTurnsClimb(0, n, j);
      assert AfterTurns(i, n, w + j) == j;
    }
  }

  /** The pass count reaches the number of players exactly when every player has passed at least twice. */
  lemma {:induction false} PassedCountsAll(ps: seq<Players.Player>)
    ensures Passed(ps) <= |ps|
    ensures Passed(ps) == |ps| <==> forall i :: 0 <= i < |ps| ==> ps[i].passCounter >= 2
  {
    if ps != [] {
      var front := ps[..|ps| - 1];
      PassedCountsAll(front);
      if Passed(ps) == |ps| {
        forall i | 0 <= i < |ps| ensures ps[i].passCounter >= 2 {
          if i < |ps| - 1 {
            assert ps[i] == front[i];
          }
        }
      }
      if forall i :: 0 <= i < |ps| ==> ps[i].passCounter >= 2 {
        assert forall i :: 0 <= i < |front| ==> front[i].passCounter >= 2 by {
          forall i | 0 <= i < |front| ensures front[i].passCounter >= 2 {
            assert front[i] == ps[i];
          }
        }
      }
    }
  }

  /** The rebuilt mirror holds exactly the board's letters scanned so far, each at its square. */
  lemma {:induction false} MirrorUpToHolds(g: Grid, r: nat, c: nat, p: MoveSearch.Pos)
    requires IsGrid(g) && Stop(r, c)
    ensures p in MirrorUpTo(g, r, c) <==> OnGrid(p) && Before(p, r, c) && g[p.0][p.1] != ' '
    ensures p in MirrorUpTo(g, r, c) ==> MirrorUpTo(g, r, c)[p] == g[p.0][p.1]
    decreases r, c
  {
    if c == 0 && r > 0 {
      MirrorUpToHolds(g, r - 1, Size, p);
    } else if c > 0 {
      MirrorUpToHolds(g, r, c - 1, p);
    }
  }

  lemma {:induction false} HeldOfEmptySlots(r: seq<Tiles.Tile?>)
    requires forall i :: 0 <= i < |r| ==> r[i] == null
    ensures Players.Held(r) == multiset{}
  {
    if r != [] {
      HeldOfEmptySlots(r[..|r| - 1]);
    }
  }

  /** A tile that leaves the bag and joins the rack leaves the two together unchanged. */
  lemma MovedIntoRack(held: multiset<Tiles.Tile>, held': multiset<Tiles.Tile>,
                      bag: multiset<Tiles.Tile>, bag': multiset<Tiles.Tile>, t: Tiles.Tile)
    requires held' == held + multiset{t} && bag' + multiset{t} == bag
    ensures held' + bag' == held + bag
  {
  }

  /** Filling an empty slot adds its tile, if any, to the rack's tiles. */
  lemma HeldGrows(r: seq<Tiles.Tile?>, k: nat, x: Tiles.Tile?)
    requires k < |r| && r[k] == null
    ensures |Players.Held(r[k := x])| == |Players.Held(r)| + (if x == null then 0 else 1)
    ensures Players.Held(r[k := x]) == Players.Held(r) + TileBags.One(x)
  {
    Players.HeldUpdate(r, k, x);
    assert Players.Held(r[k := x]) + multiset{} == Players.Held(r[k := x]);
    if x != null {
      assert |Players.Held(r) + multiset{x}| == |Players.Held(r)| + 1;
    } else {
      assert Players.Held(r) + multiset{} == Players.Held(r);
    }
  }

  /** A letter in one of the four directions of p, on a square the scan has passed before (r, c). */
  predicate LetterBeside(g: Grid, p: MoveSearch.Pos, r: int, c: int)
    requires IsGrid(g)
  {
    exists d :: 0 <= d < |MoveSearch.Directions| && OnGrid(MoveSearch.Neighbour(p, d))
      && g[MoveSearch.Neighbour(p, d).0][MoveSearch.Neighbour(p, d).1] != ' ' && Before(MoveSearch.Neighbour(p, d), r, c)
  }

  /** The direction that leads back: [(-1,0),(1,0),(0,-1),(0,1)] pairs 0 with 1 and 2 with 3. */
  function Opposite(d: nat): (e: nat)
    requires d < |MoveSearch.Directions|
    ensures e < |MoveSearch.Directions|
    ensures forall p :: MoveSearch.Neighbour(MoveSearch.Neighbour(p, d), e) == p
  {
    if d % 2 == 0 then d + 1 else d - 1
  }

  /** The squares EmptyNeighbours collects are exactly the empty on-board squares in the first d directions. */
  lemma {:induction false} EmptyNeighboursHolds(g: Grid, q: MoveSearch.Pos, d: nat, p: MoveSearch.Pos)
    requires IsGrid(g) && d <= |MoveSearch.Directions|
    ensures p in EmptyNeighbours(g, q, d) <==>
              OnGrid(p) && g[p.0][p.1] == ' ' && exists e :: 0 <= e < d && p == MoveSearch.Neighbour(q, e)
  {
    if d > 0 {
      EmptyNeighboursHolds(g, q, d - 1, p);
      if exists e :: 0 <= e < d && p == MoveSearch.Neighbour(q, e) {
        var e :| 0 <= e < d && p == MoveSearch.Neighbour(q, e);
        if e < d - 1 {
          assert exists e' :: 0 <= e' < d - 1 && p == MoveSearch.Neighbour(q, e');
        }
      }
    }
  }

  /** When the scan reaches (r, c), the anchors are the empty squares with a scanned letter beside them. */
  lemma {:induction false} AnchorsUpToHolds(g: Grid, r: nat, c: nat, p: MoveSearch.Pos)
    requires IsGrid(g) && Stop(r, c)
    ensures p in AnchorsUpTo(g, r, c) <==> OnGrid(p) && g[p.0][p.1] == ' ' && LetterBeside(g, p, r, c)
    decreases r, c
  {
    if c == 0 && r > 0 {
      AnchorsUpToHolds(g, r - 1, Size, p);
    } else if c > 0 {
      AnchorsUpToHolds(g, r, c - 1, p);
      AnchorsStep(g, r, c, p);
    }
  }

  /** One square further: the square just scanned makes anchors of exactly its empty neighbours. */
  lemma AnchorsStep(g: Grid, r: nat, c: nat, p: MoveSearch.Pos)
    requires IsGrid(g) && Stop(r, c) && c > 0
    requires p in AnchorsUpTo(g, r, c - 1) <==> OnGrid(p) && g[p.0][p.1] == ' ' && LetterBeside(g, p, r, c - 1)
    ensures p in AnchorsUpTo(g, r, c) <==> OnGrid(p) && g[p.0][p.1] == ' ' && LetterBeside(g, p, r, c)
  {
    var q := (r, c - 1);
    EmptyNeighboursHolds(g, q, |MoveSearch.Directions|, p);
    if p in AnchorsUpTo(g, r, c) && p !in AnchorsUpTo(g, r, c - 1) {
      assert LetterBeside(g, p, r, c) by {
        var e :| 0 <= e < |MoveSearch.Directions| && p == MoveSearch.Neighbour(q, e);
        assert MoveSearch.Neighbour(p, Opposite(e)) == q;
      }
    }
    if OnGrid(p) && g[p.0][p.1] == ' ' && LetterBeside(g, p, r, c) && !LetterBeside(g, p, r, c - 1) {
      assert p in EmptyNeighbours(g, q, |MoveSearch.Directions|) by {
        var d :| 0 <= d < |MoveSearch.Directions| && OnGrid(MoveSearch.Neighbour(p, d))
                 && g[MoveSearch.Neighbour(p, d).0][MoveSearch.Neighbour(p, d).1] != ' '
                 && Before(MoveSearch.Neighbour(p, d), r, c);
        assert MoveSearch.Neighbour(p, d) == q;
        assert p == MoveSearch.Neighbour(q, Opposite(d));
      }
    }
  }

  /** loadGame's rebuild makes anchors of exactly the empty squares next to a letter. */
  lemma RebuiltAnchors(g: Grid, p: MoveSearch.Pos)
    requires IsGrid(g)
    ensures p in AnchorsUpTo(g, Size, 0) <==> NextToLetter(g, p)
  {
    AnchorsUpToHolds(g, Size, 0, p);
  }

  /** The rebuilt anchors are squares of the board that the rebuilt mirror leaves free. */
  lemma RebuiltAnchorsFree(g: Grid)
    requires IsGrid(g)
    ensures MoveSearch.AnchorsFree(AnchorsUpTo(g, Size, 0), MirrorUpTo(g, Size, 0))
  {
    forall a | a in AnchorsUpTo(g, Size, 0)
      ensures OnGrid(a) && a !in MirrorUpTo(g, Size, 0)
    {
      AnchorsUpToHolds(g, Size, 0, a);
      MirrorUpToHolds(g, Size, 0, a);
    }
  }
}

=== FILE: movesearch.dfy ===
/**
 * The computer player's move search: a set of anchor squares and a mirror of the board's
 * letters, both kept up to date as words are placed; a letter-count filter over the
 * dictionary; and a brute-force search over anchor, word, offset and direction that
 * scores each trial on a fresh board and keeps the first strictly best one.
 */
module MoveSearch {
  import opened BoardRules
  import opened Wrappers
  import Tiles
  import Players
  import Boards

  /** A square, as (row, column). */
  type Pos = (int, int)

  /** The four orthogonal steps boardChanged looks at, in its order: up, down, left, right. */
  const Directions: seq<Pos> := [(-1, 0), (1, 0), (0, -1), (0, 1)]

  function Neighbour(p: Pos, d: nat): Pos
    requires d < |Directions|
  {
    (p.0 + Directions[d].0, p.1 + Directions[d].1)
  }

  /** The first d neighbours of p that are on the board and hold no letter in m. */
  function OpenNeighbours(p: Pos, m: map<Pos, char>, d: nat): (s: set<Pos>)
    requires d <= |Directions|
    ensures forall q :: q in s ==> InBounds(q.0, q.1) && q !in m
  {
    if d == 0 then {}
    else
      var q := Neighbour(p, d - 1);
      OpenNeighbours(p, m, d - 1) + (if InBounds(q.0, q.1) && q !in m then {q} else {})
  }

  /** The square of the i-th placed letter. */
  function Placed(rows: seq<int>, cols: seq<int>, i: nat): Pos
    requires i < |rows| && i < |cols|
  {
    (rows[i], cols[i])
  }

  /** The mirror after boardChanged has handled the first n placed letters. */
  function Mirrored(m: map<Pos, char>, rows: seq<int>, cols: seq<int>, letters: seq<char>, n: nat): map<Pos, char>
    requires n <= |letters| && |letters| <= |rows| && |letters| <= |cols|
  {
    if n == 0 then m else Mirrored(m, rows, cols, letters, n - 1)[Placed(rows, cols, n - 1) := letters[n - 1]]
  }

  /**
   * The anchors after boardChanged has handled the first n placed letters: each letter's
   * open neighbours join, and its own square leaves.
   */
  function Anchored(a: set<Pos>, m: map<Pos, char>, rows: seq<int>, cols: seq<int>, letters: seq<char>, n: nat): set<Pos>
    requires n <= |letters| && |letters| <= |rows| && |letters| <= |cols|
  {
    if n == 0 then a
    else
      var p := Placed(rows, cols, n - 1);
      (Anchored(a, m, rows, cols, letters, n - 1) + OpenNeighbours(p, Mirrored(m, rows, cols, letters, n), |Directions|)) - {p}
  }

  /** Every anchor is an on-board square that holds no letter. */
  predicate AnchorsFree(anchors: set<Pos>, mirror: map<Pos, char>) {
    forall a :: a in anchors ==> InBounds(a.0, a.1) && a !in mirror
  }

  /** The letters of a map's entries, counted with repetition. */
  ghost function LettersOf(m: map<Pos, char>): multiset<char>
    decreases |m.Keys|
  {
    if m.Keys == {} then multiset{}
    else
      var p :| p in m.Keys;
      assert (m - {p}).Keys == m.Keys - {p};
      LettersOf(m - {p}) + multiset{m[p]}
  }

  /** The grid a copy of the board starts from: the mirror's letters, blank elsewhere. */
  function MirrorGrid(m: map<Pos, char>): (g: Grid)
    ensures IsGrid(g)
    ensures forall r, c :: InBounds(r, c) ==> g[r][c] == if (r, c) in m then m[(r, c)] else ' '
  {
    seq(Size, r => seq(Size, c => if (r, c) in m then m[(r, c)] else ' '))
  }

  /** ArrayList.remove(Object): the sequence without its first occurrence of x. */
  function RemoveFirst<T(==)>(s: seq<T>, x: T): (r: seq<T>)
    ensures x in s ==> multiset(r) == multiset(s) - multiset{x}
    ensures x !in s ==> r == s
  {
    if s == [] then []
    else
      assert s == [s[0]] + s[1..];
      if s[0] == x then s[1..] else [s[0]] + RemoveFirst(s[1..], x)
  }

  /** The rack's letters the computer may play: blanks are never used. */
  ghost function PlayableLetters(r: seq<Tiles.Tile?>): seq<char>
    reads set i | 0 <= i < |r| && r[i] != null :: r[i]
    requires forall i :: 0 <= i < |r| ==> r[i] != null
  {
    if r == [] then []
    else
      var t := r[|r| - 1];
      PlayableLetters(r[..|r| - 1]) + (if t.isBlank then [] else [t.EffectiveLetter()])
  }

  /** Each tile's effective letter. */
  ghost function EffectiveLetterSeq(r: seq<Tiles.Tile?>): (ls: seq<char>)
    reads set i | 0 <= i < |r| :: r[i]
    requires forall i :: 0 <= i < |r| ==> r[i] != null
    ensures |ls| == |r| && forall i :: 0 <= i < |r| ==> ls[i] == r[i].EffectiveLetter()
  {
    if r == [] then [] else EffectiveLetterSeq(r[..|r| - 1]) + [r[|r| - 1].EffectiveLetter()]
  }

  /** A word can be assembled from the available letters, duplicates counted. */
  predicate Assemblable(word: string, available: multiset<char>) {
    multiset(word) <= available
  }

  /** The words among `words` that can be assembled from the letters in `available`. */
  function Assemblables(words: set<string>, available: multiset<char>): set<string> {
    set w | w in words && Assemblable(w, available)
  }

  /** The result of tryWordPlace and findBestWord: where tiles go, which tiles, the score and the letters. */
  datatype PlaceWord = PlaceWord(rows: seq<int>, cols: seq<int>, tilesNeeded: seq<Tiles.Tile?>,
                                 score: int, word: seq<char>)

  /** The i-th square of a word laid from (row, col). */
  function WordPos(row: int, col: int, horizontal: bool, i: int): Pos {
    if horizontal then (row, col + i) else (row + i, col)
  }

  /** getLetterAt: a square's letter, ' ' off the board. */
  function LetterAt(g: Grid, p: Pos): char
    requires IsGrid(g)
  {
    if InBounds(p.0, p.1) then g[p.0][p.1] else ' '
  }

  /**
   * The positions, among the first n of a word laid from (row, col), that need a tile
   * from the rack: no letter in the mirror and an empty square on the live board.
   */
  function Gaps(row: int, col: int, horizontal: bool, mirror: map<Pos, char>, g: Grid, n: nat): (gs: seq<nat>)
    requires IsGrid(g)
    ensures forall j :: 0 <= j < |gs| ==> gs[j] < n
  {
    if n == 0 then []
    else
      var p := WordPos(row, col, horizontal, n - 1);
      Gaps(row, col, horizontal, mirror, g, n - 1) + (if p !in mirror && LetterAt(g, p) == ' ' then [n - 1] else [])
  }

  /** What a trial placement sees: the mirror, the live board, the rack with its letters, the dictionary. */
  datatype Context = Context(mirror: map<Pos, char>, grid: Grid, rack: seq<Tiles.Tile?>, letters: seq<char>,
                             dict: set<string>)
  {
    ghost predicate Valid() {
      IsGrid(grid) && |letters| == |rack|
    }
  }

  /** The word laid from (row, col) stays on the board. */
  predicate Fits(word: string, row: int, col: int, horizontal: bool) {
    if horizontal then col + |word| <= Size else row + |word| <= Size
  }

  /** Some square among the word's first n holds a different letter in the mirror. */
  predicate Clashes(m: map<Pos, char>, word: string, row: int, col: int, horizontal: bool, n: nat)
    requires n <= |word|
  {
    exists i :: 0 <= i < n && WordPos(row, col, horizontal, i) in m && m[WordPos(row, col, horizontal, i)] != word[i]
  }

  /** Some square among the word's first n holds a letter in the mirror. */
  predicate Touches(m: map<Pos, char>, row: int, col: int, horizontal: bool, n: nat) {
    exists i :: 0 <= i < n && WordPos(row, col, horizontal, i) in m
  }

  /** The i-th square of the word needs a rack tile, and no rack slot holds its letter. */
  predicate Missing(x: Context, word: string, row: int, col: int, horizontal: bool, i: int)
    requires x.Valid()
  {
    && 0 <= i < |word| && WordPos(row, col, horizontal, i) !in x.mirror
    && LetterAt(x.grid, WordPos(row, col, horizontal, i)) == ' ' && Players.SlotOf(x.letters, word[i]) == |x.letters|
  }

  /** The rack slot getTile picks for each missing letter. */
  function Slots(letters: seq<char>, word: string, gaps: seq<nat>): (ks: seq<nat>)
    requires forall j :: 0 <= j < |gaps| ==> gaps[j] < |word|
    ensures |ks| == |gaps| && forall j :: 0 <= j < |gaps| ==> ks[j] == Players.SlotOf(letters, word[gaps[j]])
  {
    seq(|gaps|, j requires 0 <= j < |gaps| => Players.SlotOf(letters, word[gaps[j]]))
  }

  /** The rows of the squares at the given positions of the word. */
  function GapRows(row: int, col: int, horizontal: bool, gaps: seq<nat>): (rs: seq<int>)
    ensures |rs| == |gaps| && forall j :: 0 <= j < |gaps| ==> rs[j] == WordPos(row, col, horizontal, gaps[j]).0
  {
    seq(|gaps|, j requires 0 <= j < |gaps| => WordPos(row, col, horizontal, gaps[j]).0)
  }

  /** The columns of the squares at the given positions of the word. */
  function GapCols(row: int, col: int, horizontal: bool, gaps: seq<nat>): (cs: seq<int>)
    ensures |cs| == |gaps| && forall j :: 0 <= j < |gaps| ==> cs[j] == WordPos(row, col, horizontal, gaps[j]).1
  {
    seq(|gaps|, j requires 0 <= j < |gaps| => WordPos(row, col, horizontal, gaps[j]).1)
  }

  /** Letters as the placement reads them from non-null tiles. */
  function AllSome(cs: seq<char>): (ls: seq<Option<char>>)
    ensures |ls| == |cs| && forall j :: 0 <= j < |cs| ==> ls[j] == Some(cs[j])
  {
    seq(|cs|, j requires 0 <= j < |cs| => Some(cs[j]))
  }

  /**
   * What tryWordPlace's pass over the word has gathered: whether it may go on, the squares
   * that need a rack tile, the tile taken for each, its rack slot and its letter, and
   * whether a mirror letter was crossed.
   */
  datatype Scan = Scan(ok: bool, rows: seq<int>, cols: seq<int>, needed: seq<Tiles.Tile?>, slots: seq<nat>,
                       placed: seq<char>, touches: bool)

  /** tryWordPlace's pass over the first n squares of the word, stopping at the first failure. */
  function ScanWord(x: Context, word: string, row: int, col: int, horizontal: bool, n: nat): (s: Scan)
    requires x.Valid() && n <= |word|
    ensures |s.rows| <= n && |s.cols| == |s.rows| && |s.needed| == |s.rows| && |s.slots| == |s.rows|
            && |s.placed| == |s.rows|
    ensures forall j :: 0 <= j < |s.rows| ==>
              if horizontal then s.rows[j] == row && col <= s.cols[j] < col + n
              else s.cols[j] == col && row <= s.rows[j] < row + n
    ensures forall j :: 0 <= j < |s.slots| ==>
              s.slots[j] < |x.letters| && s.needed[j] == x.rack[s.slots[j]] && s.placed[j] == x.letters[s.slots[j]]
  {
    if n == 0 then Scan(true, [], [], [], [], [], false)
    else
      var s := ScanWord(x, word, row, col, horizontal, n - 1);
      var p := WordPos(row, col, horizontal, n - 1);
      if !s.ok then s
      else if p in x.mirror then
        if x.mirror[p] != word[n - 1] then s.(ok := false) else s.(touches := true)
      else if LetterAt(x.grid, p) == ' ' then
        var k := Players.SlotOf(x.letters, word[n - 1]);
        if k == |x.letters| then s.(ok := false)
        else s.(rows := s.rows + [p.0], cols := s.cols + [p.1], needed := s.needed + [x.rack[k]],
                slots := s.slots + [k], placed := s.placed + [x.letters[k]])
      else s
  }

  /**
   * tryWordPlace: the word laid from (row, col) must fit on the board, agree with every
   * mirror letter it crosses, find each missing letter in the rack, touch the mirror
   * unless it is empty, need at most a rackful of tiles the rack holds, and score
   * something on a copy of the board seeded from the mirror.
   */
  function Try(x: Context, word: string, row: int, col: int, horizontal: bool): (r: Option<PlaceWord>)
    requires x.Valid() && InBounds(row, col)
    ensures r.Some? ==> && Fits(word, row, col, horizontal) && r.value.score != 0
                        && |r.value.tilesNeeded| == |r.value.rows| == |r.value.cols| == |r.value.word|
                        && |r.value.tilesNeeded| <= Players.HandSize
                        && multiset(r.value.tilesNeeded) <= multiset(x.rack)
  {
    if !Fits(word, row, col, horizontal) then None
    else
      var s := ScanWord(x, word, row, col, horizontal, |word|);
      if !s.ok || (x.mirror != map[] && !s.touches)
         || !(|s.needed| <= Players.HandSize && multiset(s.needed) <= multiset(x.rack)) then None
      else
        ScanOnBoard(x, word, row, col, horizontal);
        var score := TrialScore(x.mirror, x.dict, s.rows, s.cols, s.placed);
        if score == 0 then None else Some(PlaceWord(s.rows, s.cols, s.needed, score, s.placed))
  }

  /** A trial whose scan succeeds, touches the mirror when it must and fits the rack ends in its score. */
  lemma TryScored(x: Context, word: string, row: int, col: int, horizontal: bool, score: int)
    requires x.Valid() && InBounds(row, col) && Fits(word, row, col, horizontal)
    requires var s := ScanWord(x, word, row, col, horizontal, |word|);
             && s.ok && (x.mirror == map[] || s.touches)
             && |s.needed| <= Players.HandSize && multiset(s.needed) <= multiset(x.rack)
             && AllInBounds(s.rows, s.cols) && |s.placed| <= |s.rows|
             && score == TrialScore(x.mirror, x.dict, s.rows, s.cols, s.placed)
    ensures var s := ScanWord(x, word, row, col, horizontal, |word|);
            Try(x, word, row, col, horizontal) == if score == 0 then None else Some(PlaceWord(s.rows, s.cols, s.needed, score, s.placed))
  {
  }

  /**
   * What a placement from tryWordPlace holds: exactly the word's squares that need a rack
   * tile, in order, the word's own letters there, the tile of the first rack slot holding
   * each letter, and a score above 0.
   */
  lemma TryResult(x: Context, word: string, row: int, col: int, horizontal: bool, pw: PlaceWord)
    requires x.Valid() && InBounds(row, col) && Try(x, word, row, col, horizontal) == Some(pw)
    ensures var gaps := Gaps(row, col, horizontal, x.mirror, x.grid, |word|);
            && pw.rows == GapRows(row, col, horizontal, gaps) && pw.cols == GapCols(row, col, horizontal, gaps)
            && |pw.word| == |gaps| && |pw.tilesNeeded| == |gaps|
            && (forall j :: 0 <= j < |gaps| ==>
                  pw.word[j] == word[gaps[j]] && pw.tilesNeeded[j] == x.rack[Players.SlotOf(x.letters, word[gaps[j]])])
            && pw.score > 0
  {
    TryUnfolds(x, word, row, col, horizontal, pw);
    var s := ScanWord(x, word, row, col, horizontal, |word|);
    ScanResult(x, word, row, col, horizontal, |word|);
    DefaultMultsPositive();
    PlaceScoreNonNegative(MirrorGrid(x.mirror), DefaultLetterMults(), DefaultWordMults(), x.dict,
                          s.rows, s.cols, AllSome(s.placed), []);
  }

  /** A placement from tryWordPlace is the successful pass's squares, tiles and letters with the copy's score. */
  lemma TryUnfolds(x: Context, word: string, row: int, col: int, horizontal: bool, pw: PlaceWord)
    requires x.Valid() && InBounds(row, col) && Try(x, word, row, col, horizontal) == Some(pw)
    ensures Fits(word, row, col, horizontal)
    ensures var s := ScanWord(x, word, row, col, horizontal, |word|);
            && s.ok && AllInBounds(s.rows, s.cols) && |s.placed| <= |s.rows|
            && pw == PlaceWord(s.rows, s.cols, s.needed, TrialScore(x.mirror, x.dict, s.rows, s.cols, s.placed), s.placed)
  {
    ScanOnBoard(x, word, row, col, horizontal);
  }

  /**
   * A pass over the first n squares that succeeds collects the gap squares, the word's
   * letter at each, and the tile of the first rack slot holding it.
   */
  lemma ScanResult(x: Context, word: string, row: int, col: int, horizontal: bool, n: nat)
    requires x.Valid() && n <= |word| && ScanWord(x, word, row, col, horizontal, n).ok
    ensures var s, gaps := ScanWord(x, word, row, col, horizontal, n), Gaps(row, col, horizontal, x.mirror, x.grid, n);
            && s.rows == GapRows(row, col, horizontal, gaps) && s.cols == GapCols(row, col, horizontal, gaps)
            && |s.placed| == |gaps| && |s.needed| == |gaps|
            && forall j :: 0 <= j < |gaps| ==>
                 s.placed[j] == word[gaps[j]] && s.needed[j] == x.rack[Players.SlotOf(x.letters, word[gaps[j]])]
  {
    ScanCollectsGaps(x, word, row, col, horizontal, n);
  }

  /** The squares the pass collects are on the board when the word is. */
  lemma ScanOnBoard(x: Context, word: string, row: int, col: int, horizontal: bool)
    requires x.Valid() && InBounds(row, col) && Fits(word, row, col, horizontal)
    ensures var s := ScanWord(x, word, row, col, horizontal, |word|);
            AllInBounds(s.rows, s.cols) && |s.placed| <= |s.rows|
  {
  }

  /** The score of placing the letters on a fresh board that holds the mirror's letters. */
  function TrialScore(m: map<Pos, char>, dict: set<string>, rows: seq<int>, cols: seq<int>, placed: seq<char>): int
    requires AllInBounds(rows, cols) && |placed| <= |rows|
  {
    Place(MirrorGrid(m), DefaultLetterMults(), DefaultWordMults(), dict, rows, cols, AllSome(placed), []).score
  }

  /** One trial of findBestWord's search. */
  datatype Attempt = Attempt(word: string, row: int, col: int, horizontal: bool)

  /** Every trial starts on the board. */
  predicate OnBoard(atts: seq<Attempt>) {
    forall j :: 0 <= j < |atts| ==> InBounds(atts[j].row, atts[j].col)
  }

  /**
   * The trials for the first k offsets of a word around anchor p, offset k - (|w| - 1):
   * for each offset the vertical one when it fits, then the horizontal one when it fits.
   */
  function OffsetAttempts(p: Pos, w: string, k: nat): seq<Attempt> {
    if k == 0 then [] else OffsetAttempts(p, w, k - 1) + OffsetTrial(p, w, k - 1, false) + OffsetTrial(p, w, k - 1, true)
  }

  /** The vertical or horizontal trial at offset k - (|w| - 1) from anchor p, when the word fits on the board there. */
  function OffsetTrial(p: Pos, w: string, k: nat, horizontal: bool): (r: seq<Attempt>)
    ensures |r| <= 1
  {
    var offset := k - (|w| - 1);
    if !horizontal then
      var x := p.0 + offset;
      if x >= 0 && x + |w| <= Size then [Attempt(w, x, p.1, false)] else []
    else
      var y := p.1 + offset;
      if y >= 0 && y + |w| <= Size then [Attempt(w, p.0, y, true)] else []
  }

  /** The trials for the first n words around anchor p; on an empty board one-letter words are skipped. */
  function WordAttempts(p: Pos, ws: seq<string>, firstPlay: bool, n: nat): seq<Attempt>
    requires n <= |ws|
  {
    if n == 0 then []
    else
      WordAttempts(p, ws, firstPlay, n - 1)
        + (if firstPlay && |ws[n - 1]| < 2 then [] else OffsetAttempts(p, ws[n - 1], |ws[n - 1]|))
  }

  /** All the trials of findBestWord for the first n anchors, in its loop order. */
  function Attempts(ps: seq<Pos>, ws: seq<string>, firstPlay: bool, n: nat): seq<Attempt>
    requires n <= |ps|
  {
    if n == 0 then [] else Attempts(ps, ws, firstPlay, n - 1) + WordAttempts(ps[n - 1], ws, firstPlay, |ws|)
  }

  /** The outcome of one trial. */
  function TryAt(x: Context, a: Attempt): Option<PlaceWord>
    requires x.Valid() && InBounds(a.row, a.col)
  {
    Try(x, a.word, a.row, a.col, a.horizontal)
  }

  /** tryWordPlace as a function of the trial, on a given view of the game. */
  ghost function Trials(x: Context): Attempt -> Option<PlaceWord> {
    (a: Attempt) => if x.Valid() && InBounds(a.row, a.col) then TryAt(x, a) else None
  }

  /**
   * trial gives each on-board trial the outcome tryWordPlace gives it on view x. (The search
   * loops reason about trial only through this, one trial at a time.)
   */
  ghost predicate Agrees(trial: Attempt -> Option<PlaceWord>, x: Context)
    requires x.Valid()
  {
    forall a: Attempt {:trigger TryAt(x, a)} :: InBounds(a.row, a.col) ==> trial(a) == TryAt(x, a)
  }

  /** The outcomes of the given trials, in order. */
  function Outcomes(trial: Attempt -> Option<PlaceWord>, atts: seq<Attempt>): (os: seq<Option<PlaceWord>>)
    ensures |os| == |atts|
  {
    if atts == [] then [] else Outcomes(trial, atts[..|atts| - 1]) + [trial(atts[|atts| - 1])]
  }

  /** bestMove: the score of the best placement so far, 0 before there is one. */
  function ScoreOf(best: Option<PlaceWord>): int {
    if best.Some? then best.value.score else 0
  }

  /** A candidate replaces the best so far only with a strictly greater score. */
  function Keep(best: Option<PlaceWord>, candidate: Option<PlaceWord>): Option<PlaceWord> {
    if candidate.Some? && candidate.value.score > ScoreOf(best) then candidate else best
  }

  /** The best placement after the given outcomes, starting from the best so far, as findBestWord keeps it. */
  function BestOf(best: Option<PlaceWord>, os: seq<Option<PlaceWord>>): Option<PlaceWord> {
    if os == [] then best else Keep(BestOf(best, os[..|os| - 1]), os[|os| - 1])
  }

  /** xs lists the members of s, each once. */
  ghost predicate Lists<T>(xs: seq<T>, s: set<T>) {
    && (forall y :: y in s ==> y in xs)
    && (forall i :: 0 <= i < |xs| ==> xs[i] in s)
    && forall i, j :: 0 <= i < j < |xs| ==> xs[i] != xs[j]
  }

  /** Iteration over a hash set: its members, each once, in an order the model does not fix. */
  method Enumerate<T>(s: set<T>) returns (xs: seq<T>)
    ensures Lists(xs, s)
  {
    xs := [];
    var rest := s;
    while rest != {}
      invariant forall y :: y in s <==> y in xs || y in rest
      invariant forall y :: y in xs ==> y !in rest
      invariant forall i, j :: 0 <= i < j < |xs| ==> xs[i] != xs[j]
      decreases rest
    {
      var y :| y in rest;
      xs := xs + [y];
      rest := rest - {y};
    }
  }

  class AI {
    /** The AI's own rack, score and pass counter. */
    const player: Players.Player
    /** legalPlacements: squares a new word may be built through. */
    var anchors: set<Pos>
    /** board: the letters placed so far, by square. */
    var mirror: map<Pos, char>
    var dictionary: set<string>

    ghost predicate Valid()
      reads this
    {
      AnchorsFree(anchors, mirror)
    }

    /** A rack with a tile in every slot: the search dereferences every slot. */
    ghost predicate RackFull()
      reads this, player, player.rack
    {
      forall i :: 0 <= i < player.rack.Length ==> player.rack[i] != null
    }

    /** A computer player, named with the " [AI]" suffix. */
    constructor (name: string)
      ensures fresh(player) && fresh(player.rack) && player.name == name + " [AI]"
      ensures player.score == 0 && player.passCounter == 0
      ensures player.rack.Length == Players.HandSize && forall i :: 0 <= i < player.rack.Length ==> player.rack[i] == null
      ensures anchors == {} && mirror == map[] && dictionary == {}
    {
      player := new Players.Player(name + " [AI]");
      anchors := {};
      mirror := map[];
      dictionary := {};
    }

    /** setUp: no letters yet, and the centre square is the only anchor. */
    method SetUp(wordDictionary: set<string>)
      modifies this
      ensures Valid()
      ensures anchors == {(Centre, Centre)} && mirror == map[] && dictionary == wordDictionary
    {
      anchors := {};
      mirror := map[];
      dictionary := wordDictionary;
      anchors := anchors + {(Centre, Centre)};
    }

    /** Each rack slot's effective letter. */
    ghost function SlotLetters(): (ls: seq<char>)
      reads this, player, player.rack, set i | 0 <= i < player.rack.Length :: player.rack[i]
      requires RackFull()
      ensures |ls| == player.rack.Length
      ensures forall i :: 0 <= i < |ls| ==> ls[i] == player.rack[i].EffectiveLetter()
    {
      EffectiveLetterSeq(player.rack[..])
    }

    /** What a trial on the given live board sees. */
    ghost function Ctx(board: Boards.Board): (x: Context)
      reads this, player, player.rack, set i | 0 <= i < player.rack.Length :: player.rack[i]
      reads board, board.grid, board.letterMult, board.wordMult
      requires RackFull() && board.Valid()
      ensures x.Valid()
    {
      Context(mirror, board.cells, player.rack[..], SlotLetters(), board.dictionary)
    }

    /** The search runs on a full rack and a well-formed live board, and cx is what its trials see. */
    ghost predicate Sees(board: Boards.Board, cx: Context)
      reads this, player, player.rack, set i | 0 <= i < player.rack.Length :: player.rack[i]
      reads board, board.grid, board.letterMult, board.wordMult
    {
      RackFull() && board.Valid() && cx == Ctx(board)
    }

    /**
     * boardChanged: each placed letter enters the mirror, its open on-board neighbours
     * become anchors, and its own square stops being one.
     */
    method BoardChanged(rows: seq<int>, cols: seq<int>, sortedTiles: seq<char>)
      requires |sortedTiles| <= |rows| && |sortedTiles| <= |cols|
      modifies this
      ensures mirror == Mirrored(old(mirror), rows, cols, sortedTiles, |sortedTiles|)
      ensures anchors == Anchored(old(anchors), old(mirror), rows, cols, sortedTiles, |sortedTiles|)
      ensures dictionary == old(dictionary)
    {
      var board, legalPlacements := mirror, anchors;
      for i := 0 to |sortedTiles|
        invariant board == Mirrored(old(mirror), rows, cols, sortedTiles, i)
        invariant legalPlacements == Anchored(old(anchors), old(mirror), rows, cols, sortedTiles, i)
        invariant dictionary == old(dictionary)
      {
        var position := (rows[i], cols[i]);
        board := board[position := sortedTiles[i]];
        legalPlacements := AddOpenNeighbours(position, board, legalPlacements);
        legalPlacements := legalPlacements - {position};
      }
      mirror, anchors := board, legalPlacements;
    }

    /** The direction loop of boardChanged: each on-board neighbour of the square that holds no letter. */
    static method AddOpenNeighbours(position: Pos, board: map<Pos, char>, legalPlacements: set<Pos>)
      returns (legal: set<Pos>)
      ensures legal == legalPlacements + OpenNeighbours(position, board, |Directions|)
    {
      legal := legalPlacements;
      for d := 0 to |Directions|
        invariant legal == legalPlacements + OpenNeighbours(position, board, d)
      {
        var x := position.0 + Directions[d].0;
        var y := position.1 + Directions[d].1;
        assert Neighbour(position, d) == (x, y);
        if (x >= 0 && x < Size && y >= 0 && y < Size) && (x, y) !in board {
          legal := legal + {(x, y)};
        }
      }
    }

    /**
     * findPossibleWord: the dictionary words that can be assembled from the rack's
     * non-blank letters and every letter on the board; None when there are none.
     */
    method FindPossibleWord() returns (possible: Option<set<string>>)
      requires RackFull()
      ensures var words := Assemblables(dictionary, Pool());
              possible == if words == {} then None else Some(words)
    {
      var availableLetters := AvailableLetters();
      var possibleWords := FilterWords(dictionary, availableLetters, Pool());
      possible := if possibleWords == {} then None else Some(possibleWords);
    }

    /** The letters findPossibleWord may use: the rack's non-blank letters and every letter on the board. */
    ghost function Pool(): multiset<char>
      reads this, player, player.rack, set i | 0 <= i < player.rack.Length :: player.rack[i]
      requires RackFull()
    {
      multiset(PlayableLetters(player.rack[..])) + LettersOf(mirror)
    }

    /** The letters of findPossibleWord: the rack half followed by the board half. */
    method AvailableLetters() returns (letters: seq<char>)
      requires RackFull()
      ensures multiset(letters) == Pool()
    {
      var rackLetters := RackLetters();
      var onBoard := BoardLetters();
      letters := rackLetters + onBoard;
    }

    /** The rack half of findPossibleWord's letters: each non-blank tile's letter. */
    method RackLetters() returns (letters: seq<char>)
      requires RackFull()
      ensures letters == PlayableLetters(player.rack[..])
    {
      letters := [];
      for i := 0 to player.rack.Length
        invariant letters == PlayableLetters(player.rack[..i])
      {
        assert player.rack[..i + 1][..i] == player.rack[..i];
        var tile := player.rack[i];
        if !tile.isBlank {
          letters := letters + [tile.EffectiveLetter()];
        }
      }
      assert player.rack[..player.rack.Length] == player.rack[..];
    }

    /** The board half of findPossibleWord's letters: every letter in the mirror. */
    method BoardLetters() returns (letters: seq<char>)
      ensures multiset(letters) == LettersOf(mirror)
    {
      letters := [];
      var remaining := mirror;
      while remaining.Keys != {}
        invariant multiset(letters) + LettersOf(remaining) == LettersOf(mirror)
        decreases |remaining.Keys|
      {
        var p :| p in remaining.Keys;
        LettersOfRemove(remaining, p);
        letters := letters + [remaining[p]];
        remaining := remaining - {p};
      }
      assert LettersOf(remaining) == multiset{};
    }

    /** The dictionary scan of findPossibleWord: the words haveEnoughLetters accepts. */
    static method FilterWords(words: set<string>, availableLetters: seq<char>, ghost pool: multiset<char>)
      returns (possibleWords: set<string>)
      requires multiset(availableLetters) == pool
      ensures possibleWords == Assemblables(words, pool)
    {
      possibleWords := {};
      var unseen := words;
      while unseen != {}
        invariant unseen <= words
        invariant possibleWords == Assemblables(words - unseen, multiset(availableLetters))
        decreases |unseen|
      {
        var word :| word in unseen;
        var enough := HaveEnoughLetters(word, availableLetters);
        if enough {
          possibleWords := possibleWords + {word};
        }
        unseen := unseen - {word};
      }
      assert words - unseen == words;
    }

    /**
     * findBestWord: for every anchor, every possible word and every offset that keeps the
     * word on the board, the vertical trial and then the horizontal one; a trial replaces
     * the best so far only with a strictly greater score. None when there are no possible
     * words or no trial scores.
     */
    method FindBestWord(board: Boards.Board, possibleWords: Option<set<string>>, ghost cx: Context)
      returns (bestWord: Option<PlaceWord>, ghost ps: seq<Pos>, ghost ws: seq<string>)
      requires Valid() && Sees(board, cx)
      ensures possibleWords == None || possibleWords.value == {} ==> bestWord == None
      ensures possibleWords != None && possibleWords.value != {} ==>
                && Lists(ps, anchors) && Lists(ws, possibleWords.value)
                && (forall i :: 0 <= i < |ps| ==> InBounds(ps[i].0, ps[i].1))
                && bestWord == BestOf(None, Outcomes(Trials(cx), Attempts(ps, ws, |cx.mirror| == 0, |ps|)))
    {
      ps, ws := [], [];
      if possibleWords == None || possibleWords.value == {} {
        return None, ps, ws;
      }
      bestWord, ps, ws := SearchAll(board, possibleWords.value, cx);
    }

    /** findBestWord once there are possible words: the anchors and the words are listed, then searched. */
    method SearchAll(board: Boards.Board, possibleWords: set<string>, ghost cx: Context)
      returns (bestWord: Option<PlaceWord>, ghost ps: seq<Pos>, ghost ws: seq<string>)
      requires Valid() && Sees(board, cx)
      ensures Lists(ps, anchors) && Lists(ws, possibleWords)
      ensures forall i :: 0 <= i < |ps| ==> InBounds(ps[i].0, ps[i].1)
      ensures bestWord == BestOf(None, Outcomes(Trials(cx), Attempts(ps, ws, |cx.mirror| == 0, |ps|)))
    {
      var positions := Enumerate(anchors);
      var words := Enumerate(possibleWords);
      // The listings change nothing a trial reads: what the trials see, part by part.
      assert RackFull();
      assert board.Valid();
      assert cx.mirror == mirror;
      assert cx.grid == board.cells;
      assert cx.rack == player.rack[..];
      assert cx.letters == SlotLetters();
      assert cx.dict == board.dictionary;
      ps, ws := positions, words;
      forall i | 0 <= i < |positions| ensures InBounds(positions[i].0, positions[i].1) {
        assert positions[i] in anchors;
      }
      TrialsAgree(cx);
      bestWord := Search(positions, words, board, cx, Trials(cx));
      AttemptsOnBoard(ps, ws, |cx.mirror| == 0, |ps|);
      AgreeingOutcomes(Trials(cx), cx, Attempts(ps, ws, |cx.mirror| == 0, |ps|));
    }

    /** The anchor loop of findBestWord, for any trial function that agrees with tryWordPlace. */
    method Search(positions: seq<Pos>, words: seq<string>, board: Boards.Board, ghost cx: Context,
                  ghost trial: Attempt -> Option<PlaceWord>)
      returns (bestWord: Option<PlaceWord>)
      requires Sees(board, cx) && cx.Valid() && Agrees(trial, cx)
      requires forall i :: 0 <= i < |positions| ==> InBounds(positions[i].0, positions[i].1)
      ensures bestWord == BestOf(None, Outcomes(trial, Attempts(positions, words, |cx.mirror| == 0, |positions|)))
    {
      var bestMove := 0;
      bestWord := None;
      for a := 0 to |positions|
        invariant bestWord == BestOf(None, Outcomes(trial, Attempts(positions, words, |cx.mirror| == 0, a)))
        invariant bestMove == ScoreOf(bestWord)
      {
        bestWord, bestMove := TryAnchor(positions, words, a, board, cx, trial, bestWord, bestMove);
      }
    }

    /** One pass of the anchor loop of findBestWord: the word loop around the a-th anchor. */
    method TryAnchor(positions: seq<Pos>, words: seq<string>, a: nat, board: Boards.Board, ghost cx: Context,
                     ghost trial: Attempt -> Option<PlaceWord>, best: Option<PlaceWord>, bestMove: int)
      returns (best': Option<PlaceWord>, bestMove': int)
      requires Sees(board, cx) && cx.Valid() && Agrees(trial, cx)
      requires a < |positions| && InBounds(positions[a].0, positions[a].1)
      requires best == BestOf(None, Outcomes(trial, Attempts(positions, words, |cx.mirror| == 0, a)))
      requires bestMove == ScoreOf(best)
      ensures best' == BestOf(None, Outcomes(trial, Attempts(positions, words, |cx.mirror| == 0, a + 1)))
      ensures bestMove' == ScoreOf(best')
    {
      best', bestMove' := TryWords(positions[a], words, board, cx, trial, best, bestMove);
      RunStep(trial, None, Attempts(positions, words, |cx.mirror| == 0, a),
              WordAttempts(positions[a], words, |cx.mirror| == 0, |words|), best, best');
    }

    /** The word loop of findBestWord around one anchor; one-letter words are skipped on an empty board. */
    method TryWords(position: Pos, words: seq<string>, board: Boards.Board, ghost cx: Context,
                    ghost trial: Attempt -> Option<PlaceWord>, best: Option<PlaceWord>, bestMove: int)
      returns (best': Option<PlaceWord>, bestMove': int)
      requires Sees(board, cx) && cx.Valid() && Agrees(trial, cx)
      requires InBounds(position.0, position.1) && bestMove == ScoreOf(best)
      ensures best' == BestOf(best, Outcomes(trial, WordAttempts(position, words, |cx.mirror| == 0, |words|)))
      ensures bestMove' == ScoreOf(best')
    {
      best', bestMove' := best, bestMove;
      var firstPlay := |mirror| == 0;
      assert firstPlay == (|cx.mirror| == 0);
      for w := 0 to |words|
        invariant best' == BestOf(best, Outcomes(trial, WordAttempts(position, words, firstPlay, w)))
        invariant bestMove' == ScoreOf(best') && firstPlay == (|cx.mirror| == 0)
      {
        best', bestMove' := TryWord(position, words, w, firstPlay, board, cx, trial, best, best', bestMove');
      }
      assert WordAttempts(position, words, firstPlay, |words|)
          == WordAttempts(position, words, |cx.mirror| == 0, |words|);
    }

    /** One pass of the word loop of findBestWord: the offsets of the w-th word, unless it is skipped. */
    method TryWord(position: Pos, words: seq<string>, w: nat, firstPlay: bool, board: Boards.Board, ghost cx: Context,
                   ghost trial: Attempt -> Option<PlaceWord>, ghost start: Option<PlaceWord>,
                   best: Option<PlaceWord>, bestMove: int)
      returns (best': Option<PlaceWord>, bestMove': int)
      requires Sees(board, cx) && cx.Valid() && Agrees(trial, cx)
      requires InBounds(position.0, position.1) && w < |words| && bestMove == ScoreOf(best)
      requires best == BestOf(start, Outcomes(trial, WordAttempts(position, words, firstPlay, w)))
      ensures best' == BestOf(start, Outcomes(trial, WordAttempts(position, words, firstPlay, w + 1)))
      ensures bestMove' == ScoreOf(best')
    {
      ghost var done := WordAttempts(position, words, firstPlay, w);
      var word := words[w];
      if firstPlay && |word| < 2 {
        best', bestMove' := best, bestMove;
        assert WordAttempts(position, words, firstPlay, w + 1) == done + [] == done;
      } else {
        best', bestMove' := TryOffsets(position, word, board, cx, trial, best, bestMove);
        RunStep(trial, start, done, OffsetAttempts(position, word, |word|), best, best');
        assert WordAttempts(position, words, firstPlay, w + 1) == done + OffsetAttempts(position, word, |word|);
      }
    }

    /**
     * The offset loop of findBestWord for one word around one anchor: the word starts
     * between |word| - 1 squares before the anchor and the anchor itself.
     */
    method TryOffsets(position: Pos, word: string, board: Boards.Board, ghost cx: Context,
                      ghost trial: Attempt -> Option<PlaceWord>, best: Option<PlaceWord>, bestMove: int)
      returns (best': Option<PlaceWord>, bestMove': int)
      requires Sees(board, cx) && cx.Valid() && Agrees(trial, cx)
      requires InBounds(position.0, position.1) && bestMove == ScoreOf(best)
      ensures best' == BestOf(best, Outcomes(trial, OffsetAttempts(position, word, |word|)))
      ensures bestMove' == ScoreOf(best')
    {
      best', bestMove' := best, bestMove;
      for k := 0 to |word|
        invariant best' == BestOf(best, Outcomes(trial, OffsetAttempts(position, word, k)))
        invariant bestMove' == ScoreOf(best')
      {
        best', bestMove' := TryOffset(position, word, k, board, cx, trial, best, best', bestMove');
      }
    }

    /** One offset of findBestWord: the vertical trial when the word fits, then the horizontal one. */
    method TryOffset(position: Pos, word: string, k: nat, board: Boards.Board, ghost cx: Context,
                     ghost trial: Attempt -> Option<PlaceWord>, ghost start: Option<PlaceWord>,
                     best: Option<PlaceWord>, bestMove: int)
      returns (best': Option<PlaceWord>, bestMove': int)
      requires Sees(board, cx) && cx.Valid() && Agrees(trial, cx)
      requires InBounds(position.0, position.1) && k < |word| && bestMove == ScoreOf(best)
      requires best == BestOf(start, Outcomes(trial, OffsetAttempts(position, word, k)))
      ensures best' == BestOf(start, Outcomes(trial, OffsetAttempts(position, word, k + 1)))
      ensures bestMove' == ScoreOf(best')
    {
      ghost var done := OffsetAttempts(position, word, k);
      best', bestMove' := TryDirection(position, word, k, false, board, cx, trial, best, bestMove);
      TrialStep(trial, start, done, OffsetTrial(position, word, k, false), best, best');
      ghost var middle := best';
      best', bestMove' := TryDirection(position, word, k, true, board, cx, trial, best', bestMove');
      TrialStep(trial, start, done + OffsetTrial(position, word, k, false), OffsetTrial(position, word, k, true),
                middle, best');
    }

    /** One direction at one offset of findBestWord: the trial when the word fits on the board there. */
    method TryDirection(position: Pos, word: string, k: nat, horizontal: bool, board: Boards.Board, ghost cx: Context,
                        ghost trial: Attempt -> Option<PlaceWord>, best: Option<PlaceWord>, bestMove: int)
      returns (best': Option<PlaceWord>, bestMove': int)
      requires Sees(board, cx) && cx.Valid() && Agrees(trial, cx)
      requires InBounds(position.0, position.1) && k < |word| && bestMove == ScoreOf(best)
      ensures var v := OffsetTrial(position, word, k, horizontal);
              best' == if v == [] then best else Keep(best, trial(v[0]))
      ensures bestMove' == ScoreOf(best')
    {
      var offset := k - (|word| - 1);
      best', bestMove' := best, bestMove;
      if !horizontal {
        var x := position.0 + offset;
        if x >= 0 && x + |word| <= Size {
          best', bestMove' := TryOne(word, x, position.1, false, board, cx, trial, best', bestMove');
        }
      } else {
        var y := position.1 + offset;
        if y >= 0 && y + |word| <= Size {
          best', bestMove' := TryOne(word, position.0, y, true, board, cx, trial, best', bestMove');
        }
      }
    }

    /** One trial of findBestWord: its placement replaces the best so far only with a strictly greater score. */
    method TryOne(word: string, row: int, col: int, horizontal: bool, board: Boards.Board, ghost cx: Context,
                  ghost trial: Attempt -> Option<PlaceWord>, best: Option<PlaceWord>, bestMove: int)
      returns (best': Option<PlaceWord>, bestMove': int)
      requires Sees(board, cx) && cx.Valid() && Agrees(trial, cx) && InBounds(row, col) && bestMove == ScoreOf(best)
      ensures best' == Keep(best, trial(Attempt(word, row, col, horizontal))) && bestMove' == ScoreOf(best')
    {
      var placement := TryWordPlace(word, row, col, horizontal, board, cx);
      assert placement == TryAt(cx, Attempt(word, row, col, horizontal));
      best', bestMove' := best, bestMove;
      if placement.Some? && placement.value.score > bestMove {
        best', bestMove' := placement, placement.value.score;
      }
    }

    /**
     * tryWordPlace: lays the word from (row, col), collecting the squares that need a rack
     * tile, and scores those tiles on a copy of the board; None when the word does not fit
     * the board, the mirror or the rack, or scores nothing.
     */
    method TryWordPlace(word: string, row: int, col: int, horizontal: bool, board: Boards.Board, ghost x: Context)
      returns (placement: Option<PlaceWord>)
      requires RackFull() && board.Valid() && InBounds(row, col) && x == Ctx(board)
      ensures placement == Try(x, word, row, col, horizontal)
    {
      if horizontal && col + |word| > Size {
        return None;
      }
      if !horizontal && row + |word| > Size {
        return None;
      }
      ghost var s := ScanWord(x, word, row, col, horizontal, |word|);
      var found, newRows, newCols, needed, canConnect := CollectTiles(word, row, col, horizontal, board, x);
      if !found {
        return None;
      }
      placement := PlaceCollected(word, row, col, horizontal, board, x, newRows, newCols, needed, canConnect);
    }

    /**
     * The rest of tryWordPlace once the scan has collected its squares: the mirror must be
     * touched unless empty, the rack must hold the tiles, and the trial must score.
     */
    method PlaceCollected(word: string, row: int, col: int, horizontal: bool, board: Boards.Board, ghost x: Context,
                          newRows: seq<int>, newCols: seq<int>, needed: seq<Tiles.Tile?>, canConnect: bool)
      returns (placement: Option<PlaceWord>)
      requires RackFull() && board.Valid() && InBounds(row, col) && x == Ctx(board) && Fits(word, row, col, horizontal)
      requires var s := ScanWord(x, word, row, col, horizontal, |word|);
               s.ok && newRows == s.rows && newCols == s.cols && needed == s.needed && canConnect == s.touches
      ensures placement == Try(x, word, row, col, horizontal)
    {
      ghost var s := ScanWord(x, word, row, col, horizontal, |word|);
      var enough := HasNeeded(needed);
      if (mirror != map[] && !canConnect) || !enough {
        return None;
      }
      // tileTochar reads nothing the trial changes, so its letters are taken before the trial.
      var chars := TileToChar(needed);
      assert chars == s.placed;
      var score := ScoreOnCopy(board, newRows, newCols, needed, x, chars);
      TryScored(x, word, row, col, horizontal, score);
      if score == 0 {
        return None;
      }
      return Some(PlaceWord(newRows, newCols, needed, score, chars));
    }

    /** The trial of tryWordPlace: the tiles placed and validated on a copy of the board. */
    method ScoreOnCopy(board: Boards.Board, rows: seq<int>, cols: seq<int>, needed: seq<Tiles.Tile?>,
                       ghost x: Context, ghost placed: seq<char>)
      returns (score: int)
      requires x.mirror == mirror && x.dict == board.dictionary
      requires AllInBounds(rows, cols) && |needed| <= |rows| && |placed| == |needed|
      requires forall j :: 0 <= j < |needed| ==> needed[j] != null && needed[j].EffectiveLetter() == placed[j]
      ensures score == TrialScore(x.mirror, x.dict, rows, cols, placed)
    {
      var copy := CopyBoard(board);
      assert Tiles.EffectiveLetters(needed) == AllSome(placed);
      score := copy.PlaceTilesAndValidate(rows, cols, needed);
    }

    /**
     * The scan of tryWordPlace over the word's squares: a mirror letter must match the
     * word's, and an empty live square takes the first rack tile with the word's letter.
     */
    method CollectTiles(word: string, row: int, col: int, horizontal: bool, board: Boards.Board, ghost x: Context)
      returns (found: bool, newRows: seq<int>, newCols: seq<int>, needed: seq<Tiles.Tile?>, canConnect: bool)
      requires Sees(board, x) && x.Valid()
      ensures var s := ScanWord(x, word, row, col, horizontal, |word|);
              && found == s.ok
              && (found ==> newRows == s.rows && newCols == s.cols && needed == s.needed && canConnect == s.touches)
    {
      newRows, newCols, needed, canConnect := [], [], [], false;
      ghost var slots: seq<nat>, placed: seq<char> := [], [];
      for i := 0 to |word|
        invariant ScanWord(x, word, row, col, horizontal, i) == Scan(true, newRows, newCols, needed, slots, placed, canConnect)
      {
        var ok;
        ok, newRows, newCols, needed, slots, placed, canConnect :=
          ScanSquare(word, row, col, horizontal, board, x, i, newRows, newCols, needed, slots, placed, canConnect);
        if !ok {
          ScanStaysFailed(x, word, row, col, horizontal, i + 1, |word|);
          return false, newRows, newCols, needed, canConnect;
        }
      }
      return true, newRows, newCols, needed, canConnect;
    }

    /** One square of tryWordPlace's scan: the scan of the first i squares extended by square i. */
    method ScanSquare(word: string, row: int, col: int, horizontal: bool, board: Boards.Board, ghost x: Context, i: nat,
                      newRows: seq<int>, newCols: seq<int>, needed: seq<Tiles.Tile?>,
                      ghost slots: seq<nat>, ghost placed: seq<char>, canConnect: bool)
      returns (ok: bool, newRows': seq<int>, newCols': seq<int>, needed': seq<Tiles.Tile?>,
               ghost slots': seq<nat>, ghost placed': seq<char>, canConnect': bool)
      requires Sees(board, x) && x.Valid() && i < |word|
      requires ScanWord(x, word, row, col, horizontal, i) == Scan(true, newRows, newCols, needed, slots, placed, canConnect)
      ensures ScanWord(x, word, row, col, horizontal, i + 1)
              == Scan(ok, newRows', newCols', needed', slots', placed', canConnect')
    {
      ok, newRows', newCols', needed', slots', placed', canConnect' :=
        true, newRows, newCols, needed, slots, placed, canConnect;
      var currentRow := if horizontal then row else row + i;
      var currentCol := if horizontal then col + i else col;
      var position := (currentRow, currentCol);
      assert position == WordPos(row, col, horizontal, i);
      if position in mirror {
        var letter := mirror[position];
        if letter != word[i] {
          ok := false;
        } else {
          canConnect' := true;
        }
      } else if board.GetLetterAt(currentRow, currentCol) == ' ' {
        var tile := FindTile(word[i], x);
        if tile == null {
          ok := false;
        } else {
          ghost var k := Players.SlotOf(x.letters, word[i]);
          needed' := needed + [tile];
          newRows' := newRows + [currentRow];
          newCols' := newCols + [currentCol];
          slots', placed' := slots + [k], placed + [x.letters[k]];
        }
      }
    }

    /** getTile, as the search sees it: the tile in the first rack slot with the letter, if any. */
    method FindTile(letter: char, ghost x: Context) returns (tile: Tiles.Tile?)
      requires RackFull() && x.rack == player.rack[..] && x.letters == SlotLetters()
      ensures tile == null <==> Players.SlotOf(x.letters, letter) == |x.letters|
      ensures tile != null ==> tile == x.rack[Players.SlotOf(x.letters, letter)]
    {
      tile := player.GetTile(letter);
      if tile == null {
        Players.SlotOfIs(x.letters, letter, |x.letters|);
      } else {
        ghost var k :| 0 <= k < player.rack.Length && player.rack[k] == tile && tile.EffectiveLetter() == letter
                       && forall j :: 0 <= j < k ==> player.rack[j] != null && player.rack[j].EffectiveLetter() != letter;
        Players.SlotOfIs(x.letters, letter, k);
      }
    }

    /** tileTochar: each tile's effective letter. */
    static method TileToChar(tiles: seq<Tiles.Tile?>) returns (chars: seq<char>)
      requires forall i :: 0 <= i < |tiles| ==> tiles[i] != null
      ensures |chars| == |tiles| && forall i :: 0 <= i < |tiles| ==> chars[i] == tiles[i].EffectiveLetter()
    {
      chars := [];
      for i := 0 to |tiles|
        invariant |chars| == i && forall j :: 0 <= j < i ==> chars[j] == tiles[j].EffectiveLetter()
      {
        chars := chars + [tiles[i].EffectiveLetter()];
      }
    }

    /**
     * hasNeeded: at most a rackful of tiles, each taken from a different rack slot holding
     * that very tile.
     */
    method HasNeeded(needed: seq<Tiles.Tile?>) returns (has: bool)
      requires RackFull()
      ensures has <==> |needed| <= Players.HandSize && multiset(needed) <= multiset(player.rack[..])
    {
      if |needed| > Players.HandSize {
        return false;
      }
      var temp := player.rack[..];
      ghost var held := multiset(temp);
      for i := 0 to |needed|
        invariant multiset(needed[..i]) <= held
        invariant multiset(temp) == held - multiset(needed[..i])
      {
        TakeStep(needed, held, temp, i);
        if needed[i] !in temp {
          return false;
        }
        temp := RemoveFirst(temp, needed[i]);
      }
      assert needed[..|needed|] == needed;
      return true;
    }

    /** copyBoard: a new board over the same dictionary, holding exactly the mirror's letters. */
    method CopyBoard(ogBoard: Boards.Board) returns (copy: Boards.Board)
      ensures fresh(copy) && fresh(copy.grid) && fresh(copy.letterMult) && fresh(copy.wordMult)
      ensures copy.Valid() && copy.cells == MirrorGrid(mirror)
      ensures copy.lmults == DefaultLetterMults() && copy.wmults == DefaultWordMults()
      ensures copy.recorded == [] && copy.dictionary == ogBoard.dictionary
    {
      var board := mirror;
      copy := new Boards.Board(ogBoard.dictionary);
      EmptyPartialGrid(board);
      var remaining := board.Keys;
      ghost var done: set<Pos> := {};
      while remaining != {}
        invariant done + remaining == board.Keys && done !! remaining
        invariant fresh(copy) && fresh(copy.grid) && fresh(copy.letterMult) && fresh(copy.wordMult)
        invariant copy.Valid() && copy.cells == PartialGrid(board, done)
        invariant copy.lmults == DefaultLetterMults() && copy.wmults == DefaultWordMults()
        invariant copy.recorded == [] && copy.dictionary == ogBoard.dictionary
        decreases |remaining|
      {
        var position :| position in remaining;
        PartialGridStep(board, done, position);
        copy.SetLetterAt(position.0, position.1, board[position]);
        remaining := remaining - {position};
        done := done + {position};
      }
      FullPartialGrid(board);
    }

    /**
     * haveEnoughLetters: every letter of the word can be taken from the available letters,
     * each available letter used at most once.
     */
    static method HaveEnoughLetters(word: string, availableLetters: seq<char>) returns (enough: bool)
      ensures enough <==> Assemblable(word, multiset(availableLetters))
    {
      if |word| > |availableLetters| {
        if Assemblable(word, multiset(availableLetters)) {
          ContainedIsNoLonger(multiset(word), multiset(availableLetters));
        }
        return false;
      }
      var temp := availableLetters;
      for i := 0 to |word|
        invariant multiset(word[..i]) <= multiset(availableLetters)
        invariant multiset(temp) == multiset(availableLetters) - multiset(word[..i])
      {
        TakeStep(word, multiset(availableLetters), temp, i);
        if word[i] !in temp {
          return false;
        }
        temp := RemoveFirst(temp, word[i]);
      }
      assert word[..|word|] == word;
      return true;
    }
  }

  /** The grid holding the mirror's letters on the given squares only. */
  function PartialGrid(m: map<Pos, char>, done: set<Pos>): (g: Grid)
    requires done <= m.Keys
    ensures IsGrid(g)
  {
    seq(Size, r => seq(Size, c => if (r, c) in done then m[(r, c)] else ' '))
  }

  // ---------------------------------------------------------------------
  // Lemmas

  /** boardChanged keeps every anchor an empty on-board square. */
  lemma {:induction false} BoardChangedKeepsAnchorsFree(a: set<Pos>, m: map<Pos, char>, rows: seq<int>, cols: seq<int>,
                                                        letters: seq<char>, n: nat)
    requires n <= |letters| && |letters| <= |rows| && |letters| <= |cols|
    requires AnchorsFree(a, m)
    ensures AnchorsFree(Anchored(a, m, rows, cols, letters, n), Mirrored(m, rows, cols, letters, n))
  {
    if n > 0 {
      BoardChangedKeepsAnchorsFree(a, m, rows, cols, letters, n - 1);
    }
  }

  /** After boardChanged, every placed square holds a letter in the mirror and is no anchor. */
  lemma {:induction false} PlacedSquaresAreTaken(a: set<Pos>, m: map<Pos, char>, rows: seq<int>, cols: seq<int>,
                                                 letters: seq<char>, n: nat)
    requires n <= |letters| && |letters| <= |rows| && |letters| <= |cols|
    ensures forall i :: 0 <= i < n ==>
              Placed(rows, cols, i) in Mirrored(m, rows, cols, letters, n)
              && Placed(rows, cols, i) !in Anchored(a, m, rows, cols, letters, n)
  {
    if n > 0 {
      PlacedSquaresAreTaken(a, m, rows, cols, letters, n - 1);
    }
  }

  /** Every anchor boardChanged adds is an empty on-board neighbour of a placed square. */
  lemma {:induction false} NewAnchorsAreOpenNeighbours(a: set<Pos>, m: map<Pos, char>, rows: seq<int>, cols: seq<int>,
                                                       letters: seq<char>, n: nat)
    requires n <= |letters| && |letters| <= |rows| && |letters| <= |cols|
    ensures forall x :: x in Anchored(a, m, rows, cols, letters, n) && x !in a ==>
              && InBounds(x.0, x.1) && x !in Mirrored(m, rows, cols, letters, n)
              && exists i, d :: 0 <= i < n && 0 <= d < |Directions| && x == Neighbour(Placed(rows, cols, i), d)
  {
    if n > 0 {
      NewAnchorsAreOpenNeighbours(a, m, rows, cols, letters, n - 1);
      var p := Placed(rows, cols, n - 1);
      var mn := Mirrored(m, rows, cols, letters, n);
      forall x | x in Anchored(a, m, rows, cols, letters, n) && x !in a
        ensures InBounds(x.0, x.1) && x !in mn
        ensures exists i, d :: 0 <= i < n && 0 <= d < |Directions| && x == Neighbour(Placed(rows, cols, i), d)
      {
        if x in OpenNeighbours(p, mn, |Directions|) {
          OpenNeighboursAre(p, mn, |Directions|, x);
        }
      }
    }
  }

  lemma {:induction false} OpenNeighboursAre(p: Pos, m: map<Pos, char>, d: nat, x: Pos)
    requires d <= |Directions| && x in OpenNeighbours(p, m, d)
    ensures exists e :: 0 <= e < d && x == Neighbour(p, e)
  {
    if x !in OpenNeighbours(p, m, d - 1) {
      assert x == Neighbour(p, d - 1);
    } else {
      OpenNeighboursAre(p, m, d - 1, x);
    }
  }

  /** The last of the first n placed letters to land on q, or -1 when none did. */
  function LastOn(rows: seq<int>, cols: seq<int>, n: nat, q: Pos): (k: int)
    requires n <= |rows| && n <= |cols|
    ensures -1 <= k < n
    ensures k >= 0 ==> Placed(rows, cols, k) == q && forall j :: k < j < n ==> Placed(rows, cols, j) != q
    ensures k < 0 ==> forall j :: 0 <= j < n ==> Placed(rows, cols, j) != q
  {
    if n == 0 then -1 else if Placed(rows, cols, n - 1) == q then n - 1 else LastOn(rows, cols, n - 1, q)
  }

  /** The mirror after boardChanged: a square holds the last letter placed on it, or its earlier entry. */
  lemma {:induction false} MirroredHoldsLastLetter(m: map<Pos, char>, rows: seq<int>, cols: seq<int>,
                                                   letters: seq<char>, n: nat, q: Pos)
    requires n <= |letters| && |letters| <= |rows| && |letters| <= |cols|
    ensures var k := LastOn(rows, cols, n, q);
            var mn := Mirrored(m, rows, cols, letters, n);
            && (q in mn <==> k >= 0 || q in m)
            && (k >= 0 ==> mn[q] == letters[k])
            && (k < 0 && q in m ==> mn[q] == m[q])
  {
    if n > 0 {
      MirroredHoldsLastLetter(m, rows, cols, letters, n - 1, q);
    }
  }

  lemma EmptyPartialGrid(m: map<Pos, char>)
    ensures PartialGrid(m, {}) == EmptyGrid()
  {
    assert forall r :: 0 <= r < Size ==> PartialGrid(m, {})[r] == EmptyGrid()[r];
  }

  lemma FullPartialGrid(m: map<Pos, char>)
    ensures PartialGrid(m, m.Keys) == MirrorGrid(m)
  {
    assert forall r :: 0 <= r < Size ==> PartialGrid(m, m.Keys)[r] == MirrorGrid(m)[r];
  }

  lemma PartialGridStep(m: map<Pos, char>, done: set<Pos>, p: Pos)
    requires done <= m.Keys && p in m && p !in done
    ensures PartialGrid(m, done + {p}) ==
            if InBounds(p.0, p.1) then SetCell(PartialGrid(m, done), p.0, p.1, m[p]) else PartialGrid(m, done)
  {
    var g, g' := PartialGrid(m, done), PartialGrid(m, done + {p});
    if InBounds(p.0, p.1) {
      var h := SetCell(g, p.0, p.1, m[p]);
      assert forall r :: 0 <= r < Size ==> g'[r] == h[r];
    } else {
      assert forall r :: 0 <= r < Size ==> g'[r] == g[r];
    }
  }

  /** Once the pass over the word has failed, it stays failed. */
  lemma {:induction false} ScanStaysFailed(x: Context, word: string, row: int, col: int, horizontal: bool, m: nat, n: nat)
    requires x.Valid() && m <= n <= |word| && !ScanWord(x, word, row, col, horizontal, m).ok
    ensures !ScanWord(x, word, row, col, horizontal, n).ok
    decreases n
  {
    if n > m {
      ScanStaysFailed(x, word, row, col, horizontal, m, n - 1);
    }
  }

  /**
   * The pass over the first n squares fails exactly when one of them clashes with the
   * mirror or needs a rack tile the rack does not hold.
   */
  lemma {:induction false} ScanFailsIff(x: Context, word: string, row: int, col: int, horizontal: bool, n: nat)
    requires x.Valid() && n <= |word|
    ensures !ScanWord(x, word, row, col, horizontal, n).ok <==>
            Clashes(x.mirror, word, row, col, horizontal, n) || exists i :: 0 <= i < n && Missing(x, word, row, col, horizontal, i)
  {
    if n > 0 {
      ScanFailsIff(x, word, row, col, horizontal, n - 1);
      var i := n - 1;
      var p := WordPos(row, col, horizontal, i);
      if p in x.mirror && x.mirror[p] != word[i] {
        assert Clashes(x.mirror, word, row, col, horizontal, n);
      }
      if Missing(x, word, row, col, horizontal, i) {
        assert exists i :: 0 <= i < n && Missing(x, word, row, col, horizontal, i);
      }
      if Clashes(x.mirror, word, row, col, horizontal, n - 1) {
        assert Clashes(x.mirror, word, row, col, horizontal, n);
      }
    }
  }

  /** A pass over the first n squares that succeeds has seen a mirror letter exactly when one of them holds one. */
  lemma {:induction false} ScanTouches(x: Context, word: string, row: int, col: int, horizontal: bool, n: nat)
    requires x.Valid() && n <= |word| && ScanWord(x, word, row, col, horizontal, n).ok
    ensures ScanWord(x, word, row, col, horizontal, n).touches <==> Touches(x.mirror, row, col, horizontal, n)
  {
    if n > 0 {
      ScanTouches(x, word, row, col, horizontal, n - 1);
      var p := WordPos(row, col, horizontal, n - 1);
      if p in x.mirror {
        assert Touches(x.mirror, row, col, horizontal, n);
      }
      if Touches(x.mirror, row, col, horizontal, n - 1) {
        assert Touches(x.mirror, row, col, horizontal, n);
      }
    }
  }

  /**
   * A pass over the first n squares that succeeds has collected exactly the squares with no
   * mirror letter and no live letter, in order, each with the first rack slot holding the
   * word's letter there.
   */
  lemma {:induction false} ScanCollectsGaps(x: Context, word: string, row: int, col: int, horizontal: bool, n: nat)
    requires x.Valid() && n <= |word| && ScanWord(x, word, row, col, horizontal, n).ok
    ensures var s, gaps := ScanWord(x, word, row, col, horizontal, n), Gaps(row, col, horizontal, x.mirror, x.grid, n);
            && s.slots == Slots(x.letters, word, gaps)
            && s.rows == GapRows(row, col, horizontal, gaps) && s.cols == GapCols(row, col, horizontal, gaps)
  {
    if n > 0 {
      var s0, g0 := ScanWord(x, word, row, col, horizontal, n - 1), Gaps(row, col, horizontal, x.mirror, x.grid, n - 1);
      var s, g := ScanWord(x, word, row, col, horizontal, n), Gaps(row, col, horizontal, x.mirror, x.grid, n);
      assert s0.ok;
      ScanCollectsGaps(x, word, row, col, horizontal, n - 1);
      var p := WordPos(row, col, horizontal, n - 1);
      if p !in x.mirror && LetterAt(x.grid, p) == ' ' {
        var k := Players.SlotOf(x.letters, word[n - 1]);
        assert s.slots == s0.slots + [k] && s.rows == s0.rows + [p.0] && s.cols == s0.cols + [p.1];
        assert g == g0 + [n - 1];
        GapsSnoc(x.letters, word, row, col, horizontal, g0, n - 1);
      } else {
        assert s.slots == s0.slots && s.rows == s0.rows && s.cols == s0.cols;
        assert g == g0;
      }
    }
  }

  /** Position i of the first n is a gap exactly when its square has no mirror letter and no live letter. */
  lemma {:induction false} GapsAre(row: int, col: int, horizontal: bool, mirror: map<Pos, char>, g: Grid, n: nat, i: nat)
    requires IsGrid(g) && i < n
    ensures i in Gaps(row, col, horizontal, mirror, g, n) <==>
            WordPos(row, col, horizontal, i) !in mirror && LetterAt(g, WordPos(row, col, horizontal, i)) == ' '
  {
    var g0 := Gaps(row, col, horizontal, mirror, g, n - 1);
    if i < n - 1 {
      GapsAre(row, col, horizontal, mirror, g, n - 1, i);
      assert n - 1 !in g0;
    }
  }

  lemma GapsSnoc(letters: seq<char>, word: string, row: int, col: int, horizontal: bool, gaps: seq<nat>, i: nat)
    requires i < |word| && forall j :: 0 <= j < |gaps| ==> gaps[j] < |word|
    ensures Slots(letters, word, gaps + [i]) == Slots(letters, word, gaps) + [Players.SlotOf(letters, word[i])]
    ensures GapRows(row, col, horizontal, gaps + [i]) == GapRows(row, col, horizontal, gaps) + [WordPos(row, col, horizontal, i).0]
    ensures GapCols(row, col, horizontal, gaps + [i]) == GapCols(row, col, horizontal, gaps) + [WordPos(row, col, horizontal, i).1]
  {
  }

  /** A square the word must fill from the rack, with no rack slot holding its letter, makes the trial fail. */
  lemma TryFailsOnMissingLetter(x: Context, word: string, row: int, col: int, horizontal: bool, i: nat)
    requires x.Valid() && InBounds(row, col) && Missing(x, word, row, col, horizontal, i)
    ensures Try(x, word, row, col, horizontal) == None
  {
    if Fits(word, row, col, horizontal) {
      ScanFailsIff(x, word, row, col, horizontal, |word|);
    }
  }

  lemma {:induction false} LettersOfRemove(m: map<Pos, char>, p: Pos)
    requires p in m
    ensures LettersOf(m) == LettersOf(m - {p}) + multiset{m[p]}
    decreases |m.Keys|
  {
    var q :| q in m.Keys && LettersOf(m) == LettersOf(m - {q}) + multiset{m[q]};
    if q != p {
      var mq, mp := m - {q}, m - {p};
      assert mq.Keys == m.Keys - {q} && mp.Keys == m.Keys - {p};
      assert p in mq && mq[p] == m[p] && q in mp && mp[q] == m[q];
      LettersOfRemove(mq, p);
      LettersOfRemove(mp, q);
      SwapRemovals(m, p, q);
      var rest := LettersOf(mq - {p});
      assert LettersOf(mp - {q}) == rest;
      MultisetSwap(rest, m[p], m[q]);
    }
  }

  lemma SwapRemovals(m: map<Pos, char>, p: Pos, q: Pos)
    ensures (m - {q}) - {p} == (m - {p}) - {q}
  {
  }

  lemma MultisetSwap(rest: multiset<char>, x: char, y: char)
    ensures rest + multiset{x} + multiset{y} == rest + multiset{y} + multiset{x}
  {
  }

  lemma ContainedIsNoLonger(a: multiset<char>, b: multiset<char>)
    requires a <= b
    ensures |a| <= |b|
  {
    assert b == a + (b - a);
  }

  /**
   * One step of ArrayList.remove over s: when s[i] is still in temp it is taken out, and
   * when it is not, s cannot be drawn from held.
   */
  lemma TakeStep<T>(s: seq<T>, held: multiset<T>, temp: seq<T>, i: nat)
    requires i < |s| && multiset(s[..i]) <= held && multiset(temp) == held - multiset(s[..i])
    ensures s[i] in temp ==> multiset(s[..i + 1]) <= held
                             && multiset(RemoveFirst(temp, s[i])) == held - multiset(s[..i + 1])
    ensures s[i] !in temp ==> !(multiset(s) <= held)
  {
    assert s[..i + 1] == s[..i] + [s[i]];
    if s[i] !in temp {
      assert multiset(temp)[s[i]] == 0;
      assert multiset(s[..i + 1])[s[i]] > held[s[i]];
      assert s == s[..i + 1] + s[i + 1..];
    }
  }

  /** tryWordPlace's own outcomes agree with themselves. */
  lemma TrialsAgree(x: Context)
    requires x.Valid()
    ensures Agrees(Trials(x), x)
  {
  }

  /** Agreeing trial functions give the same outcomes on trials that start on the board. */
  lemma {:induction false} AgreeingOutcomes(trial: Attempt -> Option<PlaceWord>, x: Context, atts: seq<Attempt>)
    requires x.Valid() && Agrees(trial, x) && OnBoard(atts)
    ensures Outcomes(trial, atts) == Outcomes(Trials(x), atts)
    decreases |atts|
  {
    if atts != [] {
      var a := atts[|atts| - 1];
      AgreeingOutcomes(trial, x, atts[..|atts| - 1]);
      assert trial(a) == TryAt(x, a);
    }
  }

  /** One more trial, or none: its outcome is folded into the best so far. */
  lemma {:induction false} TrialStep(trial: Attempt -> Option<PlaceWord>, b: Option<PlaceWord>, done: seq<Attempt>, v: seq<Attempt>,
                  before: Option<PlaceWord>, after: Option<PlaceWord>)
    requires |v| <= 1 && before == BestOf(b, Outcomes(trial, done))
    requires after == if v == [] then before else Keep(before, trial(v[0]))
    ensures after == BestOf(b, Outcomes(trial, done + v))
  {
    if v == [] {
      assert done + v == done;
    } else {
      assert (done + v)[..|done|] == done;
      var os := Outcomes(trial, done);
      assert Outcomes(trial, done + v) == os + [trial(v[0])];
      assert (os + [trial(v[0])])[..|os|] == os;
    }
  }

  /** A run of trials after another: the best so far carries over. */
  lemma {:induction false} RunStep(trial: Attempt -> Option<PlaceWord>, b: Option<PlaceWord>, s: seq<Attempt>, t: seq<Attempt>,
                before: Option<PlaceWord>, after: Option<PlaceWord>)
    requires before == BestOf(b, Outcomes(trial, s)) && after == BestOf(before, Outcomes(trial, t))
    ensures after == BestOf(b, Outcomes(trial, s + t))
  {
    OutcomesAppend(trial, s, t);
    BestOfAppend(b, Outcomes(trial, s), Outcomes(trial, t));
  }

  /** The outcomes of two runs of trials, one after the other. */
  lemma {:induction false} OutcomesAppend(trial: Attempt -> Option<PlaceWord>, s: seq<Attempt>, t: seq<Attempt>)
    ensures Outcomes(trial, s + t) == Outcomes(trial, s) + Outcomes(trial, t)
    decreases |t|
  {
    if t == [] {
      assert s + t == s;
    } else {
      var t', a := t[..|t| - 1], t[|t| - 1];
      assert (s + t)[..|s + t| - 1] == s + t';
      OutcomesAppend(trial, s, t');
      assert Outcomes(trial, s + t) == Outcomes(trial, s + t') + [trial(a)];
    }
  }

  /** The outcomes of one loop followed by those of the next: the best so far carries over. */
  lemma {:induction false} BestOfAppend(b: Option<PlaceWord>, s: seq<Option<PlaceWord>>, t: seq<Option<PlaceWord>>)
    ensures BestOf(b, s + t) == BestOf(BestOf(b, s), t)
    decreases |t|
  {
    if t == [] {
      assert s + t == s;
    } else {
      assert (s + t)[..|s + t| - 1] == s + t[..|t| - 1];
      BestOfAppend(b, s, t[..|t| - 1]);
    }
  }

  /**
   * The outcome of the search: no trial scores more than it, it never loses to the best
   * it started from, and unless it is that starting best it is the outcome of a trial
   * that beats it and every earlier trial (the first of the best-scoring ones).
   */
  lemma {:induction false} BestOfIsFirstMaximum(b: Option<PlaceWord>, os: seq<Option<PlaceWord>>)
    requires ScoreOf(b) >= 0
    ensures var r := BestOf(b, os);
            && ScoreOf(b) <= ScoreOf(r)
            && (forall j :: 0 <= j < |os| ==> ScoreOf(os[j]) <= ScoreOf(r))
            && (r == b || exists j :: 0 <= j < |os| && os[j] == r && ScoreOf(b) < ScoreOf(r)
                                      && forall i :: 0 <= i < j ==> ScoreOf(os[i]) < ScoreOf(r))
    decreases |os|
  {
    if os != [] {
      var init, c := os[..|os| - 1], os[|os| - 1];
      BestOfIsFirstMaximum(b, init);
      var p := BestOf(b, init);
      assert forall i :: 0 <= i < |init| ==> os[i] == init[i];
      if c.Some? && c.value.score > ScoreOf(p) {
        assert BestOf(b, os) == c;
        assert forall i :: 0 <= i < |os| - 1 ==> ScoreOf(os[i]) < ScoreOf(c);
        assert os[|os| - 1] == c;
      } else {
        assert BestOf(b, os) == p;
        assert ScoreOf(c) <= ScoreOf(p);
        if p != b {
          var j :| 0 <= j < |init| && init[j] == p && ScoreOf(b) < ScoreOf(p)
                   && forall i :: 0 <= i < j ==> ScoreOf(init[i]) < ScoreOf(p);
          assert os[j] == p;
          assert forall i :: 0 <= i < j ==> ScoreOf(os[i]) < ScoreOf(p);
        }
      }
    }
  }

  /** findBestWord finds nothing exactly when no trial scores above zero. */
  lemma NoneIffNothingScores(os: seq<Option<PlaceWord>>)
    ensures BestOf(None, os) == None <==> forall j :: 0 <= j < |os| ==> ScoreOf(os[j]) <= 0
  {
    BestOfIsFirstMaximum(None, os);
  }

  /** A trial at one offset starts on the board: the word fits from an in-bounds square. */
  lemma OffsetTrialOnBoard(p: Pos, w: string, k: nat, horizontal: bool)
    requires InBounds(p.0, p.1) && k < |w|
    ensures OnBoard(OffsetTrial(p, w, k, horizontal))
  {
  }

  /** Every offset trial around an on-board anchor starts on the board. */
  lemma {:induction false} OffsetAttemptsOnBoard(p: Pos, w: string, k: nat)
    requires InBounds(p.0, p.1) && k <= |w|
    ensures OnBoard(OffsetAttempts(p, w, k))
  {
    if k > 0 {
      OffsetAttemptsOnBoard(p, w, k - 1);
      OffsetTrialOnBoard(p, w, k - 1, false);
      OffsetTrialOnBoard(p, w, k - 1, true);
    }
  }

  /** Every trial of the word loop around an on-board anchor starts on the board. */
  lemma {:induction false} WordAttemptsOnBoard(p: Pos, ws: seq<string>, firstPlay: bool, n: nat)
    requires InBounds(p.0, p.1) && n <= |ws|
    ensures OnBoard(WordAttempts(p, ws, firstPlay, n))
  {
    if n > 0 {
      WordAttemptsOnBoard(p, ws, firstPlay, n - 1);
      OffsetAttemptsOnBoard(p, ws[n - 1], |ws[n - 1]|);
    }
  }

  /** Every trial of findBestWord starts on the board when every anchor is on it. */
  lemma {:induction false} AttemptsOnBoard(ps: seq<Pos>, ws: seq<string>, firstPlay: bool, n: nat)
    requires n <= |ps| && forall i :: 0 <= i < |ps| ==> InBounds(ps[i].0, ps[i].1)
    ensures OnBoard(Attempts(ps, ws, firstPlay, n))
  {
    if n > 0 {
      AttemptsOnBoard(ps, ws, firstPlay, n - 1);
      WordAttemptsOnBoard(ps[n - 1], ws, firstPlay, |ws|);
    }
  }
}

=== FILE: players.dfy ===
/**
 * A player: a name, a running score, a pass counter and a fixed-size rack of tile
 * slots, where an empty slot is null. Rack operations fill, clear and overwrite slots
 * of the rack array in place.
 */
module Players {
  import Tiles

  /** Number of slots in a fresh rack. */
  const HandSize := 7

  /** Index of the first empty slot, or `|r|` when every slot holds a tile. */
  function FirstNull(r: seq<Tiles.Tile?>): (k: nat)
    ensures k <= |r|
    ensures k < |r| ==> r[k] == null
    ensures forall j :: 0 <= j < k ==> r[j] != null
  {
    if r == [] then 0 else if r[0] == null then 0 else 1 + FirstNull(r[1..])
  }

  /**
   * Index of the first slot holding `t`, or `|r|`: the very tile object for useTile,
   * the letter for getTile.
   */
  function SlotOf<T(==)>(r: seq<T>, t: T): (k: nat)
    ensures k <= |r|
    ensures k < |r| ==> r[k] == t
    ensures forall j :: 0 <= j < k ==> r[j] != t
  {
    if r == [] then 0 else if r[0] == t then 0 else 1 + SlotOf(r[1..], t)
  }

  /** The rack after one used tile is removed: its first slot is nulled; null is skipped. */
  function UseOne(r: seq<Tiles.Tile?>, t: Tiles.Tile?): seq<Tiles.Tile?>
  {
    if t == null then r
    else
      var k := SlotOf(r, t);
      if k < |r| then r[k := null] else r
  }

  /** The rack after all of `ts` are used in order. */
  function UseAll(r: seq<Tiles.Tile?>, ts: seq<Tiles.Tile?>): seq<Tiles.Tile?>
  {
    if ts == [] then r else UseOne(UseAll(r, ts[..|ts| - 1]), ts[|ts| - 1])
  }

  /** The tiles of a rack or list, with multiplicity, ignoring empty slots. */
  function Held(r: seq<Tiles.Tile?>): multiset<Tiles.Tile>
  {
    if r == [] then multiset{}
    else Held(r[..|r| - 1]) + (if r[|r| - 1] == null then multiset{} else multiset{r[|r| - 1]})
  }

  /** The letters of the non-empty slots, in slot order. */
  function Letters(r: seq<Tiles.Tile?>): seq<char>
  {
    if r == [] then []
    else Letters(r[..|r| - 1]) + (if r[|r| - 1] == null then [] else [r[|r| - 1].letter])
  }

  /** What displayAvailableTile builds: each tile's text followed by a space. */
  function Display(r: seq<Tiles.Tile?>): string
  {
    if r == [] then ""
    else Display(r[..|r| - 1]) + (if r[|r| - 1] == null then "" else r[|r| - 1].ToString() + " ")
  }

  /** The slot getTile settles on for `letter`, if the scan finds one before a null slot. */
  ghost predicate ScanSafe(r: seq<Tiles.Tile?>, letter: char)
    reads set i | 0 <= i < |r| && r[i] != null :: r[i]
  {
    forall i :: 0 <= i < |r| && (forall j :: 0 <= j < i ==> r[j] != null && r[j].EffectiveLetter() != letter)
      ==> r[i] != null
  }

  class Player {
    const name: string
    var score: int
    var passCounter: int
    var rack: array<Tiles.Tile?>

    /** A new player: an empty rack of seven slots, score 0, no passes. */
    constructor (name: string)
      ensures this.name == name && score == 0 && passCounter == 0
      ensures fresh(rack) && rack.Length == HandSize
      ensures forall i :: 0 <= i < rack.Length ==> rack[i] == null
    {
      this.name := name;
      score := 0;
      passCounter := 0;
      rack := new Tiles.Tile?[HandSize](_ => null);
    }

    /** setAvailableTile: the tile goes into the lowest empty slot; false when the rack is full. */
    method SetAvailableTile(t: Tiles.Tile?) returns (added: bool)
      modifies rack
      ensures added <==> FirstNull(old(rack[..])) < rack.Length
      ensures rack[..] == if added then old(rack[..])[FirstNull(old(rack[..])) := t] else old(rack[..])
    {
      for i := 0 to rack.Length
        invariant rack[..] == old(rack[..])
        invariant forall j :: 0 <= j < i ==> rack[j] != null
      {
        if rack[i] == null {
          rack[i] := t;
          assert FirstNull(old(rack[..])) == i by {
            FirstNullIs(old(rack[..]), i);
          }
          return true;
        }
      }
      FirstNullIs(old(rack[..]), rack.Length);
      return false;
    }

    /** addTile behaves exactly as setAvailableTile. */
    method AddTile(t: Tiles.Tile?) returns (added: bool)
      modifies rack
      ensures added <==> FirstNull(old(rack[..])) < rack.Length
      ensures rack[..] == if added then old(rack[..])[FirstNull(old(rack[..])) := t] else old(rack[..])
    {
      added := SetAvailableTile(t);
    }

    /** useTile: for every non-null used tile, the first slot holding that object is nulled. */
    method UseTile(tilesToUse: seq<Tiles.Tile?>)
      modifies rack
      ensures rack[..] == UseAll(old(rack[..]), tilesToUse)
    {
      for n := 0 to |tilesToUse|
        invariant rack[..] == UseAll(old(rack[..]), tilesToUse[..n])
      {
        assert tilesToUse[..n + 1][..n] == tilesToUse[..n];
        var tile := tilesToUse[n];
        if tile == null {
          continue;
        }
        ghost var before := rack[..];
        for i := 0 to rack.Length
          invariant rack[..] == before
          invariant forall j :: 0 <= j < i ==> rack[j] != tile
        {
          if rack[i] == tile {
            rack[i] := null;
            SlotOfIs(before, tile, i);
            break;
          }
        }
        if rack[..] == before {
          SlotOfIs(before, tile, rack.Length);
        }
      }
      assert tilesToUse[..|tilesToUse|] == tilesToUse;
    }

    /** setAvailableTileAt: writes slot `index` when it is in range, else nothing. */
    method SetAvailableTileAt(index: int, t: Tiles.Tile?)
      modifies rack
      ensures rack[..] == if 0 <= index < rack.Length then old(rack[..])[index := t] else old(rack[..])
    {
      if 0 <= index < rack.Length {
        rack[index] := t;
      }
    }

    /** replaceTileAt behaves exactly as setAvailableTileAt. */
    method ReplaceTileAt(index: int, t: Tiles.Tile?)
      modifies rack
      ensures rack[..] == if 0 <= index < rack.Length then old(rack[..])[index := t] else old(rack[..])
    {
      SetAvailableTileAt(index, t);
    }

    /** setAvailableTiles: the rack becomes the given array itself. */
    method SetAvailableTiles(tiles: array<Tiles.Tile?>)
      modifies this
      ensures rack == tiles && score == old(score) && passCounter == old(passCounter)
    {
      rack := tiles;
    }

    /**
     * getTile: the first slot whose effective letter is `letter`, or null when none is.
     * The scan dereferences each slot, so no empty slot may come before the match.
     */
    method GetTile(letter: char) returns (t: Tiles.Tile?)
      requires ScanSafe(rack[..], letter)
      ensures t == null ==> forall i :: 0 <= i < rack.Length ==>
                              rack[i] != null && rack[i].EffectiveLetter() != letter
      ensures t != null ==> exists k :: 0 <= k < rack.Length && rack[k] == t
                              && t.EffectiveLetter() == letter
                              && forall j :: 0 <= j < k ==> rack[j] != null && rack[j].EffectiveLetter() != letter
    {
      for i := 0 to rack.Length
        invariant forall j :: 0 <= j < i ==> rack[j] != null && rack[j].EffectiveLetter() != letter
      {
        assert rack[..][i] == rack[i];
        if rack[i].EffectiveLetter() == letter {
          return rack[i];
        }
      }
      return null;
    }

    function GetScore(): int
      reads this
    {
      score
    }

    method AddScore(points: int)
      modifies this
      ensures score == old(score) + points
      ensures passCounter == old(passCounter) && rack == old(rack)
    {
      score := score + points;
    }

    method SetScore(points: int)
      modifies this
      ensures score == points
      ensures passCounter == old(passCounter) && rack == old(rack)
    {
      score := points;
    }

    function GetPassCounter(): int
      reads this
    {
      passCounter
    }

    method AddToPassCounter()
      modifies this
      ensures passCounter == old(passCounter) + 1
      ensures score == old(score) && rack == old(rack)
    {
      passCounter := passCounter + 1;
    }

    method ResetPassCounter()
      modifies this
      ensures passCounter == 0
      ensures score == old(score) && rack == old(rack)
    {
      passCounter := 0;
    }

    /** displayAvailableTile: the rack's letters, each followed by one space. */
    method DisplayAvailableTile() returns (s: string)
      ensures s == Display(rack[..])
    {
      s := "";
      for i := 0 to rack.Length
        invariant s == Display(rack[..i])
      {
        assert rack[..i + 1][..i] == rack[..i];
        if rack[i] == null {
          continue;
        }
        s := s + rack[i].ToString();
        s := s + " ";
      }
      assert rack[..rack.Length] == rack[..];
    }
  }

  // ---------------------------------------------------------------------
  // Properties of the rack operations

  lemma {:induction false} FirstNullIs(r: seq<Tiles.Tile?>, k: nat)
    requires k <= |r|
    requires forall j :: 0 <= j < k ==> r[j] != null
    requires k < |r| ==> r[k] == null
    ensures FirstNull(r) == k
  {
  }

  lemma SlotOfIs<T>(r: seq<T>, t: T, k: nat)
    requires k <= |r|
    requires forall j :: 0 <= j < k ==> r[j] != t
    requires k < |r| ==> r[k] == t
    ensures SlotOf(r, t) == k
  {
  }

  /** Using a tile removes exactly that one object from what the rack holds, if it was there. */
  lemma {:induction false} HeldAfterUseOne(r: seq<Tiles.Tile?>, t: Tiles.Tile)
    ensures |UseOne(r, t)| == |r|
    ensures Held(UseOne(r, t)) == Held(r) - multiset{t}
    ensures forall i :: 0 <= i < |r| ==> UseOne(r, t)[i] == r[i] || (r[i] == t && UseOne(r, t)[i] == null)
  {
    var k := SlotOf(r, t);
    if k < |r| {
      HeldUpdate(r, k, null);
      HeldContains(r, k);
      var a, b := Held(r[k := null]), Held(r);
      assert a + multiset{t} == b;
      assert a == b - multiset{t};
    } else {
      HeldMembers(r, t);
    }
  }

  lemma {:induction false} HeldUpdate(r: seq<Tiles.Tile?>, k: nat, x: Tiles.Tile?)
    requires k < |r|
    ensures Held(r[k := x]) + (if r[k] == null then multiset{} else multiset{r[k]})
         == Held(r) + (if x == null then multiset{} else multiset{x})
    decreases |r|
  {
    var n := |r| - 1;
    var s, y := r[..n], r[n];
    assert r == s + [y];
    if k < n {
      HeldUpdate(s, k, x);
      HeldUpdateEarlier(s, y, k, x);
    } else {
      HeldUpdateLast(s, y, x);
    }
  }

  lemma HeldUpdateEarlier(s: seq<Tiles.Tile?>, y: Tiles.Tile?, k: nat, x: Tiles.Tile?)
    requires k < |s|
    requires Held(s[k := x]) + (if s[k] == null then multiset{} else multiset{s[k]})
          == Held(s) + (if x == null then multiset{} else multiset{x})
    ensures Held((s + [y])[k := x]) + (if s[k] == null then multiset{} else multiset{s[k]})
         == Held(s + [y]) + (if x == null then multiset{} else multiset{x})
  {
    assert (s + [y])[k := x] == s[k := x] + [y];
    HeldAppend(s, y);
    HeldAppend(s[k := x], y);
    AddBoth(Held(s[k := x]), Held(s), if y == null then multiset{} else multiset{y},
            if s[k] == null then multiset{} else multiset{s[k]}, if x == null then multiset{} else multiset{x});
  }

  lemma HeldUpdateLast(s: seq<Tiles.Tile?>, y: Tiles.Tile?, x: Tiles.Tile?)
    ensures Held((s + [y])[|s| := x]) + (if y == null then multiset{} else multiset{y})
         == Held(s + [y]) + (if x == null then multiset{} else multiset{x})
  {
    assert (s + [y])[|s| := x] == s + [x];
    HeldAppend(s, y);
    HeldAppend(s, x);
  }

  lemma HeldAppend(s: seq<Tiles.Tile?>, y: Tiles.Tile?)
    ensures Held(s + [y]) == Held(s) + (if y == null then multiset{} else multiset{y})
  {
    assert (s + [y])[..|s|] == s;
  }

  lemma AddBoth(a: multiset<Tiles.Tile>, b: multiset<Tiles.Tile>, e: multiset<Tiles.Tile>,
                c: multiset<Tiles.Tile>, d: multiset<Tiles.Tile>)
    requires a + c == b + d
    ensures a + e + c == b + e + d
  {
    calc {
      a + e + c;
      (a + c) + e;
      (b + d) + e;
      b + e + d;
    }
  }

  lemma {:induction false} HeldContains(r: seq<Tiles.Tile?>, k: nat)
    requires k < |r| && r[k] != null
    ensures r[k] in Held(r)
    decreases |r|
  {
    if k < |r| - 1 {
      HeldContains(r[..|r| - 1], k);
    }
  }

  lemma {:induction false} HeldMembers(r: seq<Tiles.Tile?>, t: Tiles.Tile)
    requires forall j :: 0 <= j < |r| ==> r[j] != t
    ensures t !in Held(r)
    decreases |r|
  {
    if r != [] {
      HeldMembers(r[..|r| - 1], t);
    }
  }

  /**
   * useTile removes from the rack exactly the used tiles it holds (as a multiset
   * difference), keeps the rack length, and never puts a tile into a slot.
   */
  lemma {:induction false} UseAllRemovesUsed(r: seq<Tiles.Tile?>, ts: seq<Tiles.Tile?>)
    ensures |UseAll(r, ts)| == |r|
    ensures Held(UseAll(r, ts)) == Held(r) - Held(ts)
    ensures forall i :: 0 <= i < |r| ==> UseAll(r, ts)[i] == r[i] || UseAll(r, ts)[i] == null
    decreases |ts|
  {
    if ts != [] {
      var ts' := ts[..|ts| - 1];
      var t := ts[|ts| - 1];
      UseAllRemovesUsed(r, ts');
      if t != null {
        HeldAfterUseOne(UseAll(r, ts'), t);
      }
    }
  }

  /** setAvailableTile on a rack with an empty slot adds exactly the new tile. */
  lemma AddToFirstNullHolds(r: seq<Tiles.Tile?>, t: Tiles.Tile)
    requires FirstNull(r) < |r|
    ensures Held(r[FirstNull(r) := t]) == Held(r) + multiset{t}
  {
    HeldUpdate(r, FirstNull(r), t);
  }

  /** The display lists the rack's letters in slot order, each followed by a space. */
  lemma {:induction false} DisplayLayout(r: seq<Tiles.Tile?>)
    ensures |Display(r)| == 2 * |Letters(r)|
    ensures forall k :: 0 <= k < |Letters(r)| ==> Display(r)[2 * k] == Letters(r)[k] && Display(r)[2 * k + 1] == ' '
    decreases |r|
  {
    if r != [] {
      DisplayLayout(r[..|r| - 1]);
    }
  }
}

=== FILE: scoring.dfy ===
/**
 * Letter values and the multi-word score of `Scoring`.
 * `LetterValue` is the static table lookup; `CalculateWordScore` is the
 * loop that walks every letter of every word with one running multiplier index.
 */
module Scoring {

  /** Character.toUpperCase restricted to the characters whose upper case is in A-Z. */
  function ToUpper(c: char): (u: char)
    ensures 'a' <= c <= 'z' ==> u as int == c as int - 32
    ensures !('a' <= c <= 'z') && c != '\U{131}' && c != '\U{17F}' ==> u == c
  {
    if 'a' <= c <= 'z' then (c as int - 32) as char
    else if c == '\U{131}' then 'I'      // dotless i
    else if c == '\U{17F}' then 'S'      // long s
    else c
  }

  /** The upper-casing of a whole string, character by character. */
  function UpperString(s: string): (u: string)
    ensures |u| == |s|
    ensures forall k :: 0 <= k < |s| ==> u[k] == ToUpper(s[k])
  {
    seq(|s|, k requires 0 <= k < |s| => ToUpper(s[k]))
  }

  predicate IsUpperLetter(c: char) { 'A' <= c <= 'Z' }

  /** The point table of the game, one entry per upper-case letter. */
  const LetterValues: map<char, nat> :=
    map['A' := 1, 'B' := 3, 'C' := 3, 'D' := 2, 'E' := 1, 'F' := 4, 'G' := 2,
        'H' := 4, 'I' := 1, 'J' := 8, 'K' := 5, 'L' := 1, 'M' := 3, 'N' := 1,
        'O' := 1, 'P' := 3, 'Q' := 10, 'R' := 1, 'S' := 1, 'T' := 1, 'U' := 1,
        'V' := 4, 'W' := 4, 'X' := 8, 'Y' := 4, 'Z' := 10]

  /** getLetterValue: the table value of the upper-cased letter, 0 when it has none. */
  function LetterValue(c: char): (v: nat)
  {
    var u := ToUpper(c);
    if u in LetterValues then LetterValues[u] else 0
  }

  /** Every letter value lies in 0..10, and it is positive exactly for letters A-Z (in either case). */
  lemma LetterValueRange(c: char)
    ensures LetterValue(c) <= 10
    ensures LetterValue(c) > 0 <==> IsUpperLetter(ToUpper(c))
  {
    var u := ToUpper(c);
    assert u in LetterValues <==> IsUpperLetter(u) by {
      if IsUpperLetter(u) {
        assert u in {'A', 'B', 'C', 'D', 'E', 'F', 'G', 'H', 'I', 'J', 'K', 'L', 'M',
                     'N', 'O', 'P', 'Q', 'R', 'S', 'T', 'U', 'V', 'W', 'X', 'Y', 'Z'};
      }
    }
  }

  /** The blank square and every other non-letter are worth nothing. */
  lemma NonLetterIsWorthless(c: char)
    requires !IsUpperLetter(ToUpper(c))
    ensures LetterValue(c) == 0
  {
    LetterValueRange(c);
  }

  /** The multiplier used for the k-th letter overall: letterMultiplier[k], or 1 past its end. */
  function MultiplierAt(mults: seq<int>, k: nat): int
  {
    if k < |mults| then mults[k] else 1
  }

  /** All words' letters in order, as the running index visits them. */
  function Flatten(words: seq<string>): (s: string)
  {
    if words == [] then [] else Flatten(words[..|words| - 1]) + words[|words| - 1]
  }

  /** Score of `s` when its first letter is the `offset`-th letter overall. */
  function ScoreFrom(s: string, mults: seq<int>, offset: nat): int
  {
    if s == [] then 0
    else ScoreFrom(s[..|s| - 1], mults, offset)
         + LetterValue(s[|s| - 1]) * MultiplierAt(mults, offset + |s| - 1)
  }

  /** What calculateWordScore computes: the score of all letters of all words with one running index. */
  function WordsScore(words: seq<string>, mults: seq<int>): int
  {
    ScoreFrom(Flatten(words), mults, 0)
  }

  /** Plain sum of letter values. */
  function PlainSum(s: string): int
  {
    if s == [] then 0 else PlainSum(s[..|s| - 1]) + LetterValue(s[|s| - 1])
  }

  method CalculateWordScore(words: seq<string>, letterMultiplier: seq<int>) returns (score: int)
    ensures score == WordsScore(words, letterMultiplier)
  {
    score := 0;
    var i := 0;
    for w := 0 to |words|
      invariant i == |Flatten(words[..w])|
      invariant score == ScoreFrom(Flatten(words[..w]), letterMultiplier, 0)
    {
      assert Flatten(words[..w + 1]) == Flatten(words[..w]) + words[w] by {
        assert words[..w + 1][..w] == words[..w];
      }
      ScoreFromAppend(Flatten(words[..w]), words[w], letterMultiplier, 0);
      i, score := ScoreLetters(words[w], letterMultiplier, i, score);
    }
    assert words[..|words|] == words;
  }

  /** The inner loop of calculateWordScore: one word's letters, the running index starting at i. */
  method ScoreLetters(word: string, letterMultiplier: seq<int>, i: nat, score: int) returns (i': nat, score': int)
    ensures i' == i + |word|
    ensures score' == score + ScoreFrom(word, letterMultiplier, i)
  {
    i', score' := i, score;
    for j := 0 to |word|
      invariant i' == i + j
      invariant score' == score + ScoreFrom(word[..j], letterMultiplier, i)
    {
      var multiplier := if i' < |letterMultiplier| then letterMultiplier[i'] else 1;
      score' := score' + LetterValue(word[j]) * multiplier;
      i' := i' + 1;
      assert word[..j + 1][..j] == word[..j];
    }
    assert word[..|word|] == word;
  }

  /** Score of a concatenation: the second part's letters continue the running index. */
  lemma {:induction false} ScoreFromAppend(a: string, b: string, mults: seq<int>, offset: nat)
    ensures ScoreFrom(a + b, mults, offset) == ScoreFrom(a, mults, offset) + ScoreFrom(b, mults, offset + |a|)
    decreases |b|
  {
    if b == [] {
      assert a + b == a;
    } else {
      var b' := b[..|b| - 1];
      assert (a + b)[..|a + b| - 1] == a + b';
      ScoreFromAppend(a, b', mults, offset);
    }
  }

  /**
   * The multiplier index runs across word boundaries: a word appended to the list is
   * scored with the multipliers that follow all letters of the earlier words.
   */
  lemma AppendedWordContinuesIndex(words: seq<string>, w: string, mults: seq<int>)
    ensures WordsScore(words + [w], mults)
         == WordsScore(words, mults) + ScoreFrom(w, mults, |Flatten(words)|)
  {
    assert (words + [w])[..|words|] == words;
    ScoreFromAppend(Flatten(words), w, mults, 0);
  }

  /** With no multipliers at all, the score is the plain sum of letter values. */
  lemma {:induction false} NoMultipliersIsPlainSum(s: string, offset: nat)
    ensures ScoreFrom(s, [], offset) == PlainSum(s)
    decreases |s|
  {
    if s != [] {
      NoMultipliersIsPlainSum(s[..|s| - 1], offset);
    }
  }

  /** An empty word list scores 0. */
  lemma EmptyListScoresZero(mults: seq<int>)
    ensures WordsScore([], mults) == 0
  {
  }

  /** With non-negative multipliers no score is negative. */
  lemma {:induction false} ScoreFromNonNegative(s: string, mults: seq<int>, offset: nat)
    requires forall k :: 0 <= k < |mults| ==> mults[k] >= 0
    ensures ScoreFrom(s, mults, offset) >= 0
    decreases |s|
  {
    if s != [] {
      ScoreFromNonNegative(s[..|s| - 1], mults, offset);
    }
  }
}

=== FILE: tilebags.dfy ===
/**
 * The bag of undrawn tiles: a count per distinct tile object, drawn from with a
 * weighted pick and refilled by returns. The HashMap of TileBag.java is kept as a
 * sequence of entries in one fixed iteration order; keys compare by identity.
 */
module TileBags {
  import Tiles

  /** One key of the count map with its count. */
  datatype Entry = Entry(tile: Tiles.Tile?, count: int)

  /** The number of each letter in a fresh bag, aligned with `Tiles.TableLetters`. */
  const BagCounts: seq<int> :=
    [10, 2, 2, 4, 12, 2, 3, 2, 9, 1, 1, 4, 2, 6, 8, 2, 1, 7, 4, 6, 4, 2, 2, 1, 2, 1]

  /** The number of blanks in a fresh bag. */
  const BlankCount := 2

  /** Sum of the counts. */
  function Total(es: seq<Entry>): int
  {
    if es == [] then 0 else Total(es[..|es| - 1]) + es[|es| - 1].count
  }

  /** Sum of a plain list of counts. */
  function Sum(xs: seq<int>): int
  {
    if xs == [] then 0 else Sum(xs[..|xs| - 1]) + xs[|xs| - 1]
  }

  /** No key twice and every count positive: what the map operations maintain. */
  ghost predicate WellFormed(es: seq<Entry>) {
    && (forall i, j :: 0 <= i < j < |es| ==> es[i].tile != es[j].tile)
    && (forall i :: 0 <= i < |es| ==> es[i].count >= 1)
  }

  /** Position of the key `t`, or `|es|` when it is absent. */
  function Find(es: seq<Entry>, t: Tiles.Tile?): (k: nat)
    ensures k <= |es|
    ensures k < |es| ==> es[k].tile == t
    ensures forall j :: 0 <= j < k ==> es[j].tile != t
  {
    if es == [] then 0
    else if es[0].tile == t then 0
    else 1 + Find(es[1..], t)
  }

  /** No entry has the null key: true of a fresh bag, and kept by every pick. */
  predicate NoNullKey(es: seq<Entry>) {
    forall i :: 0 <= i < |es| ==> es[i].tile != null
  }

  /** The counts after one tile of entry `k` is taken: decremented, or the entry removed at 1. */
  function Taken(es: seq<Entry>, k: nat): seq<Entry>
    requires k < |es|
  {
    if es[k].count > 1 then es[k := Entry(es[k].tile, es[k].count - 1)]
    else es[..k] + es[k + 1..]
  }

  /** The counts after `t` is returned: incremented, or a new entry with count 1. */
  function Returned(es: seq<Entry>, t: Tiles.Tile?): seq<Entry>
  {
    var k := Find(es, t);
    if k < |es| then es[k := Entry(t, es[k].count + 1)] else es + [Entry(t, 1)]
  }

  /** A tile as a multiset: itself once, or nothing for null. */
  ghost function One(t: Tiles.Tile?): multiset<Tiles.Tile>
  {
    if t == null then multiset{} else multiset{t}
  }

  /** The tiles one entry stands for: its key as many times as its count, none for a null key. */
  ghost function Copies(e: Entry): multiset<Tiles.Tile>
  {
    if e.tile == null || e.count <= 0 then multiset{}
    else var t: Tiles.Tile := e.tile; multiset{}[t := e.count]
  }

  /** The tiles in the bag, each key as often as its count says. */
  ghost function Contents(es: seq<Entry>): multiset<Tiles.Tile>
  {
    if es == [] then multiset{} else Contents(es[..|es| - 1]) + Copies(es[|es| - 1])
  }

  /** Every blank key is the shared blank tile, so a drawn blank is the very key that lost one. */
  predicate SharedBlanks(es: seq<Entry>, blank: Tiles.Tile)
  {
    forall i :: 0 <= i < |es| && es[i].tile != null && es[i].tile.isBlank ==> es[i].tile == blank
  }

  class TileBag {
    var entries: seq<Entry>
    /** The shared BLANK_TILE that every drawn blank is replaced by. */
    const blankTile: Tiles.Tile

    ghost predicate Valid()
      reads this
    {
      WellFormed(entries)
    }

    /** A fresh bag: the 26 table tiles with their counts, then the shared blank twice. */
    constructor (table: Tiles.TileTable, blank: Tiles.Tile)
      requires table.Valid() && blank.isBlank
      ensures Valid() && blankTile == blank
      ensures |entries| == 27
      ensures forall k :: 0 <= k < 26 ==>
                entries[k] == Entry(table.GetTile(Tiles.TableLetters[k]), BagCounts[k])
      ensures entries[26] == Entry(blank, BlankCount)
      ensures Total(entries) == 102
      ensures SharedBlanks(entries, blankTile)
    {
      blankTile := blank;
      var letters := seq(26, k requires 0 <= k < 26 =>
                           Entry(table.GetTile(Tiles.TableLetters[k]), BagCounts[k]));
      entries := letters + [Entry(blank, BlankCount)];
      new;
      FreshBagWellFormed(table, blank, entries);
      FreshBagTotal(entries);
    }

    /** size: the running sum over all entries. */
    method Size() returns (total: int)
      ensures total == Total(entries)
    {
      total := 0;
      for i := 0 to |entries|
        invariant total == Total(entries[..i])
      {
        total := total + entries[i].count;
        assert entries[..i + 1][..i] == entries[..i];
      }
      assert entries[..|entries|] == entries;
    }

    /**
     * pickFromBag with the random number `r` as a parameter. An empty bag yields null.
     * Otherwise the chosen entry is the first whose running count exceeds `r`; its count
     * drops by one (the entry goes at 1), and a blank comes back as the shared blank tile.
     * A null key is picked but, as in TileBag.java, not decremented.
     */
    method PickFromBag(r: int) returns (picked: Tiles.Tile?)
      requires Valid()
      requires entries != [] ==> 0 <= r < Total(entries)
      modifies this
      ensures Valid()
      ensures old(entries) == [] ==> picked == null && entries == []
      ensures old(entries) != [] ==>
        exists k :: 0 <= k < |old(entries)|
          && Total(old(entries)[..k]) <= r < Total(old(entries)[..k + 1])
          && var t := old(entries)[k].tile;
             && picked == (if t != null && t.isBlank then blankTile else t)
             && entries == (if t != null then Taken(old(entries), k) else old(entries))
      ensures Total(entries) == old(Total(entries)) - (if picked != null then 1 else 0)
      ensures NoNullKey(old(entries)) ==> NoNullKey(entries) && (old(entries) != [] ==> picked != null)
      ensures SharedBlanks(old(entries), blankTile) ==>
                SharedBlanks(entries, blankTile) && Contents(entries) + One(picked) == Contents(old(entries))
    {
      if entries == [] {
        return null;
      }
      var k := FindPick(r);
      var t := entries[k].tile;
      ghost var before := entries;
      ghost var shared := SharedBlanks(before, blankTile);
      if t != null {
        TakeAt(k);
        ContentsTaken(before, k);
        if shared {
          TakenKeepsSharedBlanks(before, blankTile, k);
        }
      }
      picked := if t != null && t.isBlank then blankTile else t;
      assert shared ==> picked == t;
    }

    /** The scan of pickFromBag: the first entry whose running count exceeds `r`. */
    method FindPick(r: int) returns (k: nat)
      requires entries != [] && 0 <= r < Total(entries)
      ensures k < |entries| && Total(entries[..k]) <= r < Total(entries[..k + 1])
    {
      var randomNumber := r;
      k := 0;
      while k < |entries|
        invariant 0 <= k <= |entries|
        invariant randomNumber == r - Total(entries[..k]) && Total(entries[..k]) <= r
      {
        assert entries[..k + 1][..k] == entries[..k];
        randomNumber := randomNumber - entries[k].count;
        if randomNumber < 0 {
          break;
        }
        k := k + 1;
      }
      assert entries[..|entries|] == entries;
    }

    /** The decrement of pickFromBag: one tile of entry `k` leaves the bag. */
    method TakeAt(k: nat)
      requires Valid() && k < |entries| && entries[k].tile != null
      modifies this
      ensures Valid() && entries == Taken(old(entries), k)
      ensures Total(entries) == old(Total(entries)) - 1
      ensures NoNullKey(old(entries)) ==> NoNullKey(entries)
    {
      ghost var before := entries;
      TakenKeepsWellFormed(entries, k);
      if NoNullKey(entries) {
        TakenKeepsNoNullKey(entries, k);
      }
      TotalTaken(entries, k);
      var t := entries[k].tile;
      if entries[k].count > 1 {
        entries := entries[k := Entry(t, entries[k].count - 1)];
      } else {
        entries := entries[..k] + entries[k + 1..];
      }
      assert entries == Taken(before, k);
    }

    /** returnTileToBag: one more of `t`, a new entry when it was absent. */
    method ReturnTileToBag(t: Tiles.Tile?)
      requires Valid()
      modifies this
      ensures Valid()
      ensures entries == Returned(old(entries), t)
      ensures Total(entries) == old(Total(entries)) + 1
      ensures Contents(entries) == old(Contents(entries)) + One(t)
      ensures SharedBlanks(old(entries), blankTile) && (t != null && t.isBlank ==> t == blankTile) ==>
                SharedBlanks(entries, blankTile)
    {
      ContentsReturned(entries, t);
      if SharedBlanks(entries, blankTile) && (t != null && t.isBlank ==> t == blankTile) {
        ReturnedKeepsSharedBlanks(entries, blankTile, t);
      }
      ReturnedKeepsWellFormed(entries, t);
      TotalReturned(entries, t);
      var k := Find(entries, t);
      if k < |entries| {
        entries := entries[k := Entry(t, entries[k].count + 1)];
      } else {
        entries := entries + [Entry(t, 1)];
      }
    }

    /**
     * toString: the header, the empty note when there are no entries, then every tile's
     * letter repeated by its count, sorted and joined with ", ". A null key has no letter.
     */
    method ToString() returns (s: string)
      requires Valid()
      requires forall i :: 0 <= i < |entries| ==> entries[i].tile != null
      ensures s == Header + (if entries == [] then EmptyNote else "") + Join(SortLetters(Expand(entries)))
    {
      s := Header;
      if entries == [] {
        s := s + EmptyNote;
      }
      var letters: seq<char> := [];
      for i := 0 to |entries|
        invariant letters == Expand(entries[..i])
      {
        var letter := entries[i].tile.ToString();
        ghost var before := letters;
        for j := 1 to entries[i].count + 1
          invariant letters == before + Repeat(letter[0], j - 1)
        {
          letters := letters + letter;
          assert Repeat(letter[0], j) == Repeat(letter[0], j - 1) + [letter[0]];
        }
        assert entries[..i + 1][..i] == entries[..i];
        assert letters == Expand(entries[..i + 1]);
      }
      assert entries[..|entries|] == entries;
      s := s + Join(SortLetters(letters));
    }
  }

  const Header: string := "TileBag: \n"
  const EmptyNote: string := "No tiles in this bag\n"

  function Repeat(c: char, n: int): (s: seq<char>)
    ensures |s| == if n < 0 then 0 else n
    ensures forall k :: 0 <= k < |s| ==> s[k] == c
  {
    if n <= 0 then [] else Repeat(c, n - 1) + [c]
  }

  /** Every key's letter, as many times as its count, in iteration order. */
  function Expand(es: seq<Entry>): seq<char>
    requires forall i :: 0 <= i < |es| ==> es[i].tile != null
  {
    if es == [] then []
    else Expand(es[..|es| - 1]) + Repeat(es[|es| - 1].tile.letter, es[|es| - 1].count)
  }

  predicate Sorted(s: seq<char>) {
    forall i, j :: 0 <= i < j < |s| ==> s[i] <= s[j]
  }

  /** Insert `c` into a sorted list before the first larger element. */
  function Insert(c: char, s: seq<char>): seq<char>
  {
    if s == [] then [c] else if c <= s[0] then [c] + s else [s[0]] + Insert(c, s[1..])
  }

  /** The list sort applied to one-character strings: sorted by character. */
  function SortLetters(s: seq<char>): seq<char>
  {
    if s == [] then [] else Insert(s[|s| - 1], SortLetters(s[..|s| - 1]))
  }

  /** The one-character strings joined with ", ". */
  function Join(s: seq<char>): string
  {
    if |s| <= 1 then s else Join(s[..|s| - 1]) + ", " + [s[|s| - 1]]
  }

  // ---------------------------------------------------------------------
  // Properties of the bag operations

  lemma {:induction false} TotalConcat(a: seq<Entry>, b: seq<Entry>)
    ensures Total(a + b) == Total(a) + Total(b)
    decreases |b|
  {
    if b == [] {
      assert a + b == a;
    } else {
      assert (a + b)[..|a + b| - 1] == a + b[..|b| - 1];
      TotalConcat(a, b[..|b| - 1]);
    }
  }

  lemma {:induction false} ContentsConcat(a: seq<Entry>, b: seq<Entry>)
    ensures Contents(a + b) == Contents(a) + Contents(b)
    decreases |b|
  {
    if b == [] {
      assert a + b == a;
    } else {
      assert (a + b)[..|a + b| - 1] == a + b[..|b| - 1];
      ContentsConcat(a, b[..|b| - 1]);
    }
  }

  /** Contents over the three parts around entry `k`. */
  lemma ContentsAround(es: seq<Entry>, k: nat)
    requires k < |es|
    ensures Contents(es) == Contents(es[..k]) + Copies(es[k]) + Contents(es[k + 1..])
  {
    var a := es[..k + 1];
    assert es == a + es[k + 1..];
    ContentsConcat(a, es[k + 1..]);
    assert a[..|a| - 1] == es[..k];
  }

  /** One more of a key is one more copy of it. */
  lemma CopiesStep(t: Tiles.Tile, n: int)
    requires n >= 1
    ensures Copies(Entry(t, n)) == Copies(Entry(t, n - 1)) + multiset{t}
  {
    var m: multiset<Tiles.Tile> := multiset{};
    if n == 1 {
      assert m[t := 1] == multiset{t};
    } else {
      assert m[t := n] == m[t := n - 1] + multiset{t};
    }
  }

  /** Adding `y` after the middle part is adding it to the middle part. */
  lemma Regroup(p: multiset<Tiles.Tile>, x: multiset<Tiles.Tile>, q: multiset<Tiles.Tile>, y: multiset<Tiles.Tile>)
    ensures p + x + q + y == p + (x + y) + q
  {
  }

  /** Taking one of a non-null key removes exactly one copy of it from the bag. */
  lemma ContentsTaken(es: seq<Entry>, k: nat)
    requires WellFormed(es) && k < |es| && es[k].tile != null
    ensures Contents(Taken(es, k)) + One(es[k].tile) == Contents(es)
  {
    if es[k].count > 1 {
      ContentsDecremented(es, k);
    } else {
      ContentsDropped(es, k);
    }
  }

  /** One fewer of the key at `k` is one copy fewer of it. */
  lemma ContentsDecremented(es: seq<Entry>, k: nat)
    requires k < |es| && es[k].tile != null && es[k].count > 1
    ensures Contents(es[k := Entry(es[k].tile, es[k].count - 1)]) + One(es[k].tile) == Contents(es)
  {
    var e, t := es[k], es[k].tile;
    var e' := Entry(t, e.count - 1);
    var es' := es[k := e'];
    var p, q := Contents(es[..k]), Contents(es[k + 1..]);
    ContentsAround(es, k);
    ContentsAround(es', k);
    assert es'[..k] == es[..k] && es'[k + 1..] == es[k + 1..];
    assert Contents(es') == p + Copies(e') + q;
    CopiesStep(t, e.count);
    Regroup(p, Copies(e'), q, multiset{t});
  }

  /** Dropping an entry of count 1 is one copy fewer of its key. */
  lemma ContentsDropped(es: seq<Entry>, k: nat)
    requires k < |es| && es[k].tile != null && es[k].count == 1
    ensures Contents(es[..k] + es[k + 1..]) + One(es[k].tile) == Contents(es)
  {
    var t := es[k].tile;
    var p, q := Contents(es[..k]), Contents(es[k + 1..]);
    ContentsAround(es, k);
    ContentsConcat(es[..k], es[k + 1..]);
    CopiesStep(t, 1);
    assert es[k] == Entry(t, 1);
    Regroup(p, multiset{}, q, multiset{t});
    assert p + multiset{} + q == p + q;
  }

  /** Returning `t` adds exactly one copy of it to the bag. */
  lemma ContentsReturned(es: seq<Entry>, t: Tiles.Tile?)
    requires WellFormed(es)
    ensures Contents(Returned(es, t)) == Contents(es) + One(t)
  {
    var k := Find(es, t);
    if k < |es| {
      assert Returned(es, t) == es[k := Entry(t, es[k].count + 1)];
      ContentsIncremented(es, k);
    } else {
      assert Returned(es, t) == es + [Entry(t, 1)];
      ContentsAppended(es, t);
    }
  }

  /** A new entry with count 1 is one copy of its key. */
  lemma ContentsAppended(es: seq<Entry>, t: Tiles.Tile?)
    ensures Contents(es + [Entry(t, 1)]) == Contents(es) + One(t)
  {
    var es' := es + [Entry(t, 1)];
    assert es'[..|es'| - 1] == es;
    if t != null {
      CopiesStep(t, 1);
    }
  }

  /** One more of the key at `k` is one more copy of it. */
  lemma ContentsIncremented(es: seq<Entry>, k: nat)
    requires k < |es| && es[k].count >= 1
    ensures Contents(es[k := Entry(es[k].tile, es[k].count + 1)]) == Contents(es) + One(es[k].tile)
  {
    var t := es[k].tile;
    var e := Entry(t, es[k].count + 1);
    var es' := es[k := e];
    var p, q := Contents(es[..k]), Contents(es[k + 1..]);
    ContentsAround(es, k);
    ContentsAround(es', k);
    assert es'[..k] == es[..k] && es'[k + 1..] == es[k + 1..];
    assert Contents(es') == p + Copies(e) + q;
    if t != null {
      CopiesStep(t, es[k].count + 1);
      assert es[k] == Entry(t, es[k].count);
      Regroup(p, Copies(es[k]), q, multiset{t});
    }
  }

  /** Returning a key that is not a blank of its own keeps every blank key the shared blank. */
  lemma ReturnedKeepsSharedBlanks(es: seq<Entry>, blank: Tiles.Tile, t: Tiles.Tile?)
    requires SharedBlanks(es, blank) && (t != null && t.isBlank ==> t == blank)
    ensures SharedBlanks(Returned(es, t), blank)
  {
    var k := Find(es, t);
    var r := Returned(es, t);
    forall i | 0 <= i < |r| && r[i].tile != null && r[i].tile.isBlank ensures r[i].tile == blank {
      if !(i < |es| && i != k) {
        assert r[i].tile == t;
      }
    }
  }

  /** A take only lowers or drops an entry, so every blank key stays the shared blank. */
  lemma TakenKeepsSharedBlanks(es: seq<Entry>, blank: Tiles.Tile, k: nat)
    requires SharedBlanks(es, blank) && k < |es|
    ensures SharedBlanks(Taken(es, k), blank)
  {
    if es[k].count <= 1 {
      var r := es[..k] + es[k + 1..];
      forall i | 0 <= i < |r| && r[i].tile != null && r[i].tile.isBlank ensures r[i].tile == blank {
        assert r[i] == es[if i < k then i else i + 1];
      }
    }
  }

  lemma TotalUpdate(es: seq<Entry>, k: nat, e: Entry)
    requires k < |es|
    ensures Total(es[k := e]) == Total(es) - es[k].count + e.count
  {
    assert es == es[..k] + [es[k]] + es[k + 1..];
    assert es[k := e] == es[..k] + [e] + es[k + 1..];
    TotalConcat(es[..k] + [es[k]], es[k + 1..]);
    TotalConcat(es[..k] + [e], es[k + 1..]);
    TotalConcat(es[..k], [es[k]]);
    TotalConcat(es[..k], [e]);
  }

  /** Taking a tile lowers the total by exactly one. */
  lemma {:induction false} TotalTaken(es: seq<Entry>, k: nat)
    requires k < |es|
    requires es[k].count >= 1
    ensures Total(Taken(es, k)) == Total(es) - 1
  {
    if es[k].count > 1 {
      TotalUpdate(es, k, Entry(es[k].tile, es[k].count - 1));
    } else {
      TotalRemoved(es, k);
    }
  }

  /** Removing entry `k` lowers the total by its count. */
  lemma {:induction false} TotalRemoved(es: seq<Entry>, k: nat)
    requires k < |es|
    ensures Total(es[..k] + es[k + 1..]) == Total(es) - es[k].count
  {
    var a, b := es[..k], es[k + 1..];
    assert es == (a + [es[k]]) + b;
    TotalConcat(a + [es[k]], b);
    TotalConcat(a, [es[k]]);
    TotalConcat(a, b);
    assert Total([es[k]]) == es[k].count by {
      assert [es[k]][..0] == [];
    }
  }

  /** Returning a tile raises the total by exactly one. */
  lemma TotalReturned(es: seq<Entry>, t: Tiles.Tile?)
    ensures Total(Returned(es, t)) == Total(es) + 1
  {
    var k := Find(es, t);
    if k < |es| {
      TotalUpdate(es, k, Entry(t, es[k].count + 1));
    } else {
      TotalConcat(es, [Entry(t, 1)]);
    }
  }

  /** A pick followed by returning the picked key restores the bag's size. */
  lemma PickThenReturnRestoresTotal(es: seq<Entry>, k: nat)
    requires k < |es| && es[k].count >= 1
    ensures Total(Returned(Taken(es, k), es[k].tile)) == Total(es)
  {
    TotalTaken(es, k);
    TotalReturned(Taken(es, k), es[k].tile);
  }

  lemma TakenKeepsWellFormed(es: seq<Entry>, k: nat)
    requires WellFormed(es) && k < |es|
    ensures WellFormed(Taken(es, k))
  {
    if es[k].count <= 1 {
      var r := es[..k] + es[k + 1..];
      forall i, j | 0 <= i < j < |r| ensures r[i].tile != r[j].tile {
        var i' := if i < k then i else i + 1;
        var j' := if j < k then j else j + 1;
        assert r[i] == es[i'] && r[j] == es[j'];
      }
      forall i | 0 <= i < |r| ensures r[i].count >= 1 {
        assert r[i] == es[if i < k then i else i + 1];
      }
    }
  }

  /** A well-formed bag holds at least one tile per entry. */
  lemma {:induction false} TotalAtLeastEntries(es: seq<Entry>)
    requires WellFormed(es)
    ensures Total(es) >= |es|
    decreases |es|
  {
    if es != [] {
      TotalAtLeastEntries(es[..|es| - 1]);
    }
  }

  /** A pick never brings a null key into the bag. */
  lemma TakenKeepsNoNullKey(es: seq<Entry>, k: nat)
    requires NoNullKey(es) && k < |es|
    ensures NoNullKey(Taken(es, k))
  {
    if es[k].count <= 1 {
      var r := es[..k] + es[k + 1..];
      forall i | 0 <= i < |r| ensures r[i].tile != null {
        assert r[i] == es[if i < k then i else i + 1];
      }
    }
  }

  lemma ReturnedKeepsWellFormed(es: seq<Entry>, t: Tiles.Tile?)
    requires WellFormed(es)
    ensures WellFormed(Returned(es, t))
  {
  }

  /** A pick on a well-formed bag, with `r` in range, selects exactly one entry. */
  lemma {:induction false} PickIsUnique(es: seq<Entry>, r: int, k1: nat, k2: nat)
    requires WellFormed(es)
    requires k1 < |es| && Total(es[..k1]) <= r < Total(es[..k1 + 1])
    requires k2 < |es| && Total(es[..k2]) <= r < Total(es[..k2 + 1])
    ensures k1 == k2
  {
    if k1 < k2 {
      PrefixMonotone(es, k1 + 1, k2);
    } else if k2 < k1 {
      PrefixMonotone(es, k2 + 1, k1);
    }
  }

  lemma {:induction false} PrefixMonotone(es: seq<Entry>, i: nat, j: nat)
    requires WellFormed(es) && i <= j <= |es|
    ensures Total(es[..i]) <= Total(es[..j])
    decreases j - i
  {
    if i < j {
      PrefixMonotone(es, i, j - 1);
      assert es[..j][..j - 1] == es[..j - 1];
    }
  }

  /** The counts of A to M add up to 54. */
  lemma SumOfFirstBagCounts()
    ensures Sum(BagCounts[..13]) == 54
  {
    assert Sum(BagCounts[..1]) == 10;
    assert BagCounts[..2][..1] == BagCounts[..1];
    assert Sum(BagCounts[..2]) == 12;
    assert BagCounts[..3][..2] == BagCounts[..2];
    assert Sum(BagCounts[..3]) == 14;
    assert BagCounts[..4][..3] == BagCounts[..3];
    assert Sum(BagCounts[..4]) == 18;
    assert BagCounts[..5][..4] == BagCounts[..4];
    assert Sum(BagCounts[..5]) == 30;
    assert BagCounts[..6][..5] == BagCounts[..5];
    assert Sum(BagCounts[..6]) == 32;
    assert BagCounts[..7][..6] == BagCounts[..6];
    assert Sum(BagCounts[..7]) == 35;
    assert BagCounts[..8][..7] == BagCounts[..7];
    assert Sum(BagCounts[..8]) == 37;
    assert BagCounts[..9][..8] == BagCounts[..8];
    assert Sum(BagCounts[..9]) == 46;
    assert BagCounts[..10][..9] == BagCounts[..9];
    assert Sum(BagCounts[..10]) == 47;
    assert BagCounts[..11][..10] == BagCounts[..10];
    assert Sum(BagCounts[..11]) == 48;
    assert BagCounts[..12][..11] == BagCounts[..11];
    assert Sum(BagCounts[..12]) == 52;
    assert BagCounts[..13][..12] == BagCounts[..12];
  }

  /** The letter counts of a fresh bag add up to 100. */
  lemma SumOfBagCounts()
    ensures Sum(BagCounts) == 100
  {
    SumOfFirstBagCounts();
    assert Sum(BagCounts[..13]) == 54;
    assert BagCounts[..14][..13] == BagCounts[..13];
    assert Sum(BagCounts[..14]) == 60;
    assert BagCounts[..15][..14] == BagCounts[..14];
    assert Sum(BagCounts[..15]) == 68;
    assert BagCounts[..16][..15] == BagCounts[..15];
    assert Sum(BagCounts[..16]) == 70;
    assert BagCounts[..17][..16] == BagCounts[..16];
    assert Sum(BagCounts[..17]) == 71;
    assert BagCounts[..18][..17] == BagCounts[..17];
    assert Sum(BagCounts[..18]) == 78;
    assert BagCounts[..19][..18] == BagCounts[..18];
    assert Sum(BagCounts[..19]) == 82;
    assert BagCounts[..20][..19] == BagCounts[..19];
    assert Sum(BagCounts[..20]) == 88;
    assert BagCounts[..21][..20] == BagCounts[..20];
    assert Sum(BagCounts[..21]) == 92;
    assert BagCounts[..22][..21] == BagCounts[..21];
    assert Sum(BagCounts[..22]) == 94;
    assert BagCounts[..23][..22] == BagCounts[..22];
    assert Sum(BagCounts[..23]) == 96;
    assert BagCounts[..24][..23] == BagCounts[..23];
    assert Sum(BagCounts[..24]) == 97;
    assert BagCounts[..25][..24] == BagCounts[..24];
    assert Sum(BagCounts[..25]) == 99;
    assert BagCounts[..26][..25] == BagCounts[..25];
    assert Sum(BagCounts[..26]) == 100;
    assert BagCounts[..26] == BagCounts;
  }

  /** A fresh bag has distinct keys: distinct letters, and the blank is the only blank. */
  lemma FreshBagWellFormed(table: Tiles.TileTable, blank: Tiles.Tile, es: seq<Entry>)
    requires table.Valid() && blank.isBlank
    requires |es| == 27 && es[26] == Entry(blank, BlankCount)
    requires forall k :: 0 <= k < 26 ==> es[k] == Entry(table.GetTile(Tiles.TableLetters[k]), BagCounts[k])
    ensures WellFormed(es)
  {
    forall i, j | 0 <= i < j < |es| ensures es[i].tile != es[j].tile {
      FreshKeysDiffer(table, blank, es, i, j);
    }
  }

  lemma FreshKeysDiffer(table: Tiles.TileTable, blank: Tiles.Tile, es: seq<Entry>, i: nat, j: nat)
    requires table.Valid() && blank.isBlank
    requires |es| == 27 && es[26] == Entry(blank, BlankCount)
    requires forall k :: 0 <= k < 26 ==> es[k] == Entry(table.GetTile(Tiles.TableLetters[k]), BagCounts[k])
    requires i < j < 27
    ensures es[i].tile != es[j].tile
  {
    var a := table.GetTile(Tiles.TableLetters[i]);
    Tiles.TableLetterAt(i);
    assert es[i].tile == a && a != null && a.letter == Tiles.TableLetters[i] && !a.isBlank;
    if j < 26 {
      Tiles.TableLetterAt(j);
      assert es[j].tile.letter == Tiles.TableLetters[j];
    } else {
      assert es[j].tile == blank;
    }
  }

  /** A fresh bag holds 102 tiles. */
  lemma FreshBagTotal(es: seq<Entry>)
    requires |es| == 27 && es[26].count == BlankCount
    requires forall k :: 0 <= k < 26 ==> es[k].count == BagCounts[k]
    ensures Total(es) == 102
  {
    TotalIsSumOfCounts(es[..26], BagCounts);
    SumOfBagCounts();
    assert es[..26] == es[..|es| - 1];
  }

  lemma {:induction false} TotalIsSumOfCounts(es: seq<Entry>, counts: seq<int>)
    requires |es| == |counts| && forall k :: 0 <= k < |es| ==> es[k].count == counts[k]
    ensures Total(es) == Sum(counts)
  {
    if es != [] {
      TotalIsSumOfCounts(es[..|es| - 1], counts[..|counts| - 1]);
    }
  }

  /** The letters listed by toString are as many as the tiles in the bag. */
  lemma {:induction false} ExpandLength(es: seq<Entry>)
    requires forall i :: 0 <= i < |es| ==> es[i].tile != null
    requires forall i :: 0 <= i < |es| ==> es[i].count >= 1
    ensures |Expand(es)| == Total(es)
  {
    if es != [] {
      ExpandLength(es[..|es| - 1]);
    }
  }

  lemma {:induction false} InsertSortedPerm(c: char, s: seq<char>)
    requires Sorted(s)
    ensures multiset(Insert(c, s)) == multiset(s) + multiset{c}
    ensures Sorted(Insert(c, s))
    decreases |s|
  {
    InsertPerm(c, s);
    if s == [] {
    } else if c <= s[0] {
      assert forall j :: 0 <= j < |s| ==> s[0] <= s[j];
      SortedCons(c, s);
    } else {
      var r := Insert(c, s[1..]);
      InsertSortedPerm(c, s[1..]);
      assert Insert(c, s) == [s[0]] + r;
      LowerBoundKept(s[0], c, s[1..], r);
      SortedCons(s[0], r);
    }
  }

  /** Inserting adds exactly c. */
  lemma {:induction false} InsertPerm(c: char, s: seq<char>)
    ensures multiset(Insert(c, s)) == multiset(s) + multiset{c}
    decreases |s|
  {
    if s != [] && c > s[0] {
      InsertPerm(c, s[1..]);
      assert s == [s[0]] + s[1..];
      assert multiset([s[0]] + Insert(c, s[1..])) == multiset{s[0]} + multiset(Insert(c, s[1..]));
    }
  }

  /** A lower bound of a sorted list can go in front of it. */
  lemma SortedCons(x: char, r: seq<char>)
    requires Sorted(r) && forall j :: 0 <= j < |r| ==> x <= r[j]
    ensures Sorted([x] + r)
  {
    forall i, j | 0 <= i < j < |[x] + r| ensures ([x] + r)[i] <= ([x] + r)[j] {
      if i > 0 {
        assert ([x] + r)[i] == r[i - 1];
      }
      assert ([x] + r)[j] == r[j - 1];
    }
  }

  /** A lower bound of a list and of c stays a lower bound of any rearrangement of the list with c added. */
  lemma LowerBoundKept(x: char, c: char, s: seq<char>, r: seq<char>)
    requires multiset(r) == multiset(s) + multiset{c}
    requires x <= c && forall k :: 0 <= k < |s| ==> x <= s[k]
    ensures forall j :: 0 <= j < |r| ==> x <= r[j]
  {
    forall j | 0 <= j < |r| ensures x <= r[j] {
      assert r[j] in multiset(r);
      if r[j] != c {
        assert r[j] in multiset(s);
        var k :| 0 <= k < |s| && s[k] == r[j];
      }
    }
  }

  /** toString's letter list is sorted and holds exactly the bag's letters. */
  lemma {:induction false} SortLettersSortedPerm(s: seq<char>)
    ensures Sorted(SortLetters(s)) && multiset(SortLetters(s)) == multiset(s)
    decreases |s|
  {
    if s != [] {
      SortLettersSortedPerm(s[..|s| - 1]);
      InsertSortedPerm(s[|s| - 1], SortLetters(s[..|s| - 1]));
      assert s == s[..|s| - 1] + [s[|s| - 1]];
    }
  }

  /** The joined list places the k-th letter at 3k, separated by ", ". */
  lemma {:induction false} JoinAt(s: seq<char>)
    ensures |Join(s)| == if s == [] then 0 else 3 * |s| - 2
    ensures forall k :: 0 <= k < |s| ==> Join(s)[3 * k] == s[k]
    decreases |s|
  {
    if |s| > 1 {
      JoinAt(s[..|s| - 1]);
    }
  }
}

=== FILE: tiles.dfy ===
/**
 * Game pieces. A `Tile` has a fixed base letter, a fixed value and a blank flag;
 * only the letter a blank stands for can change after construction.
 * `TileTable` is the shared table of the 26 letter tiles that `Tile.getTile` serves.
 */
module Tiles {
  import Scoring
  import opened Wrappers

  class Tile {
    const letter: char
    const value: int
    const isBlank: bool
    var assignedLetter: char

    /** A blank is worth nothing. */
    ghost predicate Valid() {
      isBlank ==> value == 0
    }

    /** The three-argument constructor: a blank gets value 0 and no assigned letter yet. */
    constructor Make(letter: char, value: int, isBlank: bool)
      ensures this.letter == letter && this.isBlank == isBlank
      ensures this.value == (if isBlank then 0 else value)
      ensures assignedLetter == (if isBlank then ' ' else letter)
      ensures Valid()
    {
      this.letter := letter;
      this.value := if isBlank then 0 else value;
      this.isBlank := isBlank;
      this.assignedLetter := if isBlank then ' ' else letter;
    }

    /** The two-argument constructor: the letter is upper-cased and the tile is never blank. */
    constructor (letter: char, value: int)
      ensures this.letter == Scoring.ToUpper(letter) && this.value == value && !isBlank
      ensures assignedLetter == ' '
      ensures Valid()
    {
      this.letter := Scoring.ToUpper(letter);
      this.value := value;
      this.isBlank := false;
      this.assignedLetter := ' ';
    }

    static method CreateLetter(c: char, value: int) returns (t: Tile)
      ensures fresh(t) && t.Valid()
      ensures t.letter == c && t.value == value && !t.isBlank && t.EffectiveLetter() == c
    {
      t := new Tile.Make(c, value, false);
    }

    static method CreateBlank() returns (t: Tile)
      ensures fresh(t) && t.Valid()
      ensures t.isBlank && t.value == 0 && t.EffectiveLetter() == ' ' && t.ToString() == " "
    {
      t := new Tile.Make(' ', 0, true);
    }

    /** The letter the tile plays as: the assigned letter of a blank, the base letter otherwise. */
    function EffectiveLetter(): (c: char)
      reads this
      ensures !isBlank ==> c == letter
      ensures isBlank ==> c == assignedLetter
    {
      if isBlank then assignedLetter else letter
    }

    /** Only a blank takes an assigned letter, and it is stored upper-cased. */
    method SetAssignedLetter(chosen: char)
      modifies this
      ensures assignedLetter == (if isBlank then Scoring.ToUpper(chosen) else old(assignedLetter))
      ensures isBlank ==> EffectiveLetter() == Scoring.ToUpper(chosen)
      ensures !isBlank ==> EffectiveLetter() == old(EffectiveLetter())
    {
      if isBlank {
        assignedLetter := Scoring.ToUpper(chosen);
      }
    }

    function GetValue(): (v: int)
      requires Valid()
      ensures isBlank ==> v == 0
      ensures v == value
    {
      value
    }

    /** The base letter as a one-character string; a blank shows as a space whatever it is assigned. */
    function ToString(): (s: string)
      ensures |s| == 1 && s[0] == letter
    {
      [letter]
    }
  }

  /** The letter each listed tile plays as; an empty (null) entry plays none. */
  function EffectiveLetters(ts: seq<Tile?>): (ls: seq<Option<char>>)
    reads set i | 0 <= i < |ts| && ts[i] != null :: ts[i]
    ensures |ls| == |ts|
    ensures forall i :: 0 <= i < |ts| ==> ls[i] == if ts[i] == null then None else Some(ts[i].EffectiveLetter())
  {
    if ts == [] then []
    else EffectiveLetters(ts[..|ts| - 1]) + [if ts[|ts| - 1] == null then None else Some(ts[|ts| - 1].EffectiveLetter())]
  }

  /** The letters of the table, in the order they are listed. */
  const TableLetters: string := "ABCDEFGHIJKLMNOPQRSTUVWXYZ"

  /** The value the table gives each listed letter. */
  const TableValues: seq<int> :=
    [1, 3, 3, 2, 1, 4, 2, 4, 1, 8, 5, 1, 3, 1, 1, 3, 10, 1, 1, 1, 1, 4, 4, 8, 4, 10]

  /** The static ALL_TILES map: one shared, non-blank tile per upper-case letter. */
  class TileTable {
    const tiles: map<char, Tile>

    ghost predicate Valid() {
      && tiles.Keys == (set k | 0 <= k < |TableLetters| :: TableLetters[k])
      && forall c :: c in tiles ==>
           tiles[c].letter == c && !tiles[c].isBlank && tiles[c].value == Scoring.LetterValue(c)
    }

    constructor ()
      ensures Valid()
      ensures forall c :: c in tiles ==> fresh(tiles[c])
    {
      var m: map<char, Tile> := map[];
      for k := 0 to |TableLetters|
        invariant m.Keys == set j | 0 <= j < k :: TableLetters[j]
        invariant forall c :: c in m ==>
                    fresh(m[c]) && m[c].letter == c && !m[c].isBlank && m[c].value == Scoring.LetterValue(c)
      {
        TableAgreesWithScoring(k);
        var t := new Tile(TableLetters[k], TableValues[k]);
        m := m[TableLetters[k] := t];
      }
      tiles := m;
    }

    /** getTile: the shared tile of an upper-case letter, null for every other character. */
    function GetTile(c: char): (t: Tile?)
      requires Valid()
      ensures t != null <==> Scoring.IsUpperLetter(c)
      ensures t != null ==> t.letter == c && !t.isBlank && t.value == Scoring.LetterValue(c)
      ensures t != null ==> t.EffectiveLetter() == c
    {
      TableLettersAreUpper(c);
      if c in tiles then tiles[c] else null
    }
  }

  /** The k-th table letter is the k-th letter of the alphabet. */
  lemma TableLetterAt(k: nat)
    requires k < |TableLetters|
    ensures TableLetters[k] as int == 'A' as int + k
  {
  }

  /** The table letters are exactly A-Z. */
  lemma TableLettersAreUpper(c: char)
    ensures c in (set k | 0 <= k < |TableLetters| :: TableLetters[k]) <==> Scoring.IsUpperLetter(c)
  {
    if Scoring.IsUpperLetter(c) {
      var k := c as int - 'A' as int;
      assert TableLetters[k] == c;
    }
  }

  /** The tile table and the scoring table give every letter the same value. */
  lemma TableAgreesWithScoring(k: nat)
    requires k < |TableLetters|
    ensures TableLetters[k] == Scoring.ToUpper(TableLetters[k])
    ensures TableValues[k] == Scoring.LetterValue(TableLetters[k])
  {
  }
}

=== FILE: wrappers.dfy ===
/** Optional values: the model's stand-in for Java's `null` results. */
module Wrappers {

  datatype Option<+T> = None | Some(value: T)

}
